=== FILE: README.md ===
# Fleet inspection and maintenance: a Dafny model

The system is a municipal fleet-management application. Drivers fill in
a 51-item vehicle checklist (an *inspección*). Administrators manage
users, drivers (*conductores*), vehicles and maintenance records
(*mantenciones*). The server renders an inspection and a maintenance
record as PDF reports, and a browser client lists, filters and charts
the data.

This project models the decision logic and the data transforms of that
system as pure Dafny functions over immutable data, and proves what they
promise.

Server side:

- `Auth`, `AuthOptional` and `Billetera` model the request identity layer:
  - bearer-token extraction;
  - claim checks and the normalisation of the role (first letter upper case, the rest lower case);
  - the optional-token precedence;
  - the wallet routes' role allow-list.

  Token verification is a function parameter.
- `Table` and `Store` model the database:
  - tables are sequences of rows with a serial id;
  - a multi-statement handler is a list of statements run under BEGIN/COMMIT/ROLLBACK;
  - a transaction either commits every statement or leaves the store as it was.
- `Inspecciones` models the inspection routes:
  - the required-field and driver-files-only-for-self checks;
  - per-item normalisation;
  - the all-or-nothing parent-plus-items insert;
  - the scoped listing and the item read.
- `Mantenciones` models the maintenance routes:
  - the positional `$n` placeholder batch;
  - field defaults;
  - replacing the item set on update.
- `Vehiculos`, `Usuarios` and `Conductores` model the entity routes:
  - normalisation and defaults;
  - the 400/404 branches;
  - the delete guard while an inspection names a vehicle;
  - the hash-only credential;
  - the role-scoped driver routes.
- `Reportes` and `MantencionesPdf` model the two PDF reports:
  - the merge of stored items onto the fixed checklist;
  - where each table row lands (the page-break rule, with page height and margins as integer parameters);
  - row shading and status colour;
  - signature placement;
  - the maintenance total;
  - the buffered "Página k de N" numbering pass;
  - the 404 and error branches.

  The inspection report's drawing is represented as a list of row placements. A placement flagged `breakBefore` stands for the events "new page, page header, table header" emitted before that row.

Client side:

- `Activo` models the type clash of the `usuarios.activo` column across the user and driver routes.
- `Rut` models the Chilean RUT helpers: cleaning, the dotted format and the modulo-11 check digit.
- `Duplicados` models the case-insensitive duplicate check.
- `UsuariosPage`, `VehiculosPage` and `InspeccionPage` model the save handlers and form state of the management pages, and the ten-per-page list.
- `ReportesPage` models the filter pipeline, the page slice, the page count and the "Mostrando" range of the report list.
- `Dashboard` models the counters, the per-vehicle inspection tally and the chart built from it.

Shared modules:

- `Js` holds JavaScript value semantics: truthiness, `||` defaults and `Number(...)`.
- `Text` holds ASCII string functions.
- `Sorting` holds an insertion sort and the string order.

Where a client page and a server route meet, lemmas connect them:

- what the page sends is what the route stores;
- the checklist the form offers is the one the report prints;
- the driver count card agrees with the driver listing.

Each finding below is proved twice in the Dafny: the code as written shows the fault, and the corrected definition has the intended property. The rest of the model uses the corrected definitions.

## Model

| member | source | states |
|---|---|---|
| Auth.BearerToken | server/middleware/auth.js:4-5 | a token exists exactly when the header starts with "Bearer ", and it is the rest of the header |
| Auth.Capitalise | server/middleware/auth.js:32-33 | same length; first character upper-cased, every later one lower-cased |
| Auth.NormaliseRole | server/middleware/auth.js:30-34 | a string role is capitalised; any other claim becomes "Desconocido" |
| Auth.CapitaliseIdempotent | server/middleware/auth.js:30-34 | normalising a normalised role changes nothing |
| Auth.NormalisedRoleNotLowercase | server/middleware/auth.js:30-34 | a normalised role never equals a name that starts with a lower-case letter |
| Auth.Authenticate | server/middleware/auth.js:3-54 | a missing or empty bearer token gives 401 "Token no enviado"; a verification error gives 401 with the message chosen by its name; a payload that is not an object, or lacks a truthy `id` or `rol`, gives its own 401; `next()` exactly for a decoded object with truthy `id` and `rol`, with `id` as `Number(id)`, `nombre`/`username` defaulting to "" and the normalised role |
| Auth.VerifyErrorMessage | server/middleware/auth.js:44-53 | a thrown error whose message mentions "expired" gives "Token expirado."; any other, or none, gives "Token inválido o manipulado." |
| Auth.DefaultMessageNotExpired | server/middleware/auth.js:45-47 | the fallback message does not count as an expiry |
| Auth.RejectMessages | server/middleware/auth.js:8-52 | every rejection carries one of the five messages the middleware writes |
| AuthOptional.TokenSource | server/middleware/authOptional.js:5-18 | a non-empty `?token=` wins; otherwise a bearer header's token; otherwise none |
| AuthOptional.OptionalUser | server/middleware/authOptional.js:20-36 | `req.user` is set only for a token that verifies; for an object payload each of id, username and rol is kept when truthy and is `null` otherwise; a non-object payload gives all three `null`; the request is never rejected |
| AuthOptional.QueryTokenPrecedence | server/middleware/authOptional.js:8-13 | with a query token the Authorization header has no effect at all |
| AuthOptional.HeaderNeedsBearer | server/middleware/authOptional.js:13-21 | without a query token, a header lacking "Bearer " leaves the request anonymous |
| AuthOptional.VerifiedTokenSetsUser | server/middleware/authOptional.js:23-34 | once a token is found, the user is set if and only if verification succeeds |
| Billetera.AllowRoles | server/routes/billeteraRoutes.js:19-31 | passes exactly when there is a user whose role is in the list verbatim; else 403 "No autorizado" |
| Billetera.RouteRoles | server/routes/billeteraRoutes.js:16-44 | all three wallet routes use the same two-name list |
| Billetera.WalletAccess | server/routes/billeteraRoutes.js:16-44 | the chain `auth` then `allowRoles(ROLES)`: passes exactly when authentication succeeds and the normalised role is one of the two listed names; an authentication rejection keeps its status and message; any other user gets 403 "No autorizado" |
| Billetera.WalletAccessFixed | server/routes/billeteraRoutes.js:19-31 | the same chain with the corrected guard: passes exactly when authentication succeeds and the lower-cased role is listed |
| Billetera.WalletUnreachable | server/routes/billeteraRoutes.js:16-22 | after the authentication middleware, no request ever passes the wallet guard |
| Billetera.AllowRolesCaseInsensitive | server/routes/billeteraRoutes.js:19-31 | corrected guard: passes exactly when the lower-cased role is listed |
| Billetera.FixedGuardAdmitsAdmin | server/routes/billeteraRoutes.js:16-38 | with the corrected guard a token with role "admin" reaches every wallet route |
| Billetera.FixedGuardRejectsOthers | server/routes/billeteraRoutes.js:19-31 | the corrected guard passes an authenticated user if and only if the lower-cased role is listed, and never passes a rejected request |
| Inspecciones.Prefix | server/routes/inspeccionRoutes.js:92 | `slice(0, n)`: no longer than n, a prefix of the input, and the whole input when it fits |
| Inspecciones.ObsText | server/routes/inspeccionRoutes.js:92 | a falsy obs stores ""; a text obs stores a prefix of at most 255 characters; a truthy non-text obs makes the request fail |
| Inspecciones.NormaliseItem | server/routes/inspeccionRoutes.js:85-93 | the row carries the new id and the key; `existe` is "NO" exactly when "NO" was sent, otherwise "SI"; `estado` is kept only when it is Bueno, Regular or Malo, otherwise "Bueno"; obs is at most 255 characters |
| Inspecciones.ItemRows | server/routes/inspeccionRoutes.js:81-95 | one row per entry of `items`, in order, each the entry's normalisation; none when `items` is absent or not an object |
| Inspecciones.InspRow | server/routes/inspeccionRoutes.js:70-77 | the parent row exists when both ids cast; it has estado "OK", observacion defaulting to "" and foto `null` when falsy |
| Inspecciones.ItemInserts | server/routes/inspeccionRoutes.js:97-111 | one insert statement per item row, in order |
| Inspecciones.ItemInsertsApply | server/routes/inspeccionRoutes.js:97-111 | under an existing parent, the item inserts append exactly those rows |
| Inspecciones.CreateWritesApply | server/routes/inspeccionRoutes.js:67-113 | the parent-plus-items statements succeed exactly when the id is fresh and both foreign keys exist, and then add exactly the parent and its rows |
| Inspecciones.CreateInspeccion | server/routes/inspeccionRoutes.js:49-127 | 400 exactly when `vehiculo_id` is falsy; 403 exactly for a driver filing for someone else; 201 exactly when admitted and the transaction commits, storing the parent and all items and answering the item count; any failure leaves the store unchanged |
| Inspecciones.PostInspeccion | server/routes/inspeccionRoutes.js:49 | the route runs behind `auth`: a rejected token gives 401 and no change |
| Inspecciones.CreatePreservesWellformed | server/routes/inspeccionRoutes.js:67-126 | creation keeps every item row attached to an existing inspection |
| Inspecciones.ItemsOfAppend | server/routes/inspeccionRoutes.js:149-156 | selecting the items of an inspection distributes over appended rows |
| Inspecciones.ItemsOfAll | server/routes/inspeccionRoutes.js:149-156 | rows that all belong to the inspection are all selected |
| Inspecciones.ItemsOfNone | server/routes/inspeccionRoutes.js:149-156 | rows of other inspections are never selected |
| Inspecciones.GetItems | server/routes/inspeccionRoutes.js:130-164 | 403 when the inspection is missing or, for a driver, not their own; otherwise exactly its item rows |
| Inspecciones.StoredAfterInsert | server/routes/inspeccionRoutes.js:97-156 | the items read back under a fresh id are exactly the rows just inserted |
| Inspecciones.ReadAfterInsert | server/routes/inspeccionRoutes.js:130-158 | a non-driver reading a freshly inserted inspection gets exactly its rows |
| Inspecciones.StoredAfterCreate | server/routes/inspeccionRoutes.js:70-118 | after a 201 the store holds the parent row and exactly the normalised items under the new id |
| Inspecciones.CreateThenReadItems | server/routes/inspeccionRoutes.js:49-164 | a created inspection's items, read back by a non-driver, are the normalised items that were sent |
| Inspecciones.JoinRows | server/routes/inspeccionRoutes.js:14-28 | every listed row is the join of a stored inspection whose user has the driver role and, for a driver, is the caller |
| Inspecciones.JoinComplete | server/routes/inspeccionRoutes.js:14-35 | every listable inspection appears in the join |
| Inspecciones.JoinOrdered | server/routes/inspeccionRoutes.js:37 | the join keeps the id-descending order |
| Inspecciones.ListComplete | server/routes/inspeccionRoutes.js:14-37 | the listing holds exactly the listable inspections |
| Inspecciones.ListHasListable | server/routes/inspeccionRoutes.js:14-37 | every stored inspection whose user is a driver-role account and whose vehicle exists (and, for a driver, that is the caller's) appears in the listing |
| Inspecciones.ListOnlyListable | server/routes/inspeccionRoutes.js:14-37 | nothing else appears: every listed row is the joined view of such an inspection |
| Inspecciones.JoinAppend | server/routes/inspeccionRoutes.js:14-28 | the join is row-by-row: joining two blocks of rows gives the two joins one after the other |
| Inspecciones.JoinPermute | server/routes/inspeccionRoutes.js:14-37 | the order the rows are read in does not change which list rows come out, or how many times each |
| Inspecciones.ListInspecciones | server/routes/inspeccionRoutes.js:9-46 | ids descending; exactly the inspections of driver-role users, restricted to the caller's own for a driver, each as many times as it is stored (the same multiset as joining the table in stored order); 500 when a driver's id is not a number |
| Reportes.ReportRows | server/routes/reportesRoutes.js:13-22 | at most one row, and one exactly when the inspection, its user and its vehicle all exist |
| Reportes.FindKey | server/routes/reportesRoutes.js:267 | `find`: the first stored row with that key, and none exactly when no row has it |
| Reportes.OrDefault | server/routes/reportesRoutes.js:270-272 | `\|\| d` on text: the default replaces exactly the empty string |
| Reportes.MergeOne | server/routes/reportesRoutes.js:266-274 | the merged row carries the catalog key and the first matching row's fields, with "SI", "Bueno" and "" for falsy or missing ones |
| Reportes.Merge | server/routes/reportesRoutes.js:200-274 | exactly one merged row per catalog entry, in catalog order |
| Reportes.UnknownKeysIgnored | server/routes/reportesRoutes.js:266-274 | a stored row whose key is not in the catalog never changes the table |
| Reportes.FindKeyAppend | server/routes/reportesRoutes.js:267 | a match in the earlier rows always wins over later rows |
| Reportes.Place | server/routes/reportesRoutes.js:310-363 | one placement per row; a row starts a new page exactly when the cursor is below pageHeight − 120, is then placed under the redrawn headers, and otherwise sits 18 below the previous row |
| Reportes.RowsStayAboveLimit | server/routes/reportesRoutes.js:313-316 | when the redrawn header fits, no row is ever placed below the break line |
| Reportes.PlacePrefix | server/routes/reportesRoutes.js:312-364 | the placement of the first n rows does not depend on the rows after them |
| Reportes.PagesBounded | server/routes/reportesRoutes.js:313-314 | row i is at most i + 1 pages after the starting page |
| Reportes.RowFill | server/routes/reportesRoutes.js:338 | "#F9F9F9" exactly on even indices, "#FFFFFF" otherwise; the maintenance report shades its rows by the same rule (server/routes/mantencionesPdfRoutes.js:190) |
| Reportes.EstadoColor | server/routes/reportesRoutes.js:355 | green exactly for "Bueno", red otherwise |
| Reportes.DrawRows | server/routes/reportesRoutes.js:338-362 | each drawn row carries its item, placement, shading, estado colour, and the obs or "-" when it is empty |
| Reportes.SignatureAt | server/routes/reportesRoutes.js:372-375 | a new page exactly when the cursor is past the limit; the block's y never exceeds the limit, equals the cursor when no page was added, and is the fresh page's cursor or the limit, whichever is smaller, when one was |
| Reportes.Interp | server/routes/reportesRoutes.js:128 | a missing name is interpolated as "null" (the same at line 378) |
| Reportes.DriverLines | server/routes/reportesRoutes.js:125-141 | "Conductor: " and the interpolated name always comes first; then "RUT: ", "Dirección: ", "Teléfono: " and "Clase Licencia: " with their values, in that order, each present exactly when its value is truthy |
| Reportes.PhotoSectionOf | server/routes/reportesRoutes.js:156-187 | no photo, no section; a decode failure leaves no section; a successful placement shows heading and image |
| Reportes.Report | server/routes/reportesRoutes.js:24-397 | 404 "Inspección no encontrada" exactly on a query error or no row; the file name is inspeccion_<id>.pdf; the data lines are "ID Inspección: " with the id and "Vehículo: " with the vehicle; the driver lines are those of the found row; the observation falls back to "Sin observaciones registradas."; an items-query error prints its message instead of the table; otherwise row i is the catalog merge of item i with zebra fill, green-or-red estado colour and "-" for an empty observation, placed from a table top that depends on the photo section; the signature stays above its limit |
| Reportes.TableTop | server/routes/reportesRoutes.js:163-182 | the table header moves down by the photo heading when one is drawn, and by a further 160 + 25 points when the image is placed |
| Reportes.ItemsSection | server/routes/reportesRoutes.js:272-380 | an items-query error gives its message only; otherwise 51 rows in catalog order, each with its merge, fill, estado colour, observation cell and placement from the given top, then the signature block under its limit |
| Reportes.PhotoIsolated | server/routes/reportesRoutes.js:156-187 | whatever happens to the photo, the data, the row contents and the signature text are the same, only positions below the photo can move; when two outcomes give the same photo section the documents are identical |
| Reportes.FirstEntry | server/routes/inspeccionRoutes.js:84 | the first sent entry with a key, none exactly when there is none |
| Reportes.FindKeyOfBuilt | server/routes/inspeccionRoutes.js:81-95 | the first stored row with a key is the normalisation of the first sent entry with it |
| Reportes.MergeOfBuilt | server/routes/reportesRoutes.js:266-274 | the merged row of a key is determined by the first sent entry with that key |
| Reportes.CreateThenReport | server/routes/reportesRoutes.js:266-274 | after a created inspection, every catalog row of its report shows what was sent for that key, or the defaults |
| Reportes.RunReportQuery | server/routes/reportesRoutes.js:21-24 | a WHERE clause without a `$1` marker makes the query fail; with it the query returns the report rows |
| Reportes.RunItemsQuery | server/routes/reportesRoutes.js:191 | the same for the items query |
| Reportes.ReportRoute | server/routes/reportesRoutes.js:10-193 | the route is the report over the two queries; a PDF is produced only with a `$1` marker in the WHERE clause |
| Reportes.ReportAsWrittenAlwaysNotFound | server/routes/reportesRoutes.js:21-26 | with the `?` placeholder as written every request answers 404 |
| Reportes.ReportCorrectedFindsInspection | server/routes/reportesRoutes.js:13-26 | with `$1` placeholders an existing inspection yields a PDF with the full catalog table (the items query at line 191 corrected likewise) |
| Mantenciones.Or | server/routes/mantencionesRoutes.js:80-101 | `v \|\| d`: a truthy value is kept, a falsy one replaced |
| Mantenciones.BindInt | server/routes/mantencionesRoutes.js:73-81 | an integer column takes `null` for null or undefined, the number for a number, and a cast otherwise |
| Mantenciones.BindText | server/routes/mantencionesRoutes.js:73-81 | a text column takes `null` for null or undefined and the text for a string |
| Mantenciones.ParentRow | server/routes/mantencionesRoutes.js:73-81 | the parent row binds when every value casts; observacion defaults to "", usuario_id to `null`, costo to 0 (the update binds the same at lines 143-157) |
| Mantenciones.ItemParams | server/routes/mantencionesRoutes.js:96-102 | five values per item: the owner id, the item, tipo defaulting to "Tarea", cantidad to 1, costo_unitario to 0 |
| Mantenciones.Markers | server/routes/mantencionesRoutes.js:91-94 | item k gets markers 5k+1 to 5k+5 |
| Mantenciones.GroupsFrom | server/routes/mantencionesRoutes.js:90-94 | one VALUES group per item |
| Mantenciones.BatchParams | server/routes/mantencionesRoutes.js:88-103 | the parameter array has 5 values per item |
| Mantenciones.BatchParamsAt | server/routes/mantencionesRoutes.js:91-102 | parameter 5k+j is column j of item k |
| Mantenciones.MarkersConsecutive | server/routes/mantencionesRoutes.js:90-109 | the joined VALUES list uses exactly the markers 1 to 5n in order |
| Mantenciones.MarkersConsecutiveFrom | server/routes/mantencionesRoutes.js:90-94 | the groups from item `from` cover markers 5·from+1 onwards, consecutively |
| Mantenciones.BindItem | server/routes/mantencionesRoutes.js:105-112 | a bound item row belongs to the owner its first parameter names |
| Mantenciones.EvalBatch | server/routes/mantencionesRoutes.js:105-112 | the database's reading of the batch yields one row per group |
| Mantenciones.Cons | server/routes/mantencionesRoutes.js:105-112 | a batch binds only when every one of its rows binds |
| Mantenciones.ItemRows | server/routes/mantencionesRoutes.js:90-102 | one item row per submitted item |
| Mantenciones.ItemRowsAt | server/routes/mantencionesRoutes.js:90-102 | row k is the binding of item k's five values |
| Mantenciones.Picked | server/routes/mantencionesRoutes.js:91-102 | the markers of group k pick exactly item k's five values |
| Mantenciones.BatchAlignedFrom | server/routes/mantencionesRoutes.js:90-112 | from any item onwards, the positional batch binds exactly the rows built item by item |
| Mantenciones.BatchAligned | server/routes/mantencionesRoutes.js:86-113 | the whole positional batch binds exactly the rows built item by item |
| Mantenciones.Batch | server/routes/mantencionesRoutes.js:86-113 | the rows the batch statement inserts are the item-by-item rows |
| Mantenciones.ItemWrites | server/routes/mantencionesRoutes.js:86 | no item statement at all for an empty list (the update checks the same at line 166) |
| Mantenciones.PostWrites | server/routes/mantencionesRoutes.js:73-113 | the create statements fail only on a taken id, and otherwise add the parent and exactly its rows |
| Mantenciones.PutWrites | server/routes/mantencionesRoutes.js:143-193 | the update statements rewrite the parent when it exists, drop all its old items and append the new ones |
| Mantenciones.PostMantencion | server/routes/mantencionesRoutes.js:63-127 | 201 with the id exactly when `items` can be read, every value binds and no statement fails, storing parent and items together; an unreadable `items` (null, a non-empty non-array, a null element) or any other failure is 500 with no change |
| Mantenciones.PutMantencion | server/routes/mantencionesRoutes.js:132-204 | 200 exactly when `items` can be read, the id casts, every value binds and no statement fails; otherwise 500 and no change |
| Mantenciones.UpdateReplacesItems | server/routes/mantencionesRoutes.js:159-193 | after a successful update the record's items are exactly the submitted ones and other records' items are untouched |
| Mantenciones.RowsOwned | server/routes/mantencionesRoutes.js:96-97 | every built item row belongs to the record the request names (and in the update at lines 176-177) |
| Mantenciones.MantItemsAll | server/routes/mantencionesRoutes.js:48-51 | rows that all belong to the record are all selected |
| Mantenciones.MantItemsNone | server/routes/mantencionesRoutes.js:48-51 | rows of other records are never selected |
| Mantenciones.GetMantencion | server/routes/mantencionesRoutes.js:34-58 | 404 "Mantención no encontrada" exactly when no record has the id; otherwise the record with exactly its items; 500 when the id does not cast |
| Mantenciones.CreateThenGet | server/routes/mantencionesRoutes.js:34-127 | a created record reads back with exactly the rows built from the submitted items |
| Mantenciones.DeleteMantencion | server/routes/mantencionesRoutes.js:209-219 | answers 200 for every id that casts, even a missing one; the record is gone, other records are unchanged, and the items table is untouched |
| Mantenciones.DeleteThenGet | server/routes/mantencionesRoutes.js:34-219 | after a delete the record reads as 404 while its items stay behind; every other record reads as before |
| Store.ParseIntText | server/routes/mantencionesRoutes.js:39-40 | a decimal text parameter casts to its value; a blank one never casts |
| Store.ParamInt | server/routes/mantencionesRoutes.js:80 | a number binds as itself; null, undefined, booleans and objects never bind to an integer |
| Store.ItemsOf | server/routes/inspeccionRoutes.js:149-156 | only rows of the inspection, all drawn from the table |
| Store.MantItemsOf | server/routes/mantencionesRoutes.js:48-51 | only rows of the record, all drawn from the table |
| Store.DropMantItems | server/routes/mantencionesRoutes.js:160-163 | no row of the record survives, and every survivor was in the table |
| Store.MantItemsOfAppend | server/routes/mantencionesRoutes.js:48-51 | selection distributes over appended rows |
| Store.DropKeepsOthers | server/routes/mantencionesRoutes.js:160-163 | dropping one record's items leaves every other record's items as they were |
| Store.Apply | server/routes/inspeccionRoutes.js:70-110 | an item insert needs its parent; an inspection insert needs a fresh id and existing user and vehicle |
| Store.RunTx | server/routes/inspeccionRoutes.js:67-123 | a transaction commits exactly when no statement fails, and then holds the effect of all of them |
| Store.RunFrom | server/routes/mantencionesRoutes.js:70-121 | the same, for the statements from position k onwards |
| Store.ApplyAllOne | server/routes/mantencionesRoutes.js:73-81 | running one statement is applying it |
| Store.ApplyAllAppend | server/routes/mantencionesRoutes.js:70-115 | running two lists of statements is running the first and then the second on its result |
| MantencionesPdf.PdfRows | server/routes/mantencionesPdfRoutes.js:18-31 | at most one row, and one exactly when the record exists and its vehicle exists (inner join); the responsible user is optional (left join) |
| MantencionesPdf.LineOf | server/routes/mantencionesPdfRoutes.js:41-42 | each item line carries `cantidad * costo_unitario` as its subtotal |
| MantencionesPdf.LinesOf | server/routes/mantencionesPdfRoutes.js:39-47 | one line per stored item, in order |
| MantencionesPdf.TotalAppend | server/routes/mantencionesPdfRoutes.js:178-215 | the running total over two runs of lines is the sum of their totals |
| MantencionesPdf.TotalOfStored | server/routes/mantencionesPdfRoutes.js:214 | the printed total of stored items is the sum of their cantidad × costo_unitario (subtotals computed at line 42) |
| MantencionesPdf.AccumulateTotal | server/routes/mantencionesPdfRoutes.js:178-215 | the loop's total is the sum of the subtotals, a missing subtotal counting as 0 |
| MantencionesPdf.NoSubtotals | server/routes/mantencionesPdfRoutes.js:214 | lines without subtotals add up to 0 |
| MantencionesPdf.PlaceRows | server/routes/mantencionesPdfRoutes.js:180-213 | a page is added before a row exactly when the cursor is below pageHeight − 120; the row then goes at top margin + 20; otherwise 18 below the previous one |
| MantencionesPdf.Breaks | server/routes/mantencionesPdfRoutes.js:184-185 | the number of added pages is at most the number of rows |
| MantencionesPdf.LastPageCountsBreaks | server/routes/mantencionesPdfRoutes.js:184-187 | the last row's page is the first page plus the number of added pages |
| MantencionesPdf.CantidadCell | server/routes/mantencionesPdfRoutes.js:203 | the cell reads "-" exactly when the quantity is 0 |
| MantencionesPdf.Report | server/routes/mantencionesPdfRoutes.js:13-248 | a query failure gives 500 "Error al generar PDF"; no row gives 404 "Mantención no encontrada"; the file is mantencion_<id>.pdf; the data lines are the id, "Vehículo: " with plate and internal number in parentheses, "Tipo: " with the type or "null", and "Responsable: " falling back to "Sin asignar"; the cost is the record's; the observation falls back to "Sin observaciones registradas."; the table is replaced by the "Sin registro" line exactly when there are no items; row i shows the item, its tipo or "-", its quantity cell, its amounts, the zebra fill and its placement; the total is the sum of subtotals; the page count is one plus the breaks; every page carries the provisional "Página 1 de 1" and then "Página k de N" |
| MantencionesPdf.Labels | server/routes/mantencionesPdfRoutes.js:236-241 | the final pass labels page k "Página k de N" for every one of the N buffered pages |
| MantencionesPdf.PageLabels | server/routes/mantencionesPdfRoutes.js:187-241 | each page carries two labels at the same spot: the provisional "Página 1 de 1" drawn when it opened, then the final pass's label |
| MantencionesPdf.ProvisionalLabelStale | server/routes/mantencionesPdfRoutes.js:104-241 | the provisional page label matches the final one on every page only when the report has a single page |
| MantencionesPdf.Route | server/routes/mantencionesPdfRoutes.js:13-248 | an id that does not cast gives 500; 404 exactly when the joined query has no row; the printed total is the sum of the record's cantidad × costo_unitario |
| Vehiculos.Kilometro | server/routes/vehiculoRoutes.js:43-73 | `kilometro \|\| 0`: a falsy value stores 0, a number stores itself |
| Vehiculos.Normalise | server/routes/vehiculoRoutes.js:43-73 | the stored número interno is the trimmed text; the plate is the trimmed text upper-cased character by character; both come out trimmed and the plate non-empty |
| Vehiculos.List | server/routes/vehiculoRoutes.js:11-24 | every stored vehicle exactly once, highest id first |
| Vehiculos.Create | server/routes/vehiculoRoutes.js:29-51 | 400 "Campos obligatorios faltantes" when either text is missing or blank; 500 when kilometro does not cast or the plate is taken; otherwise 201 with the new id and the normalised row stored; a failure changes nothing |
| Vehiculos.Update | server/routes/vehiculoRoutes.js:56-87 | 400 for missing fields; 500 when a value or the id does not cast; 404 when no vehicle has the id; 500 when another vehicle holds the plate; otherwise the row is replaced and `updated` is 1; nothing else changes |
| Vehiculos.Uses | server/routes/vehiculoRoutes.js:97-102 | the count is 0 exactly when no inspection names the vehicle |
| Vehiculos.Delete | server/routes/vehiculoRoutes.js:92-125 | 400 with the "asociado a inspecciones" message when an inspection names it; 404 when it does not exist; otherwise it is removed and every other vehicle is kept; 500 when the id does not cast |
| Vehiculos.ParseOfDecimal | server/routes/vehiculoRoutes.js:74-99 | the decimal text of an id casts back to the id |
| Vehiculos.NormaliseStored | server/routes/vehiculoRoutes.js:43-73 | a stored vehicle, sent back unchanged, normalises to itself |
| Vehiculos.ResaveIsNoop | server/routes/vehiculoRoutes.js:29-87 | saving a created vehicle again with its stored values answers 200 and changes nothing |
| Vehiculos.PlateFreeAfterInsert | server/routes/vehiculoRoutes.js:64-76 | a vehicle's own plate never blocks its own update |
| Vehiculos.CreateThenDelete | server/routes/vehiculoRoutes.js:29-125 | deleting a vehicle just created, before any inspection names it, restores the store |
| Vehiculos.GuardKeepsReferenced | server/routes/vehiculoRoutes.js:96-108 | no delete ever leaves an inspection naming a missing vehicle |
| Usuarios.ViewIgnoresHash | server/routes/usuarioRoutes.js:14-20 | what a client receives about a user never depends on the stored hash |
| Usuarios.WithProfile | server/routes/usuarioRoutes.js:85-145 | every profile column is set: departamento defaults to "Municipalidad", rol to "Usuario", and nombre, correo, rut, direccion, telefono and licencia each take the submitted text or ""; username, hash and activo are untouched |
| Usuarios.Create | server/routes/usuarioRoutes.js:53-104 | 400 without username or password; 500 when the username is taken; otherwise 201 with the id, a row holding the hash of the password (never the password), activo set, the profile defaults, and no other row changed |
| Usuarios.Update | server/routes/usuarioRoutes.js:109-156 | answers `ok` for every id that casts, even a missing one; the row keeps its username and hash, takes the profile with defaults and `activo` as its truthiness; no other row and no other table changes |
| Usuarios.UpdateIdempotent | server/routes/usuarioRoutes.js:109-156 | sending the same update twice leaves the store as the first one did |
| Usuarios.SetPassword | server/routes/usuarioRoutes.js:161-181 | 400 "Contraseña requerida" without a password; otherwise only that user's hash changes, to the hash of the new password; no other table changes |
| Usuarios.Delete | server/routes/usuarioRoutes.js:186-194 | the user is removed and no other row or table changes; a user named by inspections cannot be removed (500) |
| Usuarios.CreateThenDelete | server/routes/usuarioRoutes.js:53-194 | deleting a user just created, before any inspection names them, restores the store |
| Usuarios.Views | server/routes/usuarioRoutes.js:14-22 | one projection per row, in order |
| Usuarios.List | server/routes/usuarioRoutes.js:12-27 | one entry per stored user, highest id first, each the projection of a stored row, and as a multiset exactly the projections of all stored rows |
| Usuarios.ActiveDrivers | server/routes/usuarioRoutes.js:39 | exactly the rows whose role lower-cases to "conductor" and that are active |
| Usuarios.ActiveDriversCount | server/routes/usuarioRoutes.js:39 | the filter keeps every copy of an active driver row and no copy of any other row |
| Usuarios.ByNombreIsOrder | server/routes/usuarioRoutes.js:40 | ordering by nombre with nulls last is total and transitive |
| Usuarios.DriverRows | server/routes/usuarioRoutes.js:34-41 | exactly the active drivers, each as many times as it is stored, sorted by nombre |
| Usuarios.Conductores | server/routes/usuarioRoutes.js:32-48 | the projection of those rows, one per driver |
| Conductores.Drivers | server/routes/conductorRoutes.js:14-16 | exactly the rows whose role is "Conductor", compared exactly |
| Conductores.DriversCount | server/routes/conductorRoutes.js:14-16 | the filter keeps every copy of a "Conductor" row and no copy of any other row |
| Conductores.DriverRows | server/routes/conductorRoutes.js:12-19 | exactly the driver rows, each as many times as it is stored, highest id first |
| Conductores.Views | server/routes/conductorRoutes.js:14 | one six-column projection per row, in order |
| Conductores.List | server/routes/conductorRoutes.js:10-26 | one projection per driver row, each with role "Conductor" |
| Conductores.Create | server/routes/conductorRoutes.js:29-53 | 400 without username or password; 500 when the username is taken; otherwise 201 and a new row with role "Conductor", active, holding the hash, and no other row changed |
| Conductores.Update | server/routes/conductorRoutes.js:56-76 | answers `ok` for every id that casts; only a driver row changes, taking nombre, correo and `activo` as its truthiness; no other table changes |
| Conductores.SetPassword | server/routes/conductorRoutes.js:79-102 | 400 without a password; otherwise only a driver row's hash changes and no other table |
| Conductores.Delete | server/routes/conductorRoutes.js:105-120 | only a driver row is removed; any other id answers `ok` and changes nothing; no other table changes; a driver named by inspections cannot be removed (500) |
| Conductores.CreatedDriverListed | server/routes/conductorRoutes.js:39-45 | a driver created here appears in the active-driver list of server/routes/usuarioRoutes.js:32-48 |
| Activo.AsWritten | server/routes/conductorRoutes.js:36-68 | the `activo` values the five statements send: the literal 1 in both inserts and in the active-driver select, 1 or 0 bound by the user update, "true" or "false" bound by the driver update |
| Activo.AsWrittenFails | server/routes/conductorRoutes.js:36-68 | under an integer column the driver update's "true"/"false" is rejected, under a boolean column the literal 1 of both inserts and of the select is; no column type accepts every statement |
| Activo.Corrected | server/routes/conductorRoutes.js:68 | the same statements with the driver update binding 1 or 0, as the user update does |
| Activo.CorrectedServesAll | server/routes/conductorRoutes.js:56-76 | with that binding an integer column accepts every statement, so the driver routes answer as Conductores.Update states |
| Rut.CleanRut | client/src/pages/Usuarios.jsx:26 | keeps only digits and K, upper-cased; never longer than its input |
| Rut.CleanRutConcat | client/src/pages/Usuarios.jsx:26 | cleaning distributes over concatenation |
| Rut.CleanRutIdempotent | client/src/pages/Usuarios.jsx:26 | cleaning a cleaned RUT changes nothing |
| Rut.FormatRut | client/src/pages/Usuarios.jsx:28-34 | a cleaned RUT of one character or fewer is returned as is; otherwise the result ends in `-` and the check digit |
| Rut.CleanOfFormat | client/src/pages/Usuarios.jsx:28-34 | formatting loses nothing: cleaning the formatted RUT gives the cleaned input |
| Rut.FormatIdempotent | client/src/pages/Usuarios.jsx:28-34 | formatting a formatted RUT changes nothing, so the field keeps its value as the user types |
| Rut.DotsAreThousands | client/src/pages/Usuarios.jsx:33 | the look-ahead regular expression puts a dot before every group of three digits counted from the right, as an independent grouping definition does |
| Rut.ExpectedDv | client/src/pages/Usuarios.jsx:47-48 | the check digit is 0 when the sum is a multiple of 11, K when it leaves 1, and 11 minus the remainder otherwise |
| Rut.ValidarRut | client/src/pages/Usuarios.jsx:36-50 | the loop computes the modulo-11 weighted sum with weights 2..7 cycling from the right; fewer than eight cleaned characters is never valid |
| Rut.NonDigitBodyInvalid | client/src/pages/Usuarios.jsx:44 | a K inside the body makes `parseInt` give NaN, so the RUT is rejected |
| Rut.ValidOfFormat | client/src/pages/Usuarios.jsx:52-56 | validating the formatted text agrees with validating what was typed |
| Rut.RutFieldValid | client/src/pages/Usuarios.jsx:55 | an empty field counts as valid; otherwise the field is valid exactly when the RUT is |
| Duplicados.AnyClash | client/src/pages/Usuarios.jsx:78-81 | true exactly when some loaded record holds the value, ignoring case, under another id |
| Duplicados.CaseBlind | client/src/pages/Usuarios.jsx:80 | upper- or lower-casing the typed value does not change the verdict |
| Duplicados.OwnRecordIgnored | client/src/pages/Usuarios.jsx:80 | the record being edited never counts as its own duplicate |
| UsuariosPage.ExisteDuplicado | client/src/pages/Usuarios.jsx:76-82 | an empty value is never a duplicate; otherwise a duplicate exactly when another record holds it, ignoring case |
| UsuariosPage.HandleSubmit | client/src/pages/Usuarios.jsx:103-126 | sends exactly when the checks pass and the form is an edit or carries a password; each alert is stated under the guards before it, in the source's order: user, correo, RUT, repeated user, repeated correo, then the missing password of a new user; a null correo (an edited user without one) throws instead of alerting and sends nothing; an edit is a PUT to the form's id, a new user a POST; the RUT sent is the formatted one and keeps its digits |
| VehiculosPage.OpenModal | client/src/pages/Vehiculos.jsx:63-85 | a driver cannot open the form; editing is on exactly when a vehicle was given; its id is copied and a zero odometer shows as an empty text |
| VehiculosPage.KmOfText | client/src/pages/Vehiculos.jsx:111 | digits-only text reads as its decimal value; text without digits reads as 0 |
| VehiculosPage.KmAsWritten | client/src/pages/Vehiculos.jsx:111 | text is read through `replace`; a non-zero number kept from the loaded vehicle has no `replace`, so the save fails |
| VehiculosPage.ExisteDuplicado | client/src/pages/Vehiculos.jsx:51-58 | a blank value is never a duplicate; otherwise a duplicate exactly when another vehicle holds it, ignoring case |
| VehiculosPage.SaveWith | client/src/pages/Vehiculos.jsx:107-143 | missing internal number or plate gives the alert; what is sent is the trimmed number, the trimmed upper-cased plate and the odometer, and only when neither is a duplicate; a PUT exactly when editing |
| VehiculosPage.Guardar | client/src/pages/Vehiculos.jsx:104-111 | a driver's save does nothing; a numeric odometer field makes the save fail before anything is sent |
| VehiculosPage.ServerKeepsPayload | client/src/pages/Vehiculos.jsx:128-143 | what the page sends is complete and already in the server's normal form (server/routes/vehiculoRoutes.js) |
| VehiculosPage.DeleteAlert | client/src/pages/Vehiculos.jsx:162-179 | success, a 400 mentioning "asociado", a 404 and any other failure each get their own alert |
| VehiculosPage.Eliminar | client/src/pages/Vehiculos.jsx:158-180 | nothing happens for a driver or without confirmation; otherwise the server delete runs and its reply picks the alert |
| VehiculosPage.InUseShowsAssociation | client/src/pages/Vehiculos.jsx:170-173 | deleting a vehicle named by an inspection leaves the data unchanged and shows the association alert |
| VehiculosPage.MissingShowsNotFound | client/src/pages/Vehiculos.jsx:174-175 | deleting an unknown vehicle shows the not-found alert |
| VehiculosPage.EditUnchangedCrashes | client/src/pages/Vehiculos.jsx:71-111 | opening a vehicle with a non-zero odometer and saving it unchanged never reaches the server |
| VehiculosPage.KmFixed | client/src/pages/Vehiculos.jsx:111 | corrected reading: text as before, and a number taken as its digits |
| VehiculosPage.GuardarFixed | client/src/pages/Vehiculos.jsx:104-143 | corrected save: sends the form with the odometer read either way, and agrees with the original whenever the field holds text |
| VehiculosPage.EditUnchangedResends | client/src/pages/Vehiculos.jsx:63-143 | with the corrected save, opening a stored vehicle and saving it unchanged sends a PUT of exactly its stored values |
| InspeccionPage.DefaultItemsAreCatalog | client/src/pages/Inspeccion.jsx:42-105 | the form offers the same 51 item names, in the same order, that the PDF report prints (server/routes/reportesRoutes.js) |
| InspeccionPage.TotalPages | client/src/pages/Inspeccion.jsx:23 | `Math.ceil(n / 10)`: the fewest pages of ten that hold n records, 0 for none |
| InspeccionPage.Slice | client/src/pages/Inspeccion.jsx:25-28 | JavaScript `slice` clamping: an end past the list stops at its length, a start past it gives nothing |
| InspeccionPage.CurrentRecords | client/src/pages/Inspeccion.jsx:24-28 | page p shows at most ten records, the i-th being record (p-1)*10+i; full pages are full and the last page holds the remainder |
| InspeccionPage.PageStaysInRange | client/src/pages/Inspeccion.jsx:30-36 | the next and previous buttons keep the page between 1 and the page count, moving only when they can |
| InspeccionPage.PagesCoverList | client/src/pages/Inspeccion.jsx:23-28 | the pages from p onwards, put together, are exactly the records from (p-1)*10 onwards |
| InspeccionPage.Lookup | client/src/pages/Inspeccion.jsx:156 | `f.items[key]` is absent exactly when no entry has that key |
| InspeccionPage.Keys | client/src/pages/Inspeccion.jsx:151-159 | the keys of the items object, in insertion order |
| InspeccionPage.UpdateItem | client/src/pages/Inspeccion.jsx:151-159 | the entry under key gets the one field set, starting from the old entry or an empty one; every other key reads as before |
| InspeccionPage.UpdateItemKeepsOrder | client/src/pages/Inspeccion.jsx:152-158 | spreading the object keeps the key order; a new key goes last |
| InspeccionPage.UpdateItemIsLocal | client/src/pages/Inspeccion.jsx:156 | changing one field of one item leaves every other field of every item as it was |
| InspeccionPage.Shown | client/src/pages/Inspeccion.jsx:411-437 | an untouched item shows SI, Bueno and an empty observation |
| InspeccionPage.ResetForm | client/src/pages/Inspeccion.jsx:162-171 | the cleared form has no items, state OK, no vehicle, no photo, and keeps the driver's own id for a driver |
| InspeccionPage.NumberJson | client/src/pages/Inspeccion.jsx:185-186 | `Number(v)` as it travels in JSON: a number when it casts, `null` for NaN |
| InspeccionPage.EntriesOf | client/src/pages/Inspeccion.jsx:183-187 | the items object as the server receives it: one entry per item, in order, with unset fields absent |
| InspeccionPage.HandleSave | client/src/pages/Inspeccion.jsx:179-190 | blocked exactly when vehicle or driver is falsy; otherwise posts both ids through `Number`, with the items and the photo as they are |
| InspeccionPage.DriverSaveAdmitted | client/src/pages/Inspeccion.jsx:162-190 | a driver's form, once a vehicle is picked, is sent and passes the server's ownership check (server/routes/inspeccionRoutes.js) |
| InspeccionPage.StoredAsShown | client/src/pages/Inspeccion.jsx:405-441 | an item set through the widgets is stored by the server as the page showed it: unset fields are stored as the defaults displayed |
| ReportesPage.Keep | client/src/pages/Reportes.jsx:30-32 | `filter`: a row survives exactly when it was there and passes, never adding rows |
| ReportesPage.KeepAppend | client/src/pages/Reportes.jsx:30-32 | filtering distributes over concatenation, so the relative order of rows is kept |
| ReportesPage.ByConductor | client/src/pages/Reportes.jsx:28-33 | a blank search keeps everything; otherwise exactly the rows whose driver name contains the search, ignoring case; a row without a name is dropped |
| ReportesPage.ByVehiculo | client/src/pages/Reportes.jsx:35-40 | the same for the vehicle plate |
| ReportesPage.ByInicio | client/src/pages/Reportes.jsx:25-42 | with a start date, exactly the rows on or after it |
| ReportesPage.ByFin | client/src/pages/Reportes.jsx:26-43 | with an end date, exactly the rows on or before it |
| ReportesPage.Filtered | client/src/pages/Reportes.jsx:22-43 | the four stages together keep exactly the rows passing all four filters |
| ReportesPage.NoFilterKeepsAll | client/src/pages/Reportes.jsx:22-43 | with every filter cleared the list is unchanged |
| ReportesPage.FilteredAppend | client/src/pages/Reportes.jsx:22-43 | the pipeline distributes over concatenation: it keeps the server's order |
| ReportesPage.Visible | client/src/pages/Reportes.jsx:45-50 | the total counts the filtered rows; the page shows at most ten, the i-th being filtered row (page-1)*10+i, a full page when enough remain and the remainder on the last |
| ReportesPage.VisiblePasses | client/src/pages/Reportes.jsx:28-50 | every row shown is a loaded row that passes every filter |
| ReportesPage.TotalPages | client/src/pages/Reportes.jsx:93 | `Math.max(1, Math.ceil(total / 10))`: at least one page, and the fewest pages of ten that hold the total |
| ReportesPage.Mostrando | client/src/pages/Reportes.jsx:248-249 | "Mostrando a–b": 0–0 for an empty result; otherwise a is the first position of the page and b the last shown, capped by the total |
| ReportesPage.MostrandoCountsShown | client/src/pages/Reportes.jsx:248-249 | on a page in range, the caption counts exactly the rows the slice at lines 45-50 shows |
| ReportesPage.Apply | client/src/pages/Reportes.jsx:131-174 | editing a filter sets only that filter and returns to page 1 |
| ReportesPage.LimpiarFiltros | client/src/pages/Reportes.jsx:84-90 | clearing empties all four filters and returns to page 1 |
| ReportesPage.ButtonsStayInRange | client/src/pages/Reportes.jsx:253-271 | with the disabled guards, previous and next keep the page between 1 and the page count |
| Dashboard.IntKey | client/src/pages/Dashboard.jsx:54 | a numeric `vehiculo_id` used as an object key becomes its decimal text, with a minus sign when negative |
| Dashboard.Key | client/src/pages/Dashboard.jsx:52-53 | the bar key is the first truthy of `vehiculo_patente`, `patente` and `vehiculo_id`, else "Desconocido"; never empty |
| Dashboard.Bump | client/src/pages/Dashboard.jsx:54 | `(m[k] \|\| 0) + 1`: k counts one more, every other key is untouched, keys stay distinct and the total grows by one |
| Dashboard.Mapa | client/src/pages/Dashboard.jsx:50-55 | the tally holds, for every key, exactly the number of inspections with that key, and adds up to the number of inspections |
| Dashboard.Count | client/src/pages/Dashboard.jsx:50-55 | the reference count of inspections whose bar key is k: at most the list's length, 0 exactly when no inspection has that key, the whole length exactly when all do |
| Dashboard.Entry | client/src/pages/Dashboard.jsx:59-64 | plate falls back to `placa` then "Sin Patente"; brand and model fall back to "-"; the total is the tally under the vehicle's own `patente`, 0 when absent |
| Dashboard.ByPatenteIsOrder | client/src/pages/Dashboard.jsx:65 | the comparison used by the sort is a total preorder |
| Dashboard.DataChart | client/src/pages/Dashboard.jsx:58-65 | one entry per vehicle, a permutation of the mapped entries, sorted by plate |
| Dashboard.BarPerVehicle | client/src/pages/Dashboard.jsx:50-65 | every vehicle's bar is in the chart and carries the number of inspections keyed by its plate |
| Dashboard.TotalConductores | client/src/pages/Dashboard.jsx:37-40 | a non-zero active-driver count is used as is; zero falls back to counting users whose role is "conductor" in any case |
| Dashboard.RoleCount | client/src/pages/Dashboard.jsx:37-40 | the fallback count of users whose role lower-cases to "conductor": 0 exactly when none does, all of them exactly when every one does |
| Dashboard.Counters | client/src/pages/Dashboard.jsx:37-48 | the four cards: the user count, the vehicle count, the Conductores card's rule, and the inspection count |
| Dashboard.ConductoresCard | client/src/pages/Dashboard.jsx:37-40 | with any active driver the card shows the active-driver count; the fallback is reached only when every driver-role user is inactive |
| Dashboard.FromListRow | client/src/pages/Dashboard.jsx:52-53 | an inspection as the listing returns it is keyed by its plate, else by its vehicle id, else "Desconocido" (server/routes/inspeccionRoutes.js) |
| Dashboard.FromVehiculo | client/src/pages/Dashboard.jsx:59-62 | a vehicle as the server lists it has no brand or model, so both show "-"; a non-empty plate is shown as is |
| Js.OrText | client/src/pages/Dashboard.jsx:60-62 | `v \|\| d` on text: a non-empty value is kept, an absent or empty one gives the default |
| Js.ToNumber | client/src/pages/Inspeccion.jsx:185-186 | `Number(v)`: numbers as they are, null and booleans as 0 or 1, undefined and objects as NaN, blank-trimmed decimal text as its value |
| Js.NaNNeverEqual | server/routes/inspeccionRoutes.js:59 | NaN compares unequal to everything, itself included |
| Text.ToLower | client/src/pages/Usuarios.jsx:80 | same length, each ASCII capital lowered and every other character kept |
| Text.LowerOfUpper | client/src/pages/Usuarios.jsx:80 | lower-casing after upper-casing is plain lower-casing |
| Text.Trim | client/src/pages/Vehiculos.jsx:109-110 | `trim()`: the result is an infix of the input that neither starts nor ends in white space, and everything cut off is white space |
| Text.BlankIffAllSpace | client/src/pages/Reportes.jsx:28-35 | a text trims to empty exactly when it is all white space |
| Sorting.SortBy | client/src/pages/Dashboard.jsx:65 | `sort` with a comparator: a permutation of the input, sorted under it |
| Sorting.LexLeTotal | client/src/pages/Dashboard.jsx:65 | the code-point comparison standing for `localeCompare` is total |
| Sorting.LexLeTransitive | client/src/pages/Dashboard.jsx:65 | and transitive |
| Table.ByIdDesc | server/routes/vehiculoRoutes.js:16 | `ORDER BY id DESC`: the same rows, highest id first |
| Table.Insert | server/routes/vehiculoRoutes.js:39-45 | an insert under a fresh id makes that id read the new row and leaves every other id as it was |
| Table.Put | server/routes/vehiculoRoutes.js:64-69 | `UPDATE ... WHERE id`: the row's value changes only when the id exists, and every other id reads as before |
| Table.Remove | server/routes/vehiculoRoutes.js:111-114 | `DELETE ... WHERE id`: the id no longer exists and every other id reads as before |
| Table.RemoveInserted | server/routes/vehiculoRoutes.js:39-114 | deleting a freshly inserted row gives back the table as it was |

## Left out

- Database mechanics are not modelled: the SQL text, the `pg` pool, connection release and the driver's error objects (server/config/db.js is not part of this model). A failing statement is an input to the transaction runner; a commit or a rollback is the only outcome.
- Uniqueness of `usuarios.username` and the foreign keys from inspections to users and vehicles are taken from the behaviour the routes rely on: a violating insert or delete fails with 500. The schema itself is not part of this model.
- Mantenciones.DeleteMantencion: the schema of `mantenciones` and `mantencion_items` is not part of this model. The model assumes no foreign key or cascade from the items to their record, so a delete leaves the record's items behind.
- Mantenciones.PutMantencion: under the same assumption, an update naming an id with no record still answers 200 and stores the submitted items under that id.
- Mantenciones.PostMantencion: `vehiculo_id` and `usuario_id` are stored as given; no foreign key to vehicles or users is modelled for maintenance records.
- Mantenciones.PostMantencion: which `items` values throw is a flag of the request body, not derived from a JSON value; a value that is neither absent, an array nor one of the throwing shapes inserts no items.
- Vehiculos.Create: `numero_interno` and `patente` are absent or text. A present value that is not a string (a number, say) makes `?.trim()` throw at server/routes/vehiculoRoutes.js:32, before the `try`, so no reply is sent; that outcome is not modelled.
- Vehiculos.Update: the same holds for the check at server/routes/vehiculoRoutes.js:59; a non-string `numero_interno` or `patente` is not modelled.
- Inspecciones.InspRow: a missing or null `usuario_id` or `vehiculo_id` makes the insert fail, which assumes both columns are NOT NULL; without that constraint PostgreSQL would store a NULL id. The schema is not part of this model.
- UsuariosPage.HandleSubmit: a null `correo` is modelled (the `trim` call throws and nothing is sent); `username` is taken to be always text, since every create path requires it.
- A `SELECT` without `ORDER BY`, such as the items of one inspection or one maintenance record, is read in insertion order.
- Creation timestamps (`NOW()`, `created_at`) and dates are left out or abstracted. A date in the report list is an integer day-and-time stamp compared with `<=`; the parsing of `"YYYY-MM-DD 00:00:00"` by `new Date` is not modelled.
- The `activo` column is modelled as a boolean in every route. How each statement writes it, and which column type accepts which statement, is modelled separately in `Activo` and recorded under "## Findings".
- Conductores.Update: states the corrected route, which answers 200; as written it binds "true"/"false", which an integer column rejects with 500.
- Conductores.Create: states the route under an integer `activo` column; under a boolean column the literal 1 fails and the route answers 500.
- Usuarios.Create: the same holds for the literal 1 at server/routes/usuarioRoutes.js:82.
- Usuarios.DriverRows: the same holds for `activo = 1` at server/routes/usuarioRoutes.js:39; under a boolean column `GET /usuarios/conductores` answers 500.
- Bcrypt hashing, JWT signing and verification, uuid and QR generation are function parameters or left out. The wallet controller (server/controllers/billeteraController.js) is not part of this model; only the guard in front of it is.
- PDF drawing is not modelled: fonts, colours of headings, the logo, the table borders, `toLocaleString` formatting and pdfkit's own automatic page breaks. Page geometry is in integer points; A4's fractional height and the photo-centering arithmetic are not modelled.
- Photo decoding through `Buffer` and a temporary file is reduced to its outcome: no photo, a decode failure, a failure after the heading, or a placed image.
- Reportes.TableTop: the height of the "Evidencia Fotográfica" heading and its half-line gap depends on font metrics and is a layout parameter; only the image's 160 points and the 25-point gap are constants.
- MantencionesPdf.Report: each page lists both labels drawn on it, the provisional "Página 1 de 1" and the final "Página k de N", which share one position; how the overlapping glyphs look is not modelled.
- Reportes.Place: the inspection report's drawing is a list of placements. A placement flagged as breaking stands for a new page, the page header and the table header being drawn. The header is also drawn by the `pageAdded` listener, so as written it is drawn twice per break; the model does not count the drawing calls.
- The list route `GET /mantenciones` (server/routes/mantencionesRoutes.js:11-29) is a plain select with a join and no decision logic. It is not modelled.
- server/routes/authRoutes.js (login) and server/routes/empleadoRoutes.js are not part of this model.
- The inspection and wallet routes bind the module object `{ auth }` where a function is expected (server/routes/inspeccionRoutes.js:4, server/routes/billeteraRoutes.js:8). The model wires the function itself, so the handlers receive the user `auth` produced.
- The React rendering and browser I/O are left out: hooks, modals, `alert`, `confirm`, sessionStorage, the 350 ms debounce of the report list and the network calls. A server reply is a parameter of the handler that reads it.
- Text.ToLower: maps only A–Z. Locale-dependent and non-ASCII case mapping is not modelled.
- Text.ToUpper: maps only a–z.
- Text.Trim: removes only the ASCII white-space characters, not the Unicode spaces JavaScript's `trim` also removes.
- Sorting.LexLe: stands for `localeCompare` as code-point order. Collation rules of a locale are not modelled.
- Js.ToNumber: reads only unsigned decimal text. Signs, fractions, exponents and hexadecimal text read as NaN, and integers are unbounded, so the rounding of large numbers to doubles is not modelled.
- Dashboard.Key: a JavaScript object key that names a property inherited from `Object.prototype` (such as "constructor") is not modelled; every key starts at 0.
- Dashboard.FromListRow: the inspection listing carries no bare `patente` field, so the second fallback of the tally key is never taken with server data. The model keeps the field so that `Key` states the page's full rule.
- Dashboard.FromVehiculo: the vehicle listing has no `placa`, `marca` or `modelo` columns, so these are always absent in server data.

## Findings

| source | as written | input that shows it | evidently intended | confidence | as-written member | corrected member |
|---|---|---|---|---|---|---|
| server/routes/billeteraRoutes.js:16,22 | `ROLES` lists "admin" and "adminbilletera" and compares `req.user.rol` exactly, but `auth` has already rewritten every role with an upper-case first letter | a token with role "admin" reaches the guard as "Admin" and gets 403; no role string ever passes | the guard admits the listed roles whatever their case | not executed | Billetera.WalletUnreachable | Billetera.AllowRolesCaseInsensitive |
| server/routes/reportesRoutes.js:21,24-25,191 | both report queries use MySQL-style `?` markers against a PostgreSQL pool, and the callback reads `results` as an array | `GET /reportes/inspeccion/1/pdf` for an existing inspection: the statement has no `$1` marker, the query fails and the route answers 404 | `$1` markers, reading `results.rows` | not executed | Reportes.ReportAsWrittenAlwaysNotFound | Reportes.ReportCorrectedFindsInspection |
| client/src/pages/Vehiculos.jsx:71,111 | opening a vehicle copies its numeric `kilometro` into the form, and saving calls `.replace` on it | edit a vehicle with `kilometro` 5000 and press save without touching the field: `(5000 \|\| "").replace` throws and nothing is sent | the odometer is read from a number as well as from text | not executed | VehiculosPage.EditUnchangedCrashes | VehiculosPage.GuardarFixed |
| server/routes/conductorRoutes.js:68 | the driver update binds `activo ? true : false`, while both inserts write the literal 1, the active-driver select compares `activo = 1` and the user update binds 1 or 0 | with an integer `activo` column, `PUT /conductores/5` with any body: node-postgres sends "true" or "false", the integer cast fails and the route answers 500; with a boolean column the literal 1 fails in both creates and in `GET /usuarios/conductores` instead | bind `activo ? 1 : 0`, as `PUT /usuarios/:id` does, so that an integer column serves every route | not executed | Activo.AsWrittenFails | Activo.CorrectedServesAll |

=== FILE: activo.dfy ===
/**
 * How the user and driver routes write and read the `usuarios.activo`
 * column. Three statements use the integer literal 1 in the SQL text, the
 * user update binds 1 or 0, and the driver update binds a JavaScript
 * boolean, which node-postgres sends as the text "true" or "false". No
 * column type accepts all of these; binding 1 or 0 in the driver update,
 * as the user update does, makes an integer column serve every route.
 */
module Activo {
  import opened Store
  import Text

  /** The type of `usuarios.activo`; the schema itself is not part of this model. */
  datatype Column = IntColumn | BoolColumn

  /** A value meeting the column: a literal in the SQL text, or a parameter sent as text. */
  datatype Written = Literal(n: int) | Param(text: string)

  /** The texts PostgreSQL reads as a boolean (the lower-case spellings). */
  predicate BoolText(s: string) {
    s in {"t", "true", "y", "yes", "on", "1", "f", "false", "n", "no", "off", "0"}
  }

  /**
   * Whether PostgreSQL accepts the value against the column, as an
   * assigned value or as the other side of `=`. An integer literal has no
   * cast or operator to `boolean`; a parameter is read by the column
   * type's own input function.
   */
  predicate Accepts(c: Column, w: Written) {
    match c
    case IntColumn => w.Literal? || ParseIntText(w.text).Some?
    case BoolColumn => w.Param? && BoolText(w.text)
  }

  /**
   * What the five statements send, in order: the user insert's literal,
   * the user update's 1 or 0, the active-driver select's literal, the
   * driver insert's literal, and the driver update's value.
   */
  function AsWritten(userActivo: bool, driverActivo: bool): (r: seq<Written>)
    ensures |r| == 5
    ensures r[0] == r[2] == r[3] == Literal(1)
    ensures r[4].Param? && (r[4].text == "true" <==> driverActivo) && (r[4].text == "false" <==> !driverActivo)
  {
    [Literal(1), Param(if userActivo then "1" else "0"), Literal(1), Literal(1),
     Param(if driverActivo then "true" else "false")]
  }

  /** The same statements with the driver update binding 1 or 0. */
  function Corrected(userActivo: bool, driverActivo: bool): (r: seq<Written>)
    ensures |r| == 5
    ensures r[..4] == AsWritten(userActivo, driverActivo)[..4]
    ensures r[4] == Param(if driverActivo then "1" else "0")
  {
    var r := [Literal(1), Param(if userActivo then "1" else "0"), Literal(1), Literal(1),
              Param(if driverActivo then "1" else "0")];
    assert r[..4] == AsWritten(userActivo, driverActivo)[..4];
    r
  }

  /**
   * As written, whatever the column type, some statement fails: an
   * integer column rejects the driver update's "true" or "false", and a
   * boolean column rejects the literal 1 of both inserts and the select.
   */
  lemma AsWrittenFails(c: Column, userActivo: bool, driverActivo: bool)
    ensures exists i :: 0 <= i < 5 && !Accepts(c, AsWritten(userActivo, driverActivo)[i])
    ensures c == IntColumn ==> !Accepts(c, AsWritten(userActivo, driverActivo)[4])
    ensures c == BoolColumn ==>
              forall i :: (i == 0 || i == 2 || i == 3) ==> !Accepts(c, AsWritten(userActivo, driverActivo)[i])
  {
    var w := AsWritten(userActivo, driverActivo);
    if c == IntColumn {
      NotInteger(w[4].text);
      assert !Accepts(c, w[4]);
    } else {
      assert !Accepts(c, w[0]);
    }
  }

  /** Neither "true" nor "false" is integer text. */
  lemma NotInteger(s: string)
    requires s == "true" || s == "false"
    ensures ParseIntText(s).None?
  {
    assert s[0] == 't' || s[0] == 'f';
    assert !Text.IsSpace(s[0]) && !Text.IsSpace(s[|s| - 1]);
    NotNumberText(s);
  }

  /** Text that starts with neither a digit nor a sign, with no white space around it, is not an integer. */
  lemma NotNumberText(s: string)
    requires s != [] && Text.Trimmed(s)
    requires !Text.IsDigit(s[0]) && s[0] != '+' && s[0] != '-'
    ensures ParseIntText(s).None?
  {
    Text.TrimOfTrimmed(s);
  }

  /** With the corrected binding, an integer column accepts every statement. */
  lemma CorrectedServesAll(userActivo: bool, driverActivo: bool)
    ensures forall i :: 0 <= i < 5 ==> Accepts(IntColumn, Corrected(userActivo, driverActivo)[i])
  {
    var w := Corrected(userActivo, driverActivo);
    DigitAccepted("1");
    DigitAccepted("0");
    assert Accepts(IntColumn, w[1]) by {
      if userActivo { assert w[1] == Param("1"); } else { assert w[1] == Param("0"); }
    }
    assert Accepts(IntColumn, w[4]) by {
      if driverActivo { assert w[4] == Param("1"); } else { assert w[4] == Param("0"); }
    }
    assert w[0].Literal? && w[2].Literal? && w[3].Literal?;
    forall i | 0 <= i < 5
      ensures Accepts(IntColumn, w[i])
    {
      assert i == 0 || i == 1 || i == 2 || i == 3 || i == 4;
    }
  }

  /** "1" and "0" are integer text. */
  lemma DigitAccepted(s: string)
    requires s == "1" || s == "0"
    ensures ParseIntText(s).Some?
  {
    assert |s| == 1 && Text.IsDigit(s[0]) && !Text.IsSpace(s[0]);
    OneDigitText(s);
  }

  /** A single digit is integer text. */
  lemma OneDigitText(s: string)
    requires |s| == 1 && Text.IsDigit(s[0])
    requires !Text.IsSpace(s[0])
    ensures ParseIntText(s).Some?
  {
    Text.TrimOfTrimmed(s);
    assert Text.OnlyDigits(s);
  }
}

=== FILE: auth.dfy ===
/**
 * The authentication middleware (server/middleware/auth.js): bearer-token
 * extraction, claim checks, role normalisation and the choice of error
 * message. Token verification is an uninterpreted function `verify`.
 */
module Auth {
  import opened Js
  import opened Text

  /** What the token library hands back: a decoded payload or a thrown error. */
  datatype Verified =
    | Decoded(payload: Payload)
    | Threw(message: Option<string>)

  /** The decoded token; `NotAnObject` covers `null` and string payloads. */
  datatype Payload =
    | NotAnObject
    | Claims(id: JValue, rol: JValue, nombre: JValue, username: JValue)

  /** `req.user` as the middleware builds it; `id` is `Number(decoded.id)` (None is NaN). */
  datatype User = User(id: Option<int>, nombre: JValue, username: JValue, rol: string)

  datatype Outcome =
    | Next(user: User)
    | Reject(status: nat, message: string)

  const BearerPrefix: string := "Bearer "

  /** The token of an Authorization header: the text after "Bearer ", when it starts so. */
  function BearerToken(header: string): (r: Option<string>)
    ensures StartsWith(header, BearerPrefix) <==> r.Some?
    ensures r.Some? ==> header == BearerPrefix + r.value
  {
    if StartsWith(header, BearerPrefix) then
      assert header == header[..7] + header[7..];
      Some(header[7..])
    else None
  }

  /** `s.charAt(0).toUpperCase() + s.slice(1).toLowerCase()`. */
  function Capitalise(s: string): (r: string)
    ensures |r| == |s|
    ensures s != [] ==> r[0] == UpperChar(s[0])
    ensures forall i :: 1 <= i < |s| ==> r[i] == LowerChar(s[i])
  {
    if s == [] then [] else [UpperChar(s[0])] + ToLower(s[1..])
  }

  /** The role stored in `req.user.rol`: capitalised when a string, else "Desconocido". */
  function NormaliseRole(rol: JValue): (r: string)
    ensures rol.JStr? ==> r == Capitalise(rol.s)
    ensures !rol.JStr? ==> r == "Desconocido"
  {
    if rol.JStr? then Capitalise(rol.s) else "Desconocido"
  }

  lemma CapitaliseIdempotent(s: string)
    ensures Capitalise(Capitalise(s)) == Capitalise(s)
  {
    if s != [] {
      LowerIdempotent(s[1..]);
    }
  }

  /** A normalised role never begins with a lower-case letter, so it never equals a lower-case name. */
  lemma NormalisedRoleNotLowercase(rol: JValue, name: string)
    requires name != [] && IsLower(name[0])
    ensures NormaliseRole(rol) != name
  {
    var r := NormaliseRole(rol);
    if rol.JStr? && rol.s != [] {
      assert !IsLower(r[0]);
    } else if !rol.JStr? {
      assert r[0] == 'D';
    }
  }

  /**
   * The middleware: 401 without a bearer token; 401 on a non-object payload or
   * one missing `id` or `rol`; 401 with the expiry or tampering message when
   * verification throws; otherwise `next()` with the normalised user.
   */
  function Authenticate(header: Option<string>, verify: string -> Verified): (r: Outcome)
    ensures r.Reject? ==> r.status == 401
    ensures (header.None? || BearerToken(header.value).None? || BearerToken(header.value) == Some(""))
              ==> r == Reject(401, "No autorizado. Token no enviado.")
    ensures r.Next? ==>
              && header.Some?
              && var t := BearerToken(header.value);
              && t.Some?
              && verify(t.value).Decoded?
              && var p := verify(t.value).payload;
              && p.Claims? && Truthy(p.id) && Truthy(p.rol)
              && r.user == User(ToNumber(p.id), if Truthy(p.nombre) then p.nombre else JStr(""),
                                if Truthy(p.username) then p.username else JStr(""), NormaliseRole(p.rol))
    ensures header.Some? && BearerToken(header.value).Some? && BearerToken(header.value) != Some("") ==>
              var v := verify(BearerToken(header.value).value);
              && (v.Threw? ==> r == Reject(401, VerifyErrorMessage(v.message)))
              && (v.Decoded? && v.payload.NotAnObject? ==> r == Reject(401, "Token inválido: formato no reconocido."))
              && (v.Decoded? && v.payload.Claims? && !(Truthy(v.payload.id) && Truthy(v.payload.rol)) ==>
                    r == Reject(401, "Token inválido: datos incompletos."))
              && (v.Decoded? && v.payload.Claims? && Truthy(v.payload.id) && Truthy(v.payload.rol) ==> r.Next?)
  {
    var token := if header.Some? then BearerToken(header.value) else None;
    if token.None? || token.value == "" then
      Reject(401, "No autorizado. Token no enviado.")
    else
      match verify(token.value)
      case Threw(msg) => Reject(401, VerifyErrorMessage(msg))
      case Decoded(p) =>
        if p.NotAnObject? then
          Reject(401, "Token inválido: formato no reconocido.")
        else if !Truthy(p.id) || !Truthy(p.rol) then
          Reject(401, "Token inválido: datos incompletos.")
        else
          Next(User(
            ToNumber(p.id),
            if Truthy(p.nombre) then p.nombre else JStr(""),
            if Truthy(p.username) then p.username else JStr(""),
            NormaliseRole(p.rol)))
  }

  /** The message for a thrown verification error; a missing message reads "Error desconocido...". */
  function VerifyErrorMessage(msg: Option<string>): (r: string)
    ensures msg.Some? && msg.value != "" && Includes(msg.value, "expired") ==> r == "Token expirado."
    ensures (msg.None? || msg.value == "" || !Includes(msg.value, "expired")) ==> r == "Token inválido o manipulado."
  {
    var m := if msg.Some? && msg.value != "" then msg.value else "Error desconocido al validar token";
    DefaultMessageNotExpired();
    if Includes(m, "expired") then "Token expirado." else "Token inválido o manipulado."
  }

  lemma DefaultMessageNotExpired()
    ensures !Includes("Error desconocido al validar token", "expired")
  {
    var m := "Error desconocido al validar token";
    assert forall j :: 0 <= j < |m| ==> m[j] != 'x';
    forall i | 0 <= i <= |m|
      ensures !OccursAt(m, "expired", i)
    {
      if i + 7 <= |m| {
        assert m[i..i + 7][1] == m[i + 1];
      }
    }
  }

  /** Every rejection by the middleware is one of the five documented 401 messages. */
  lemma RejectMessages(header: Option<string>, verify: string -> Verified)
    ensures var r := Authenticate(header, verify);
            r.Reject? ==> r.message in {"No autorizado. Token no enviado.",
                                        "Token inválido: formato no reconocido.",
                                        "Token inválido: datos incompletos.",
                                        "Token expirado.", "Token inválido o manipulado."}
  {
  }

  /** `user.rol?.toLowerCase() === "conductor"`, the driver test of every route. */
  predicate IsConductor(user: User) {
    ToLower(user.rol) == "conductor"
  }
}

=== FILE: authoptional.dfy ===
/**
 * The optional-authentication middleware (server/middleware/authOptional.js):
 * a token may come from the query string or from a bearer header; the
 * middleware never rejects, it only decides whether `req.user` is set.
 */
module AuthOptional {
  import opened Js
  import opened Text
  import Auth

  /** `req.user` as this middleware builds it; each claim falls back to `null`. */
  datatype OptUser = OptUser(id: JValue, username: JValue, rol: JValue)

  /** The token the middleware uses: a non-empty `?token=` first, then a bearer header. */
  function TokenSource(query: Option<string>, header: Option<string>): (r: Option<string>)
    ensures query.Some? && query.value != "" ==> r == query
    ensures (query.None? || query.value == "") ==>
              r == (if header.Some? && header.value != "" then Auth.BearerToken(header.value) else None)
  {
    if query.Some? && query.value != "" then query
    else if header.Some? && header.value != "" then Auth.BearerToken(header.value)
    else None
  }

  /** `v || null`. */
  function OrNull(v: JValue): (r: JValue)
    ensures Truthy(v) ==> r == v
    ensures !Truthy(v) ==> r == JNull
  {
    if Truthy(v) then v else JNull
  }

  /**
   * The middleware's effect: `None` when `req.user` stays unset (no token, or
   * verification threw), otherwise the claims with `null` defaults. `next()`
   * is called on every path, which is why the result is never a rejection.
   */
  function OptionalUser(query: Option<string>, header: Option<string>,
                        verify: string -> Auth.Verified): (r: Option<OptUser>)
    ensures r.Some? ==> var t := TokenSource(query, header);
                        t.Some? && t.value != "" && verify(t.value).Decoded?
    ensures r.Some? ==> !Truthy(r.value.id) ==> r.value.id == JNull
    ensures r.Some? ==> !Truthy(r.value.rol) ==> r.value.rol == JNull
    ensures r.Some? ==> var p := verify(TokenSource(query, header).value).payload;
                        && (p.Claims? ==> r.value == OptUser(OrNull(p.id), OrNull(p.username), OrNull(p.rol)))
                        && (p.NotAnObject? ==> r.value == OptUser(JNull, JNull, JNull))
  {
    var t := TokenSource(query, header);
    if t.None? || t.value == "" then None
    else
      match verify(t.value)
      case Threw(_) => None
      case Decoded(p) =>
        if p.NotAnObject? then Some(OptUser(JNull, JNull, JNull))
        else Some(OptUser(OrNull(p.id), OrNull(p.username), OrNull(p.rol)))
  }

  /** A non-empty query token wins: the Authorization header is then never consulted. */
  lemma QueryTokenPrecedence(q: string, h1: Option<string>, h2: Option<string>,
                             verify: string -> Auth.Verified)
    requires q != ""
    ensures OptionalUser(Some(q), h1, verify) == OptionalUser(Some(q), h2, verify)
  {
  }

  /** Without a query token, a header without the "Bearer " prefix leaves the request anonymous. */
  lemma HeaderNeedsBearer(query: Option<string>, h: string, verify: string -> Auth.Verified)
    requires query.None? || query.value == ""
    requires !StartsWith(h, Auth.BearerPrefix)
    ensures OptionalUser(query, Some(h), verify).None?
  {
  }

  /** A verified token sets the user; one whose verification throws leaves it unset. */
  lemma VerifiedTokenSetsUser(query: Option<string>, header: Option<string>,
                              verify: string -> Auth.Verified)
    ensures var t := TokenSource(query, header);
            t.Some? && t.value != "" ==>
              (OptionalUser(query, header, verify).Some? <==> verify(t.value).Decoded?)
  {
  }
}

=== FILE: billetera.dfy ===
/**
 * The role guard of the wallet routes (server/routes/billeteraRoutes.js):
 * `allowRoles(ROLES)` admits a request only when `req.user.rol` is one of the
 * listed names, compared exactly.
 */
module Billetera {
  import opened Js
  import opened Text
  import Auth

  const Roles: seq<string> := ["admin", "adminbilletera"]

  datatype Guard = Pass | Forbidden(status: nat, message: string)

  datatype WalletRoute = GetVecinos | PutSaldo | PostQr

  /** `allowRoles(roles)` as written: 403 without a user or when the role is not listed verbatim. */
  function AllowRoles(roles: seq<string>, user: Option<Auth.User>): (r: Guard)
    ensures r.Pass? <==> user.Some? && user.value.rol in roles
    ensures r.Forbidden? ==> r == Forbidden(403, "No autorizado")
  {
    if user.None? || user.value.rol !in roles then Forbidden(403, "No autorizado") else Pass
  }

  /** The list each wallet route is registered with: the same `ROLES` for all three. */
  function RouteRoles(route: WalletRoute): (r: seq<string>)
    ensures r == Roles
  {
    match route
    case GetVecinos => Roles
    case PutSaldo => Roles
    case PostQr => Roles
  }

  /** `auth` followed by `allowRoles(ROLES)`, as each wallet route chains them. */
  function WalletAccess(route: WalletRoute, header: Option<string>,
                        verify: string -> Auth.Verified): (r: Guard)
    ensures r.Pass? <==> Auth.Authenticate(header, verify).Next? && Auth.Authenticate(header, verify).user.rol in Roles
    ensures Auth.Authenticate(header, verify).Reject? ==>
              r == Forbidden(Auth.Authenticate(header, verify).status, Auth.Authenticate(header, verify).message)
    ensures Auth.Authenticate(header, verify).Next? && !r.Pass? ==> r == Forbidden(403, "No autorizado")
  {
    match Auth.Authenticate(header, verify)
    case Reject(status, message) => Forbidden(status, message)
    case Next(user) => AllowRoles(RouteRoles(route), Some(user))
  }

  /**
   * As written, no request reaches a wallet controller: every role that passes
   * the authentication middleware starts with a non-lower-case character, and
   * both listed names are lower case.
   */
  lemma WalletUnreachable(route: WalletRoute, header: Option<string>, verify: string -> Auth.Verified)
    ensures WalletAccess(route, header, verify) != Pass
  {
    match Auth.Authenticate(header, verify)
    case Reject(_, _) =>
    case Next(user) =>
      var t := Auth.BearerToken(header.value);
      var p := verify(t.value).payload;
      Auth.NormalisedRoleNotLowercase(p.rol, "admin");
      Auth.NormalisedRoleNotLowercase(p.rol, "adminbilletera");
  }

  /** The evidently intended guard: the role is compared after lower-casing it. */
  function AllowRolesCaseInsensitive(roles: seq<string>, user: Option<Auth.User>): (r: Guard)
    ensures r.Pass? <==> user.Some? && ToLower(user.value.rol) in roles
    ensures r.Forbidden? ==> r == Forbidden(403, "No autorizado")
  {
    if user.None? || ToLower(user.value.rol) !in roles then Forbidden(403, "No autorizado") else Pass
  }

  function WalletAccessFixed(route: WalletRoute, header: Option<string>,
                             verify: string -> Auth.Verified): (r: Guard)
    ensures r.Pass? <==> Auth.Authenticate(header, verify).Next? && ToLower(Auth.Authenticate(header, verify).user.rol) in Roles
    ensures Auth.Authenticate(header, verify).Reject? ==>
              r == Forbidden(Auth.Authenticate(header, verify).status, Auth.Authenticate(header, verify).message)
  {
    match Auth.Authenticate(header, verify)
    case Reject(status, message) => Forbidden(status, message)
    case Next(user) => AllowRolesCaseInsensitive(RouteRoles(route), Some(user))
  }

  /** With the corrected guard, a token whose `rol` is "admin" reaches every wallet route. */
  lemma FixedGuardAdmitsAdmin(route: WalletRoute, token: string, verify: string -> Auth.Verified)
    requires token != ""
    requires verify(token) == Auth.Decoded(Auth.Claims(JNum(1), JStr("admin"), JNull, JNull))
    ensures WalletAccessFixed(route, Some(Auth.BearerPrefix + token), verify) == Pass
  {
    var h := Auth.BearerPrefix + token;
    assert StartsWith(h, Auth.BearerPrefix);
    assert h[7..] == token;
    assert Auth.NormaliseRole(JStr("admin")) == "Admin";
    assert ToLower("Admin") == "admin";
  }

  /** The corrected guard still turns away every role outside the list, whatever its case. */
  lemma FixedGuardRejectsOthers(route: WalletRoute, header: Option<string>, verify: string -> Auth.Verified)
    ensures match Auth.Authenticate(header, verify)
            case Next(u) => WalletAccessFixed(route, header, verify) == Pass <==> ToLower(u.rol) in Roles
            case Reject(_, _) => WalletAccessFixed(route, header, verify) != Pass
  {
  }
}

=== FILE: conductores.dfy ===
/**
 * The driver routes: the same `usuarios` table seen through the exact
 * role "Conductor". Create forces that role; update, password change and
 * delete touch a row only when its role is exactly "Conductor".
 */
module Conductores {
  import opened Js
  import opened Text
  import opened Table
  import opened Store
  import Usuarios

  const Rol := "Conductor"
  const MsgObligatorios := "Usuario y contraseña obligatorios"
  const MsgPasswordRequerida := "Contraseña requerida"
  const MsgErrorCrear := "Error al crear conductor"
  const MsgErrorActualizar := "Error al actualizar conductor"
  const MsgErrorPassword := "Error al actualizar contraseña"
  const MsgErrorEliminar := "Error al eliminar conductor"

  datatype CreateBody = CreateBody(username: Option<string>, nombre: Option<string>, correo: Option<string>, password: Option<string>)
  datatype UpdateBody = UpdateBody(nombre: Option<string>, correo: Option<string>, activo: JValue)

  /** `GET /` returns these columns only. */
  datatype DriverView = DriverView(id: nat, username: string, nombre: Option<string>, correo: Option<string>, rol: Option<string>, activo: bool)

  /** `WHERE rol = 'Conductor'`: case-sensitive, as the column holds it. */
  predicate IsDriver(u: Usuario) {
    u.rol == Some(Rol)
  }

  /** The row `id` exists and is a driver. */
  predicate DriverAt(db: Db, id: int) {
    id >= 0 && Has(db.usuarios, id) && IsDriver(Get(db.usuarios, id).value)
  }

  /** Rows that are not drivers, and rows other than `id`, are as they were. */
  ghost predicate OnlyDriverChanged(before: Db, after: Db, id: int) {
    after == before.(usuarios := after.usuarios)
    && forall k: nat :: (k != id || !DriverAt(before, k)) ==> Get(after.usuarios, k) == Get(before.usuarios, k)
  }

  function Drivers(t: seq<Row<Usuario>>): (r: seq<Row<Usuario>>)
    ensures forall x :: x in r <==> x in t && IsDriver(x.val)
  {
    if t == [] then []
    else (if IsDriver(t[0].val) then [t[0]] else []) + Drivers(t[1..])
  }

  /** The filter keeps every copy of a matching row and no copy of any other row. */
  lemma {:induction false} DriversCount(t: seq<Row<Usuario>>, x: Row<Usuario>)
    ensures multiset(Drivers(t))[x] == if IsDriver(x.val) then multiset(t)[x] else 0
  {
    if t != [] {
      assert t == [t[0]] + t[1..];
      DriversCount(t[1..], x);
    }
  }

  function ViewOf(row: Row<Usuario>): DriverView {
    DriverView(row.id, row.val.username, row.val.nombre, row.val.correo, row.val.rol, row.val.activo)
  }

  /** The rows `GET /` returns, before projection: drivers only, highest id first. */
  function DriverRows(db: Db): (r: seq<Row<Usuario>>)
    ensures forall i :: 0 <= i < |r| ==> IsDriver(r[i].val) && r[i] in db.usuarios
    ensures forall i, j :: 0 <= i < j < |r| ==> r[i].id >= r[j].id
    ensures forall i :: 0 <= i < |db.usuarios| && IsDriver(db.usuarios[i].val) ==> db.usuarios[i] in r
    ensures multiset(r) == multiset(Drivers(db.usuarios))
  {
    var f := Drivers(db.usuarios);
    var s := ByIdDesc(f);
    s
  }

  /** `GET /`: the driver columns of those rows. */
  function List(db: Db): (r: seq<DriverView>)
    ensures |r| == |DriverRows(db)|
    ensures forall i :: 0 <= i < |r| ==> r[i] == ViewOf(DriverRows(db)[i]) && r[i].rol == Some(Rol)
  {
    Views(DriverRows(db))
  }

  function Views(s: seq<Row<Usuario>>): (r: seq<DriverView>)
    ensures |r| == |s|
    ensures forall i :: 0 <= i < |s| ==> r[i] == ViewOf(s[i])
  {
    seq(|s|, i requires 0 <= i < |s| => ViewOf(s[i]))
  }

  /** `POST /`: the role is forced to "Conductor" and the row is active. */
  function Create(db: Db, body: CreateBody, hash: string -> string, newId: nat): (r: (Db, Reply<nat>))
    requires !Has(db.usuarios, newId)
    ensures !Usuarios.Present(body.username) || !Usuarios.Present(body.password) ==> r == (db, Fail(400, MsgObligatorios))
    ensures r.1.status == 201 <==> Usuarios.Present(body.username) && Usuarios.Present(body.password)
                                   && !Usuarios.UsernameTaken(db.usuarios, body.username.value, -1)
    ensures r.1.status != 201 ==> r.0 == db && r.1.Fail?
    ensures r.1.status == 201 ==>
              r.1 == Ok(201, newId) && r.0 == db.(usuarios := r.0.usuarios)
              && (forall k :: k != newId ==> Get(r.0.usuarios, k) == Get(db.usuarios, k))
              && Get(r.0.usuarios, newId) == Some(Usuario(body.username.value, body.nombre, body.correo, None, None, None, None, None,
                                                          Some(Rol), hash(body.password.value), true))
  {
    if !Usuarios.Present(body.username) || !Usuarios.Present(body.password) then (db, Fail(400, MsgObligatorios))
    else if Usuarios.UsernameTaken(db.usuarios, body.username.value, -1) then (db, Fail(500, MsgErrorCrear))
    else
      var u := Usuario(body.username.value, body.nombre, body.correo, None, None, None, None, None,
                       Some(Rol), hash(body.password.value), true);
      (db.(usuarios := Insert(db.usuarios, newId, u)), Ok(201, newId))
  }

  /** `PUT /:id`: name, mail and the active flag of a driver; `{ ok: true }` even when no row matched. */
  function Update(db: Db, idParam: string, body: UpdateBody): (r: (Db, Reply<bool>))
    ensures ParseIntText(idParam).None? ==> r == (db, Fail(500, MsgErrorActualizar))
    ensures ParseIntText(idParam).Some? ==> r.1 == Ok(200, true) && OnlyDriverChanged(db, r.0, ParseIntText(idParam).value)
    ensures ParseIntText(idParam).Some? && DriverAt(db, ParseIntText(idParam).value) ==>
              Get(r.0.usuarios, ParseIntText(idParam).value)
                == Some(Get(db.usuarios, ParseIntText(idParam).value).value.(nombre := body.nombre, correo := body.correo,
                                                                              activo := Truthy(body.activo)))
  {
    match ParseIntText(idParam)
    case None => (db, Fail(500, MsgErrorActualizar))
    case Some(n) =>
      if !DriverAt(db, n) then (db, Ok(200, true))
      else
        var u := Get(db.usuarios, n).value.(nombre := body.nombre, correo := body.correo, activo := Truthy(body.activo));
        (db.(usuarios := Put(db.usuarios, n, u)), Ok(200, true))
  }

  /** `PUT /:id/password`: the hash of a driver, nothing else. */
  function SetPassword(db: Db, idParam: string, password: Option<string>, hash: string -> string): (r: (Db, Reply<bool>))
    ensures !Usuarios.Present(password) ==> r == (db, Fail(400, MsgPasswordRequerida))
    ensures Usuarios.Present(password) && ParseIntText(idParam).None? ==> r == (db, Fail(500, MsgErrorPassword))
    ensures r.1.Ok? <==> Usuarios.Present(password) && ParseIntText(idParam).Some?
    ensures r.1.Ok? ==> r.1 == Ok(200, true) && OnlyDriverChanged(db, r.0, ParseIntText(idParam).value)
    ensures r.1.Ok? && DriverAt(db, ParseIntText(idParam).value) ==>
              Get(r.0.usuarios, ParseIntText(idParam).value)
                == Some(Get(db.usuarios, ParseIntText(idParam).value).value.(passwordHash := hash(password.value)))
  {
    if !Usuarios.Present(password) then (db, Fail(400, MsgPasswordRequerida))
    else match ParseIntText(idParam)
      case None => (db, Fail(500, MsgErrorPassword))
      case Some(n) =>
        if !DriverAt(db, n) then (db, Ok(200, true))
        else
          var u := Get(db.usuarios, n).value.(passwordHash := hash(password.value));
          (db.(usuarios := Put(db.usuarios, n, u)), Ok(200, true))
  }

  /** `DELETE /:id`: removes a driver; a driver with inspections is refused by their foreign key. */
  function Delete(db: Db, idParam: string): (r: (Db, Reply<bool>))
    ensures ParseIntText(idParam).None? ==> r == (db, Fail(500, MsgErrorEliminar))
    ensures ParseIntText(idParam).Some? ==>
              var n := ParseIntText(idParam).value;
              if DriverAt(db, n) && Usuarios.Inspects(db, n) then r == (db, Fail(500, MsgErrorEliminar))
              else r.1 == Ok(200, true) && OnlyDriverChanged(db, r.0, n) && (DriverAt(db, n) ==> !Has(r.0.usuarios, n))
  {
    match ParseIntText(idParam)
    case None => (db, Fail(500, MsgErrorEliminar))
    case Some(n) =>
      if !DriverAt(db, n) then (db, Ok(200, true))
      else if Usuarios.Inspects(db, n) then (db, Fail(500, MsgErrorEliminar))
      else (db.(usuarios := Remove(db.usuarios, n)), Ok(200, true))
  }

  /** A driver created here is active and its role lower-cases to "conductor", so the user routes list it among the drivers. */
  lemma CreatedDriverListed(db: Db, body: CreateBody, hash: string -> string, newId: nat)
    requires !Has(db.usuarios, newId)
    requires Create(db, body, hash, newId).1.status == 201
    ensures exists i :: 0 <= i < |Usuarios.Conductores(Create(db, body, hash, newId).0)|
                        && Usuarios.Conductores(Create(db, body, hash, newId).0)[i].id == newId
  {
    var db1 := Create(db, body, hash, newId).0;
    var u := Get(db1.usuarios, newId).value;
    assert ToLower(Rol) == "conductor";
    assert Usuarios.ActiveDriver(u);
    var j :| 0 <= j < |db1.usuarios| && db1.usuarios[j] == Row(newId, u);
    var rows := Usuarios.DriverRows(db1);
    assert db1.usuarios[j] in rows;
    var i :| 0 <= i < |rows| && rows[i] == Row(newId, u);
    assert Usuarios.Conductores(db1)[i] == Usuarios.View(rows[i]);
  }
}

=== FILE: dashboard.dfy ===
/**
 * The control panel: the four counters, the per-vehicle tally of
 * inspections and the chart built from it, one bar per vehicle in
 * order of plate.
 */
module Dashboard {
  import opened Js
  import opened Text
  import opened Table
  import opened Store
  import opened Sorting
  import Usuarios
  import Inspecciones

  const Desconocido := "Desconocido"
  const SinPatente := "Sin Patente"
  const SinDato := "-"

  /** An inspection as the panel reads it: the three fields it may be grouped by. */
  datatype Inspection = Inspection(vehiculoPatente: Option<string>, patente: Option<string>, vehiculoId: Option<int>)

  /** A vehicle as the panel reads it. */
  datatype Vehicle = Vehicle(patente: Option<string>, placa: Option<string>, marca: Option<string>, modelo: Option<string>)

  /** One bar of the chart. */
  datatype ChartEntry = ChartEntry(patente: string, marca: string, modelo: string, totalInspecciones: nat)

  /** `String(n)` for an integer, the property key a number becomes. */
  function IntKey(n: int): (r: string)
    ensures n >= 0 ==> r == NatToString(n)
    ensures n < 0 ==> r == "-" + NatToString(-n)
  {
    if n >= 0 then NatToString(n) else "-" + NatToString(-n)
  }

  /** The first truthy of `vehiculo_patente`, `patente`, `vehiculo_id`, else "Desconocido". */
  function Key(i: Inspection): (r: string)
    ensures r != ""
    ensures i.vehiculoPatente.Some? && i.vehiculoPatente.value != "" ==> r == i.vehiculoPatente.value
    ensures (i.vehiculoPatente.None? || i.vehiculoPatente.value == "") && i.patente.Some? && i.patente.value != ""
            ==> r == i.patente.value
    ensures (i.vehiculoPatente.None? || i.vehiculoPatente.value == "") && (i.patente.None? || i.patente.value == "")
            ==> r == (if i.vehiculoId.Some? && i.vehiculoId.value != 0 then IntKey(i.vehiculoId.value) else Desconocido)
  {
    if i.vehiculoPatente.Some? && i.vehiculoPatente.value != "" then i.vehiculoPatente.value
    else if i.patente.Some? && i.patente.value != "" then i.patente.value
    else if i.vehiculoId.Some? && i.vehiculoId.value != 0 then
      NatToStringNonEmpty(if i.vehiculoId.value >= 0 then i.vehiculoId.value else -i.vehiculoId.value);
      IntKey(i.vehiculoId.value)
    else Desconocido
  }

  lemma NatToStringNonEmpty(n: nat)
    ensures NatToString(n) != ""
  {
  }

  /** Reference count: how many inspections fall under `k`. */
  function Count(s: seq<Inspection>, k: string): (r: nat)
    ensures r <= |s|
  {
    if s == [] then 0 else Count(s[..|s| - 1], k) + (if Key(s[|s| - 1]) == k then 1 else 0)
  }

  /** The `mapaInspecciones` object: keys in insertion order, each once. */
  type Tally = seq<(string, nat)>

  predicate DistinctKeys(t: Tally) {
    forall i, j :: 0 <= i < j < |t| ==> t[i].0 != t[j].0
  }

  /** `mapa[k] || 0`. */
  function Get(t: Tally, k: string): nat {
    if t == [] then 0 else if t[0].0 == k then t[0].1 else Get(t[1..], k)
  }

  /** The sum of all the counts in the object. */
  function Sum(t: Tally): nat {
    if t == [] then 0 else t[0].1 + Sum(t[1..])
  }

  /** `mapa[k] = (mapa[k] || 0) + 1`. */
  function Bump(t: Tally, k: string): (r: Tally)
    requires DistinctKeys(t)
    ensures DistinctKeys(r)
    ensures Get(r, k) == Get(t, k) + 1
    ensures forall o :: o != k ==> Get(r, o) == Get(t, o)
    ensures Sum(r) == Sum(t) + 1
    ensures forall i :: 0 <= i < |r| ==> r[i].0 == k || exists j :: 0 <= j < |t| && t[j].0 == r[i].0
  {
    if t == [] then [(k, 1)]
    else if t[0].0 == k then
      assert forall o :: o != k ==> Get(t, o) == Get(t[1..], o);
      [(k, t[0].1 + 1)] + t[1..]
    else
      var rest := Bump(t[1..], k);
      var r := [t[0]] + rest;
      assert forall i :: 0 < i < |r| ==> r[i] == rest[i - 1];
      forall i, j | 0 <= i < j < |r| ensures r[i].0 != r[j].0 {
        if i == 0 {
          if r[j].0 != k {
            var m :| 0 <= m < |t[1..]| && t[1..][m].0 == rest[j - 1].0;
            assert t[m + 1].0 == r[j].0;
          }
        }
      }
      r
  }

  /** `insp.data.forEach(...)`: the tally after every inspection in order. */
  function Mapa(s: seq<Inspection>): (r: Tally)
    ensures DistinctKeys(r)
    ensures forall k :: Get(r, k) == Count(s, k)
    ensures Sum(r) == |s|
  {
    if s == [] then [] else Bump(Mapa(s[..|s| - 1]), Key(s[|s| - 1]))
  }

  /** The bar of one vehicle: the count is looked up by `v.patente`, the label falls back. */
  function Entry(v: Vehicle, mapa: Tally): (r: ChartEntry)
    ensures r.patente == OrText(v.patente, OrText(v.placa, SinPatente))
    ensures r.marca == OrText(v.marca, SinDato) && r.modelo == OrText(v.modelo, SinDato)
    ensures r.totalInspecciones == Get(mapa, LookupKey(v.patente))
  {
    ChartEntry(OrText(v.patente, OrText(v.placa, SinPatente)), OrText(v.marca, SinDato), OrText(v.modelo, SinDato),
               Get(mapa, LookupKey(v.patente)))
  }

  /** The property key `v.patente` becomes; an absent field is the key "undefined". */
  function LookupKey(p: Option<string>): string {
    if p.Some? then p.value else "undefined"
  }

  predicate ByPatente(a: ChartEntry, b: ChartEntry) {
    LexLe(a.patente, b.patente)
  }

  lemma ByPatenteIsOrder()
    ensures Total(ByPatente) && Transitive(ByPatente)
  {
    forall a: ChartEntry, b: ChartEntry ensures ByPatente(a, b) || ByPatente(b, a) {
      LexLeTotal(a.patente, b.patente);
    }
    forall a: ChartEntry, b: ChartEntry, c: ChartEntry | ByPatente(a, b) && ByPatente(b, c)
      ensures ByPatente(a, c)
    {
      LexLeTransitive(a.patente, b.patente, c.patente);
    }
  }

  function Entries(vs: seq<Vehicle>, mapa: Tally): (r: seq<ChartEntry>)
    ensures |r| == |vs|
    ensures forall i :: 0 <= i < |vs| ==> r[i] == Entry(vs[i], mapa)
  {
    seq(|vs|, i requires 0 <= i < |vs| => Entry(vs[i], mapa))
  }

  /** `dataChart`: one bar per vehicle, ordered by plate. */
  function DataChart(vs: seq<Vehicle>, insps: seq<Inspection>): (r: seq<ChartEntry>)
    ensures |r| == |vs|
    ensures multiset(r) == multiset(Entries(vs, Mapa(insps)))
    ensures SortedBy(r, ByPatente)
  {
    ByPatenteIsOrder();
    SortBy(Entries(vs, Mapa(insps)), ByPatente)
  }

  /**
   * Every vehicle has its bar, carrying the number of inspections grouped
   * under its plate, and 0 when there are none.
   */
  lemma BarPerVehicle(vs: seq<Vehicle>, insps: seq<Inspection>, i: nat)
    requires i < |vs|
    ensures var e := Entry(vs[i], Mapa(insps));
            e in DataChart(vs, insps) && e.totalInspecciones == Count(insps, LookupKey(vs[i].patente))
  {
    var es := Entries(vs, Mapa(insps));
    assert es[i] in multiset(es);
  }

  /** `u.rol?.toLowerCase?.() === "conductor"`. */
  predicate ConductorRole(u: Usuarios.UserView) {
    u.rol.Some? && ToLower(u.rol.value) == "conductor"
  }

  function RoleCount(us: seq<Usuarios.UserView>): (r: nat)
    ensures r <= |us|
  {
    if us == [] then 0 else (if ConductorRole(us[0]) then 1 else 0) + RoleCount(us[1..])
  }

  /** The "Conductores" card: the driver list's length, or when that is 0 the count by role. */
  function TotalConductores(drivers: nat, usuarios: seq<Usuarios.UserView>): (r: nat)
    ensures drivers != 0 ==> r == drivers
    ensures drivers == 0 ==> r == RoleCount(usuarios)
  {
    if drivers != 0 then drivers else RoleCount(usuarios)
  }

  /** The four counters, in the order the cards show them. */
  datatype Stats = Stats(usuarios: nat, vehiculos: nat, conductores: nat, inspecciones: nat)

  function Counters(usuarios: seq<Usuarios.UserView>, vehiculos: nat, drivers: nat, inspecciones: nat): (r: Stats)
    ensures r.usuarios == |usuarios| && r.vehiculos == vehiculos && r.inspecciones == inspecciones
    ensures r.conductores == TotalConductores(drivers, usuarios)
  {
    Stats(|usuarios|, vehiculos, TotalConductores(drivers, usuarios), inspecciones)
  }

  /**
   * Against the server's own lists: the card shows the active drivers, and
   * when there are none it counts users whose role reads "conductor", every
   * one of whom is then inactive.
   */
  lemma ConductoresCard(db: Db)
    ensures var n := TotalConductores(|Usuarios.Conductores(db)|, Usuarios.List(db));
            |Usuarios.DriverRows(db)| > 0 ==> n == |Usuarios.DriverRows(db)|
    ensures Usuarios.DriverRows(db) == [] ==>
              forall u :: u in Usuarios.List(db) && ConductorRole(u) ==> !u.activo
  {
    if Usuarios.DriverRows(db) == [] {
      forall u | u in Usuarios.List(db) && ConductorRole(u) ensures !u.activo {
        var i :| 0 <= i < |Usuarios.List(db)| && Usuarios.List(db)[i] == u;
        var j :| 0 <= j < |db.usuarios| && u == Usuarios.View(db.usuarios[j]);
        assert db.usuarios[j] !in Usuarios.DriverRows(db);
        assert !Usuarios.ActiveDriver(db.usuarios[j].val);
      }
    }
  }

  /** The panel's reading of a listed inspection: it has no `patente` field. */
  function FromListRow(row: Inspecciones.ListRow): (r: Inspection)
    ensures r.patente.None?
    ensures Key(r) == (if row.vehiculoPatente != "" then row.vehiculoPatente
                       else if row.vehiculoId != 0 then NatToString(row.vehiculoId) else Desconocido)
  {
    Inspection(Some(row.vehiculoPatente), None, Some(row.vehiculoId))
  }

  /** The panel's reading of a stored vehicle: no make, model or `placa`. */
  function FromVehiculo(row: Row<Vehiculo>): (r: Vehicle)
    ensures Entry(r, []).marca == SinDato && Entry(r, []).modelo == SinDato
    ensures row.val.patente != "" ==> Entry(r, []).patente == row.val.patente
  {
    Vehicle(Some(row.val.patente), None, None, None)
  }
}

=== FILE: duplicados.dfy ===
/**
 * The duplicate check both management pages run before saving: does
 * another record already hold this value, ignoring letter case?
 */
module Duplicados {
  import opened Js
  import opened Text

  /** One record as the page holds it: its id and the value of the field checked. */
  datatype Entry = Entry(id: nat, value: Option<string>)

  /** `v[campo]?.toLowerCase() === valor.toLowerCase() && v.id !== idActual`. */
  predicate Clashes(e: Entry, valor: string, idActual: Option<nat>) {
    e.value.Some? && ToLower(e.value.value) == ToLower(valor) && idActual != Some(e.id)
  }

  /** `rows.some(...)` over the loaded records. */
  function AnyClash(entries: seq<Entry>, valor: string, idActual: Option<nat>): (r: bool)
    ensures r <==> exists i :: 0 <= i < |entries| && Clashes(entries[i], valor, idActual)
  {
    if entries == [] then false
    else Clashes(entries[0], valor, idActual) || AnyClash(entries[1..], valor, idActual)
  }

  /** The check ignores letter case in the value typed. */
  lemma CaseBlind(entries: seq<Entry>, valor: string, idActual: Option<nat>)
    ensures AnyClash(entries, ToUpper(valor), idActual) == AnyClash(entries, valor, idActual)
    ensures AnyClash(entries, ToLower(valor), idActual) == AnyClash(entries, valor, idActual)
  {
    LowerOfUpper(valor);
    LowerIdempotent(valor);
  }

  /** The record being edited never clashes with itself, whatever it holds. */
  lemma OwnRecordIgnored(entries: seq<Entry>, own: Entry, valor: string)
    ensures AnyClash(entries + [own], valor, Some(own.id)) == AnyClash(entries, valor, Some(own.id))
  {
    var all := entries + [own];
    if AnyClash(all, valor, Some(own.id)) {
      var i :| 0 <= i < |all| && Clashes(all[i], valor, Some(own.id));
      assert i < |entries| && entries[i] == all[i];
    }
    if AnyClash(entries, valor, Some(own.id)) {
      var i :| 0 <= i < |entries| && Clashes(entries[i], valor, Some(own.id));
      assert all[i] == entries[i];
    }
  }
}

=== FILE: inspecciones.dfy ===
/**
 * The inspection routes: creating an inspection together with its checklist
 * items in one transaction, listing inspections, and reading the items of
 * one inspection, each behind the authentication guard.
 */
module Inspecciones {
  import opened Js
  import opened Text
  import opened Table
  import opened Store
  import Auth

  /** One `[key, val]` entry of the submitted items object; a field `val` lacks is `JUndefined`. */
  datatype ItemEntry = ItemEntry(key: string, existe: JValue, estado: JValue, obs: JValue)

  /** `items` is either absent or not an object (no rows), or an object with entries in order. */
  datatype ItemsField = NoItems | ItemsMap(entries: seq<ItemEntry>)

  datatype CreateBody = CreateBody(
    usuarioId: JValue,
    vehiculoId: JValue,
    observacion: Option<string>,
    items: ItemsField,
    foto: Option<string>)

  datatype Created = Created(id: nat, items: nat)

  const Estados: seq<string> := ["Bueno", "Regular", "Malo"]
  const ObsMax: nat := 255

  const MsgVehiculo := "vehiculo_id es obligatorio"
  const MsgPropias := "Acción no permitida. Los conductores solo pueden registrar inspecciones propias."
  const MsgCrear := "Error al crear inspección"
  const MsgListar := "Error al obtener inspecciones"
  const MsgPermiso := "No tiene permiso para ver esta inspección."
  const MsgItems := "Error al obtener ítems"

  /** `s.slice(0, n)`. */
  function Prefix(s: string, n: nat): (r: string)
    ensures |r| <= n && r <= s
    ensures |s| <= n ==> r == s
    ensures n <= |s| ==> |r| == n
  {
    if |s| <= n then s else s[..n]
  }

  /**
   * `(val?.obs || "").slice(0, 255)`: a falsy note is empty, a text note is
   * cut to 255 characters, and any other truthy value has no `slice` and
   * throws (`None`).
   */
  function ObsText(obs: JValue): (r: Option<string>)
    ensures !Truthy(obs) ==> r == Some("")
    ensures obs.JStr? ==> r.Some? && r.value <= obs.s
    ensures r.Some? ==> |r.value| <= ObsMax
    ensures Truthy(obs) && !obs.JStr? ==> r.None?
  {
    if !Truthy(obs) then Some("")
    else if obs.JStr? then Some(Prefix(obs.s, ObsMax))
    else None
  }

  /** The stored row for one submitted entry; `None` when building it throws. */
  function NormaliseItem(e: ItemEntry, inspeccionId: nat): (r: Option<InspItem>)
    ensures r.Some? <==> ObsText(e.obs).Some?
    ensures r.Some? ==> r.value.inspeccionId == inspeccionId && r.value.itemKey == e.key
    ensures r.Some? ==> (r.value.existe == "NO" <==> e.existe == JStr("NO"))
    ensures r.Some? ==> r.value.existe in ["SI", "NO"] && r.value.estado in Estados
    ensures r.Some? ==> (r.value.estado == e.estado.s <== e.estado.JStr? && e.estado.s in Estados)
    ensures r.Some? && !(e.estado.JStr? && e.estado.s in Estados) ==> r.value.estado == "Bueno"
    ensures r.Some? ==> |r.value.obs| <= ObsMax
  {
    match ObsText(e.obs)
    case None => None
    case Some(obs) =>
      Some(InspItem(
        inspeccionId,
        e.key,
        if e.existe == JStr("NO") then "NO" else "SI",
        if e.estado.JStr? && e.estado.s in Estados then e.estado.s else "Bueno",
        obs))
  }

  function Entries(items: ItemsField): seq<ItemEntry> {
    if items.ItemsMap? then items.entries else []
  }

  /** All rows, in entry order, or `None` when any entry throws. */
  function ItemRows(items: ItemsField, inspeccionId: nat): (r: Option<seq<InspItem>>)
    ensures r.Some? <==> forall i :: 0 <= i < |Entries(items)| ==> NormaliseItem(Entries(items)[i], inspeccionId).Some?
    ensures r.Some? ==> |r.value| == |Entries(items)|
    ensures r.Some? ==> forall i :: 0 <= i < |r.value| ==> r.value[i] == NormaliseItem(Entries(items)[i], inspeccionId).value
  {
    var es := Entries(items);
    if forall i :: 0 <= i < |es| ==> NormaliseItem(es[i], inspeccionId).Some? then
      Some(seq(|es|, i requires 0 <= i < |es| => NormaliseItem(es[i], inspeccionId).value))
    else None
  }

  /** The inspection row, or `None` when an id cannot be bound to an integer column. */
  function InspRow(body: CreateBody): (r: Option<Inspeccion>)
    ensures r.Some? <==> ParamInt(body.usuarioId).Some? && ParamInt(body.usuarioId).value >= 0
                         && ParamInt(body.vehiculoId).Some? && ParamInt(body.vehiculoId).value >= 0
    ensures r.Some? ==> r.value.estado == "OK" && r.value.observacion == OrText(body.observacion, "")
    ensures r.Some? ==> r.value.foto.Some? ==> r.value.foto.value != ""
  {
    match (ParamInt(body.usuarioId), ParamInt(body.vehiculoId))
    case (Some(u), Some(v)) =>
      if u < 0 || v < 0 then None
      else Some(Inspeccion(u, v, OrText(body.observacion, ""), "OK",
                           if body.foto == Some("") then None else body.foto))
    case _ => None
  }

  function ItemInserts(rows: seq<InspItem>): (r: seq<Write>)
    ensures |r| == |rows|
    ensures forall i :: 0 <= i < |r| ==> r[i] == InsertInspItem(rows[i])
  {
    seq(|rows|, i requires 0 <= i < |rows| => InsertInspItem(rows[i]))
  }

  /** Items of an inspection that exists are always accepted, and are appended in order. */
  lemma {:induction false} ItemInsertsApply(db: Db, rows: seq<InspItem>, id: nat)
    requires Has(db.inspecciones, id)
    requires forall i :: 0 <= i < |rows| ==> rows[i].inspeccionId == id
    ensures ApplyAll(db, ItemInserts(rows)) == Some(db.(inspItems := db.inspItems + rows))
    decreases |rows|
  {
    if rows == [] {
      assert db.inspItems + rows == db.inspItems;
    } else {
      var db' := db.(inspItems := db.inspItems + [rows[0]]);
      assert Apply(db, ItemInserts(rows)[0]) == Some(db');
      assert ItemInserts(rows)[1..] == ItemInserts(rows[1..]);
      ItemInsertsApply(db', rows[1..], id);
      assert db'.inspItems + rows[1..] == db.inspItems + rows;
    }
  }

  /** The statements of the create transaction: the inspection, then one insert per item. */
  function CreateWrites(id: nat, insp: Inspeccion, rows: seq<InspItem>): seq<Write> {
    [InsertInspeccion(id, insp)] + ItemInserts(rows)
  }

  /** The outcome of the create transaction when the inspection insert is accepted. */
  lemma CreateWritesApply(db: Db, id: nat, insp: Inspeccion, rows: seq<InspItem>)
    requires forall i :: 0 <= i < |rows| ==> rows[i].inspeccionId == id
    ensures ApplyAll(db, CreateWrites(id, insp, rows)).Some?
            <==> !Has(db.inspecciones, id) && Has(db.usuarios, insp.usuarioId) && Has(db.vehiculos, insp.vehiculoId)
    ensures ApplyAll(db, CreateWrites(id, insp, rows)).Some? ==>
              ApplyAll(db, CreateWrites(id, insp, rows)).value
              == db.(inspecciones := Insert(db.inspecciones, id, insp), inspItems := db.inspItems + rows)
  {
    var ws := CreateWrites(id, insp, rows);
    assert ws[0] == InsertInspeccion(id, insp);
    assert ws[1..] == ItemInserts(rows);
    if Apply(db, ws[0]).Some? {
      ItemInsertsApply(Apply(db, ws[0]).value, rows, id);
    }
  }

  /** The guards a request must pass before any statement is issued. */
  predicate Admitted(user: Auth.User, body: CreateBody) {
    Truthy(body.vehiculoId)
    && !(Auth.IsConductor(user) && !NumberEq(ToNumber(body.usuarioId), user.id))
  }

  /** The transaction commits: rows build, ids bind, keys hold, and no statement faults. */
  predicate Commits(db: Db, body: CreateBody, newId: nat, faults: set<nat>) {
    InspRow(body).Some? && ItemRows(body.items, newId).Some?
    && !Has(db.inspecciones, newId)
    && Has(db.usuarios, InspRow(body).value.usuarioId)
    && Has(db.vehiculos, InspRow(body).value.vehiculoId)
    && NoFaultBelow(|Entries(body.items)| + 1, faults)
  }

  /**
   * `POST /inspecciones` for an authenticated `user`. `newId` is the id the
   * serial column hands out and `faults` the statements that fail for
   * reasons outside the model; building the item rows happens after the
   * inspection insert, so an entry that throws also rolls back.
   */
  function CreateInspeccion(db: Db, user: Auth.User, body: CreateBody, newId: nat, faults: set<nat>): (r: (Db, Reply<Created>))
    ensures r.1.status in {201, 400, 403, 500}
    ensures r.1.status != 201 ==> r.0 == db
    ensures r.1.status == 400 <==> !Truthy(body.vehiculoId)
    ensures r.1.status == 403 <==>
              Truthy(body.vehiculoId) && Auth.IsConductor(user) && !NumberEq(ToNumber(body.usuarioId), user.id)
    ensures r.1.status == 201 <==> Admitted(user, body) && Commits(db, body, newId, faults)
    ensures r.1.status == 201 ==>
              r.1 == Ok(201, Created(newId, |Entries(body.items)|))
              && r.0 == db.(inspecciones := Insert(db.inspecciones, newId, InspRow(body).value),
                            inspItems := db.inspItems + ItemRows(body.items, newId).value)
    ensures r.1.Fail? ==> r.1.message == (if r.1.status == 400 then MsgVehiculo
                                          else if r.1.status == 403 then MsgPropias else MsgCrear)
  {
    if !Truthy(body.vehiculoId) then (db, Fail(400, MsgVehiculo))
    else if Auth.IsConductor(user) && !NumberEq(ToNumber(body.usuarioId), user.id) then (db, Fail(403, MsgPropias))
    else match InspRow(body)
      case None => (db, Fail(500, MsgCrear))
      case Some(insp) =>
        match ItemRows(body.items, newId)
        case None => (db, Fail(500, MsgCrear))
        case Some(rows) =>
          var ws := CreateWrites(newId, insp, rows);
          CreateWritesApply(db, newId, insp, rows);
          match RunTx(db, ws, faults)
          case Committed(db') => (db', Ok(201, Created(newId, |rows|)))
          case RolledBack(_) => (db, Fail(500, MsgCrear))
  }

  /** The route with its guard: a request the guard rejects answers 401 and writes nothing. */
  function PostInspeccion(db: Db, header: Option<string>, verify: string -> Auth.Verified,
                          body: CreateBody, newId: nat, faults: set<nat>): (r: (Db, Reply<Created>))
    ensures Auth.Authenticate(header, verify).Reject? ==> r.0 == db && r.1.status == 401
    ensures Auth.Authenticate(header, verify).Next? ==>
              r == CreateInspeccion(db, Auth.Authenticate(header, verify).user, body, newId, faults)
  {
    match Auth.Authenticate(header, verify)
    case Reject(status, message) => (db, Fail(status, message))
    case Next(user) => CreateInspeccion(db, user, body, newId, faults)
  }

  /** Every item row points at an inspection, and inspection ids are unique. */
  predicate Wellformed(db: Db) {
    UniqueIds(db.inspecciones)
    && forall i :: 0 <= i < |db.inspItems| ==> Has(db.inspecciones, db.inspItems[i].inspeccionId)
  }

  /** A create keeps the store well formed, whatever its outcome. */
  lemma CreatePreservesWellformed(db: Db, user: Auth.User, body: CreateBody, newId: nat, faults: set<nat>)
    requires Wellformed(db)
    ensures Wellformed(CreateInspeccion(db, user, body, newId, faults).0)
  {
    var r := CreateInspeccion(db, user, body, newId, faults);
    if r.1.status == 201 {
      var rows := ItemRows(body.items, newId).value;
      forall i | 0 <= i < |r.0.inspItems|
        ensures Has(r.0.inspecciones, r.0.inspItems[i].inspeccionId)
      {
        if i < |db.inspItems| {
          assert r.0.inspItems[i] == db.inspItems[i];
        } else {
          assert r.0.inspItems[i] == rows[i - |db.inspItems|];
        }
      }
    }
  }

  lemma {:induction false} ItemsOfAppend(a: seq<InspItem>, b: seq<InspItem>, id: nat)
    ensures ItemsOf(a + b, id) == ItemsOf(a, id) + ItemsOf(b, id)
  {
    if a == [] {
      assert a + b == b;
    } else {
      var head := if a[0].inspeccionId == id then [a[0]] else [];
      assert (a + b)[0] == a[0];
      assert (a + b)[1..] == a[1..] + b;
      assert ItemsOf(a + b, id) == head + ItemsOf(a[1..] + b, id);
      ItemsOfAppend(a[1..], b, id);
    }
  }

  lemma {:induction false} ItemsOfAll(rows: seq<InspItem>, id: nat)
    requires forall i :: 0 <= i < |rows| ==> rows[i].inspeccionId == id
    ensures ItemsOf(rows, id) == rows
  {
    if rows != [] {
      ItemsOfAll(rows[1..], id);
    }
  }

  lemma {:induction false} ItemsOfNone(rows: seq<InspItem>, id: nat)
    requires forall i :: 0 <= i < |rows| ==> rows[i].inspeccionId != id
    ensures ItemsOf(rows, id) == []
  {
    if rows != [] {
      ItemsOfNone(rows[1..], id);
    }
  }

  /** `GET /inspecciones/:id/items`. The path id is text; the store casts it. */
  function GetItems(db: Db, user: Auth.User, idParam: string): (r: Reply<seq<InspItem>>)
    ensures r.status in {200, 403, 500}
    ensures r.status == 500 <==> ParseIntText(idParam).None? || (Auth.IsConductor(user) && user.id.None?)
    ensures r.status == 403 ==> r == Fail(403, MsgPermiso)
    ensures r.Ok? ==> r.status == 200 && ParseIntText(idParam).value >= 0
    ensures r.Ok? ==> Has(db.inspecciones, ParseIntText(idParam).value)
    ensures r.Ok? && Auth.IsConductor(user) ==>
              Get(db.inspecciones, ParseIntText(idParam).value).value.usuarioId == user.id.value
    ensures r.Ok? ==> r.body == ItemsOf(db.inspItems, ParseIntText(idParam).value)
    ensures r.status == 403 ==>
              var n := ParseIntText(idParam).value;
              n < 0 || !Has(db.inspecciones, n)
              || (Auth.IsConductor(user) && Get(db.inspecciones, n).value.usuarioId != user.id.value)
  {
    match ParseIntText(idParam)
    case None => Fail(500, MsgItems)
    case Some(n) =>
      if Auth.IsConductor(user) && user.id.None? then Fail(500, MsgItems)
      else if n < 0 || !Has(db.inspecciones, n) then Fail(403, MsgPermiso)
      else if Auth.IsConductor(user) && Get(db.inspecciones, n).value.usuarioId != user.id.value then Fail(403, MsgPermiso)
      else Ok(200, ItemsOf(db.inspItems, n))
  }

  /** The items stored for an inspection just inserted with `rows` are exactly `rows`. */
  lemma StoredAfterInsert(db: Db, newId: nat, insp: Inspeccion, rows: seq<InspItem>)
    requires Wellformed(db) && !Has(db.inspecciones, newId)
    requires forall i :: 0 <= i < |rows| ==> rows[i].inspeccionId == newId
    ensures ItemsOf(db.inspItems + rows, newId) == rows
  {
    forall i | 0 <= i < |db.inspItems|
      ensures db.inspItems[i].inspeccionId != newId
    {
      assert Has(db.inspecciones, db.inspItems[i].inspeccionId);
    }
    ItemsOfNone(db.inspItems, newId);
    ItemsOfAll(rows, newId);
    ItemsOfAppend(db.inspItems, rows, newId);
  }

  /** Reading back the items of an inspection that was just inserted with `rows`. */
  lemma ReadAfterInsert(db: Db, newId: nat, insp: Inspeccion, rows: seq<InspItem>, reader: Auth.User)
    requires Wellformed(db) && !Has(db.inspecciones, newId)
    requires forall i :: 0 <= i < |rows| ==> rows[i].inspeccionId == newId
    requires !Auth.IsConductor(reader)
    ensures GetItems(db.(inspecciones := Insert(db.inspecciones, newId, insp), inspItems := db.inspItems + rows),
                     reader, NatToString(newId))
            == Ok(200, rows)
  {
    var db' := db.(inspecciones := Insert(db.inspecciones, newId, insp), inspItems := db.inspItems + rows);
    TrimDigits(NatToString(newId));
    assert ParseIntText(NatToString(newId)) == Some(newId);
    assert Has(db'.inspecciones, newId);
    StoredAfterInsert(db, newId, insp, rows);
    assert GetItems(db', reader, NatToString(newId)) == Ok(200, ItemsOf(db'.inspItems, newId));
  }

  /** After a successful create, the store holds exactly the built rows for the new id. */
  lemma StoredAfterCreate(db: Db, user: Auth.User, body: CreateBody, newId: nat, faults: set<nat>)
    requires Wellformed(db)
    requires CreateInspeccion(db, user, body, newId, faults).1.status == 201
    ensures ItemsOf(CreateInspeccion(db, user, body, newId, faults).0.inspItems, newId)
            == ItemRows(body.items, newId).value
    ensures Get(CreateInspeccion(db, user, body, newId, faults).0.inspecciones, newId) == Some(InspRow(body).value)
  {
    StoredAfterInsert(db, newId, InspRow(body).value, ItemRows(body.items, newId).value);
  }

  /**
   * Creating and then reading back: the items an administrator reads for the
   * new id are exactly the rows built from the submitted entries, in order.
   */
  lemma CreateThenReadItems(db: Db, user: Auth.User, body: CreateBody, newId: nat, faults: set<nat>, reader: Auth.User)
    requires Wellformed(db)
    requires CreateInspeccion(db, user, body, newId, faults).1.status == 201
    requires !Auth.IsConductor(reader)
    ensures GetItems(CreateInspeccion(db, user, body, newId, faults).0, reader, NatToString(newId))
            == Ok(200, ItemRows(body.items, newId).value)
  {
    var rows := ItemRows(body.items, newId).value;
    ReadAfterInsert(db, newId, InspRow(body).value, rows, reader);
  }

  /** One row of the inspection list: the inspection joined with its driver and vehicle. */
  datatype ListRow = ListRow(
    id: nat,
    conductorNombre: Option<string>,
    usuarioId: nat,
    vehiculoPatente: string,
    vehiculoId: nat,
    estado: string,
    observacion: string)

  /** `LOWER(COALESCE(u.rol, '')) = 'conductor'`. */
  predicate DriverAccount(u: Usuario) {
    ToLower(OrText(u.rol, "")) == "conductor"
  }

  /**
   * An inspection the list shows: its user and vehicle exist (the inner
   * joins), its user is a driver account, and under a driver's `scope` it
   * belongs to that driver.
   */
  predicate Listable(db: Db, row: Row<Inspeccion>, scope: Option<int>) {
    Get(db.usuarios, row.val.usuarioId).Some? && DriverAccount(Get(db.usuarios, row.val.usuarioId).value)
    && Has(db.vehiculos, row.val.vehiculoId)
    && (scope.Some? ==> row.val.usuarioId == scope.value)
  }

  function View(db: Db, row: Row<Inspeccion>): ListRow
    requires Has(db.usuarios, row.val.usuarioId) && Has(db.vehiculos, row.val.vehiculoId)
  {
    ListRow(row.id, Get(db.usuarios, row.val.usuarioId).value.nombre, row.val.usuarioId,
            Get(db.vehiculos, row.val.vehiculoId).value.patente, row.val.vehiculoId,
            row.val.estado, row.val.observacion)
  }

  /** The inner join, filtered by `Listable`, keeping the order of `rows`. */
  function JoinRows(rows: seq<Row<Inspeccion>>, db: Db, scope: Option<int>): (r: seq<ListRow>)
    ensures forall x :: x in r ==>
              exists k :: 0 <= k < |rows| && Listable(db, rows[k], scope) && x == View(db, rows[k])
  {
    if rows == [] then []
    else
      var rest := JoinRows(rows[1..], db, scope);
      if Listable(db, rows[0], scope) then [View(db, rows[0])] + rest else rest
  }

  /** The join of two blocks of rows is the join of the first followed by the join of the second. */
  lemma {:induction false} JoinAppend(a: seq<Row<Inspeccion>>, b: seq<Row<Inspeccion>>, db: Db, scope: Option<int>)
    ensures JoinRows(a + b, db, scope) == JoinRows(a, db, scope) + JoinRows(b, db, scope)
  {
    if a != [] {
      assert (a + b)[1..] == a[1..] + b;
      JoinAppend(a[1..], b, db, scope);
    } else {
      assert a + b == b;
    }
  }

  /** Joining two orderings of the same rows gives two orderings of the same list rows. */
  lemma {:induction false} JoinPermute(s: seq<Row<Inspeccion>>, t: seq<Row<Inspeccion>>, db: Db, scope: Option<int>)
    requires multiset(s) == multiset(t)
    ensures multiset(JoinRows(s, db, scope)) == multiset(JoinRows(t, db, scope))
    decreases |s|
  {
    if s == [] {
      assert |t| == |multiset(t)| == 0;
    } else {
      var x := s[0];
      assert x in multiset(t);
      var j :| 0 <= j < |t| && t[j] == x;
      var rest := t[..j] + t[j + 1..];
      assert t == t[..j] + [x] + t[j + 1..];
      assert s == [x] + s[1..];
      calc {
        multiset(s[1..]);
        multiset(s) - multiset{x};
        multiset(t[..j]) + multiset{x} + multiset(t[j + 1..]) - multiset{x};
        multiset(rest);
      }
      JoinPermute(s[1..], rest, db, scope);
      JoinAppend([x], s[1..], db, scope);
      JoinAppend(t[..j] + [x], t[j + 1..], db, scope);
      JoinAppend(t[..j], [x], db, scope);
      JoinAppend(t[..j], t[j + 1..], db, scope);
    }
  }

  /** Every listable row makes it into the join. */
  lemma {:induction false} JoinComplete(rows: seq<Row<Inspeccion>>, db: Db, scope: Option<int>, k: nat)
    requires k < |rows| && Listable(db, rows[k], scope)
    ensures View(db, rows[k]) in JoinRows(rows, db, scope)
  {
    if k > 0 {
      assert rows[1..][k - 1] == rows[k];
      JoinComplete(rows[1..], db, scope, k - 1);
    }
  }

  predicate Descending(r: seq<ListRow>) {
    forall i, j :: 0 <= i < j < |r| ==> r[i].id >= r[j].id
  }

  /** The join keeps a descending order of ids. */
  lemma {:induction false} JoinOrdered(rows: seq<Row<Inspeccion>>, db: Db, scope: Option<int>)
    requires forall i, j :: 0 <= i < j < |rows| ==> rows[i].id >= rows[j].id
    ensures Descending(JoinRows(rows, db, scope))
  {
    if rows != [] {
      var rest := JoinRows(rows[1..], db, scope);
      JoinOrdered(rows[1..], db, scope);
      forall x | x in rest ensures x.id <= rows[0].id {
        var k :| 0 <= k < |rows[1..]| && Listable(db, rows[1..][k], scope) && x == View(db, rows[1..][k]);
        assert rows[1..][k] == rows[k + 1];
      }
      if Listable(db, rows[0], scope) {
        var r := [View(db, rows[0])] + rest;
        forall i, j | 0 <= i < j < |r| ensures r[i].id >= r[j].id {
          assert r[j] == rest[j - 1];
          assert rest[j - 1] in rest;
          if i > 0 {
            assert r[i] == rest[i - 1];
          }
        }
        assert JoinRows(rows, db, scope) == r;
      } else {
        assert JoinRows(rows, db, scope) == rest;
      }
    }
  }

  lemma ListComplete(db: Db, scope: Option<int>)
    ensures forall k :: 0 <= k < |db.inspecciones| && Listable(db, db.inspecciones[k], scope) ==>
              View(db, db.inspecciones[k]) in JoinRows(ByIdDesc(db.inspecciones), db, scope)
    ensures forall x :: x in JoinRows(ByIdDesc(db.inspecciones), db, scope) ==>
              exists k :: 0 <= k < |db.inspecciones| && Listable(db, db.inspecciones[k], scope)
                          && x == View(db, db.inspecciones[k])
  {
    ListHasListable(db, scope);
    ListOnlyListable(db, scope);
  }

  /** Every listable stored row is listed. */
  lemma ListHasListable(db: Db, scope: Option<int>)
    ensures forall k :: 0 <= k < |db.inspecciones| && Listable(db, db.inspecciones[k], scope) ==>
              View(db, db.inspecciones[k]) in JoinRows(ByIdDesc(db.inspecciones), db, scope)
  {
    var sorted := ByIdDesc(db.inspecciones);
    forall k | 0 <= k < |db.inspecciones| && Listable(db, db.inspecciones[k], scope)
      ensures View(db, db.inspecciones[k]) in JoinRows(sorted, db, scope)
    {
      assert db.inspecciones[k] in multiset(sorted);
      var j :| 0 <= j < |sorted| && sorted[j] == db.inspecciones[k];
      JoinComplete(sorted, db, scope, j);
    }
  }

  /** Every listed row is the view of a listable stored row. */
  lemma ListOnlyListable(db: Db, scope: Option<int>)
    ensures forall x :: x in JoinRows(ByIdDesc(db.inspecciones), db, scope) ==>
              exists k :: 0 <= k < |db.inspecciones| && Listable(db, db.inspecciones[k], scope)
                          && x == View(db, db.inspecciones[k])
  {
    var sorted := ByIdDesc(db.inspecciones);
    forall x | x in JoinRows(sorted, db, scope)
      ensures exists k :: 0 <= k < |db.inspecciones| && Listable(db, db.inspecciones[k], scope)
                          && x == View(db, db.inspecciones[k])
    {
      var j :| 0 <= j < |sorted| && Listable(db, sorted[j], scope) && x == View(db, sorted[j]);
      assert sorted[j] in multiset(db.inspecciones);
      var k :| 0 <= k < |db.inspecciones| && db.inspecciones[k] == sorted[j];
    }
  }

  /**
   * `GET /inspecciones`: driver-account inspections, newest id first; a
   * driver sees only their own, and a driver whose id is not a number makes
   * the query fail.
   */
  function ListInspecciones(db: Db, user: Auth.User): (r: Reply<seq<ListRow>>)
    ensures r.Fail? <==> Auth.IsConductor(user) && user.id.None?
    ensures r.Fail? ==> r == Fail(500, MsgListar)
    ensures r.Ok? ==> r.status == 200
    ensures r.Ok? ==> Descending(r.body)
    ensures r.Ok? ==> forall x :: x in r.body ==>
              exists k :: 0 <= k < |db.inspecciones|
                          && Listable(db, db.inspecciones[k], if Auth.IsConductor(user) then user.id else None)
                          && x == View(db, db.inspecciones[k])
    ensures r.Ok? ==> forall k :: 0 <= k < |db.inspecciones|
                                  && Listable(db, db.inspecciones[k], if Auth.IsConductor(user) then user.id else None) ==>
              View(db, db.inspecciones[k]) in r.body
    ensures r.Ok? ==> multiset(r.body) == multiset(JoinRows(db.inspecciones, db, if Auth.IsConductor(user) then user.id else None))
  {
    if Auth.IsConductor(user) && user.id.None? then Fail(500, MsgListar)
    else
      var scope := if Auth.IsConductor(user) then user.id else None;
      ListComplete(db, scope);
      JoinOrdered(ByIdDesc(db.inspecciones), db, scope);
      JoinPermute(ByIdDesc(db.inspecciones), db.inspecciones, db, scope);
      Ok(200, JoinRows(ByIdDesc(db.inspecciones), db, scope))
  }
}

=== FILE: inspeccionpage.dfy ===
/**
 * The inspection page: the ten-per-page list, the checklist form state
 * and its per-field edits, the reset, and the save handler that builds
 * the request body the create route reads.
 */
module InspeccionPage {
  import opened Js
  import opened Text
  import Inspecciones
  import Reportes
  import Auth
  import Store

  const PerPage: nat := 10
  const AlertSeleccion := "Debe seleccionar vehículo y conductor"

  /** The checklist the form shows, in order. */
  const DefaultItems: seq<string> := [
    "Luces de estacionamiento", "Luces bajas", "Luces altas", "Luz de freno (incluye tercera luz)",
    "Luz de marcha atrás", "Luz de viraje derecho", "Luz de viraje izquierdo", "Luz de emergencia",
    "Luz de patente", "Baliza",
    "Freno de mano", "Freno de pedal", "Freno otros",
    "Neumático delantero derecho", "Neumático delantero izquierdo", "Neumático trasero derecho",
    "Neumático trasero izquierdo", "Neumático de repuesto", "Neumáticos otros",
    "Aceite de motor", "Agua del radiador", "Líquido de freno", "Correas", "Agua de batería",
    "Extintor", "Botiquín", "Gata", "Llave de ruedas", "Triángulos", "Chaleco reflectante",
    "Limpia parabrisas", "Herramientas", "Cinturón de seguridad", "Espejos laterales",
    "Espejo interior", "Radiotransmisor", "Bocina de retroceso", "Antena", "Permiso de circulación",
    "Revisión técnica", "Seguro obligatorio",
    "Techo", "Capot", "Puertas", "Vidrios", "Tapabarros", "Pick-up", "Parachoques",
    "Tubo de escape", "Aseo de cabina", "Sanitización COVID-19"
  ]

  /** The form's checklist is the report's catalog, entry for entry and in order. */
  lemma DefaultItemsAreCatalog()
    ensures DefaultItems == Reportes.Catalog
  {
  }

  /** `Math.ceil(n / 10)`. */
  function TotalPages(n: nat): (r: nat)
    ensures r * PerPage >= n
    ensures r > 0 ==> (r - 1) * PerPage < n
    ensures r == 0 <==> n == 0
  {
    (n + PerPage - 1) / PerPage
  }

  /** `s.slice(a, b)` for non-negative bounds: both are clamped to the length. */
  function Slice<T>(s: seq<T>, a: nat, b: nat): (r: seq<T>)
    ensures a <= |s| ==> r == s[a..if b <= |s| then (if b < a then a else b) else |s|]
    ensures a > |s| ==> r == []
  {
    var lo := if a <= |s| then a else |s|;
    var hi := if b <= |s| then b else |s|;
    if hi < lo then [] else s[lo..hi]
  }

  /** The records page `p` shows. */
  function CurrentRecords<T>(s: seq<T>, p: nat): (r: seq<T>)
    requires p >= 1
    ensures |r| <= PerPage
    ensures forall i :: 0 <= i < |r| ==> (p - 1) * PerPage + i < |s| && r[i] == s[(p - 1) * PerPage + i]
    ensures (p - 1) * PerPage + PerPage <= |s| ==> |r| == PerPage
    ensures (p - 1) * PerPage <= |s| < (p - 1) * PerPage + PerPage ==> |r| == |s| - (p - 1) * PerPage
  {
    Slice(s, (p - 1) * PerPage, (p - 1) * PerPage + PerPage)
  }

  function NextPage(p: nat, n: nat): nat {
    if p < TotalPages(n) then p + 1 else p
  }

  function PrevPage(p: nat): nat {
    if p > 1 then p - 1 else p
  }

  /** For a fixed list both buttons keep the page between 1 and the last page (1 when empty). */
  lemma PageStaysInRange(p: nat, n: nat)
    requires 1 <= p <= (if TotalPages(n) < 1 then 1 else TotalPages(n))
    ensures 1 <= NextPage(p, n) <= (if TotalPages(n) < 1 then 1 else TotalPages(n))
    ensures 1 <= PrevPage(p) <= (if TotalPages(n) < 1 then 1 else TotalPages(n))
    ensures NextPage(p, n) == p + 1 <==> p < TotalPages(n)
    ensures PrevPage(p) == p - 1 <==> p > 1
  {
  }

  /** Pages `p` onwards, one after the other. */
  function PagesFrom<T>(s: seq<T>, p: nat): seq<T>
    requires p >= 1
    decreases |s| - (p - 1) * PerPage
  {
    if (p - 1) * PerPage >= |s| then [] else CurrentRecords(s, p) + PagesFrom(s, p + 1)
  }

  /** Reading the pages in order shows every record exactly once, in list order. */
  lemma {:induction false} PagesCoverList<T>(s: seq<T>, p: nat)
    requires p >= 1 && (p - 1) * PerPage <= |s|
    ensures PagesFrom(s, p) == s[(p - 1) * PerPage..]
    decreases |s| - (p - 1) * PerPage
  {
    var a := (p - 1) * PerPage;
    if a < |s| {
      var b := if a + PerPage <= |s| then a + PerPage else |s|;
      assert CurrentRecords(s, p) == s[a..b];
      if a + PerPage <= |s| {
        PagesCoverList(s, p + 1);
        assert s[a..] == s[a..b] + s[b..];
      } else {
        assert PagesFrom(s, p + 1) == [];
        assert s[a..] == s[a..b];
      }
    }
  }

  /** The three fields of one checklist entry; a field never touched is absent. */
  datatype ItemState = ItemState(existe: Option<string>, estado: Option<string>, obs: Option<string>)

  datatype Field = Existe | Estado | Obs

  const Untouched := ItemState(None, None, None)

  function SetField(st: ItemState, field: Field, value: string): ItemState {
    match field
    case Existe => st.(existe := Some(value))
    case Estado => st.(estado := Some(value))
    case Obs => st.(obs := Some(value))
  }

  function FieldOf(st: ItemState, field: Field): Option<string> {
    match field
    case Existe => st.existe
    case Estado => st.estado
    case Obs => st.obs
  }

  /** `form.items` as an object: keys in insertion order. */
  type Items = seq<(string, ItemState)>

  function Lookup(items: Items, key: string): (r: Option<ItemState>)
    ensures r.None? <==> forall i :: 0 <= i < |items| ==> items[i].0 != key
  {
    if items == [] then None
    else if items[0].0 == key then Some(items[0].1)
    else Lookup(items[1..], key)
  }

  function Keys(items: Items): (r: seq<string>)
    ensures |r| == |items|
    ensures forall i :: 0 <= i < |items| ==> r[i] == items[i].0
  {
    if items == [] then [] else [items[0].0] + Keys(items[1..])
  }

  /** `updateItem(key, field, value)`: the entry under `key` gets the field, created when missing. */
  function UpdateItem(items: Items, key: string, field: Field, value: string): (r: Items)
    ensures Lookup(r, key) == Some(SetField(if Lookup(items, key).Some? then Lookup(items, key).value else Untouched, field, value))
    ensures forall k :: k != key ==> Lookup(r, k) == Lookup(items, k)
  {
    if items == [] then [(key, SetField(Untouched, field, value))]
    else if items[0].0 == key then [(key, SetField(items[0].1, field, value))] + items[1..]
    else [items[0]] + UpdateItem(items[1..], key, field, value)
  }

  /** An existing key keeps its place; a new one goes last. */
  lemma {:induction false} UpdateItemKeepsOrder(items: Items, key: string, field: Field, value: string)
    ensures Lookup(items, key).Some? ==> Keys(UpdateItem(items, key, field, value)) == Keys(items)
    ensures Lookup(items, key).None? ==> Keys(UpdateItem(items, key, field, value)) == Keys(items) + [key]
  {
    if items != [] && items[0].0 != key {
      var rest := UpdateItem(items[1..], key, field, value);
      UpdateItemKeepsOrder(items[1..], key, field, value);
      assert ([items[0]] + rest)[1..] == rest;
    } else if items != [] {
      assert ([(key, SetField(items[0].1, field, value))] + items[1..])[1..] == items[1..];
    }
  }

  /** Only the one field of the one entry changes. */
  lemma UpdateItemIsLocal(items: Items, key: string, field: Field, value: string, k: string, g: Field)
    requires k != key || g != field
    ensures var r := UpdateItem(items, key, field, value);
            Lookup(r, k).Some? && Lookup(items, k).Some? ==> FieldOf(Lookup(r, k).value, g) == FieldOf(Lookup(items, k).value, g)
  {
  }

  /** What the form shows for an entry: `|| "SI"`, `|| "Bueno"`, `|| ""`. */
  function Shown(items: Items, key: string): (r: (string, string, string))
    ensures Lookup(items, key).None? ==> r == ("SI", "Bueno", "")
  {
    var st := if Lookup(items, key).Some? then Lookup(items, key).value else Untouched;
    (OrText(st.existe, "SI"), OrText(st.estado, "Bueno"), OrText(st.obs, ""))
  }

  /** The form; the two ids hold what the selects hold (text) or the caller's id. */
  datatype Form = Form(vehiculoId: JValue, usuarioId: JValue, observacion: string, estado: string, items: Items, foto: Option<string>)

  /** `resetForm`: an empty form that keeps the caller's id only for a driver. */
  function ResetForm(isConductor: bool, userId: JValue): (r: Form)
    ensures r.items == [] && r.estado == "OK" && r.vehiculoId == JStr("") && r.foto.None? && r.observacion == ""
    ensures r.usuarioId == if isConductor then userId else JStr("")
  {
    Form(JStr(""), if isConductor then userId else JStr(""), "", "OK", [], None)
  }

  /** `Number(v)` as it travels in JSON: NaN is sent as null. */
  function NumberJson(v: JValue): (r: JValue)
    ensures ToNumber(v).Some? ==> r == JNum(ToNumber(v).value)
    ensures ToNumber(v).None? ==> r == JNull
  {
    match ToNumber(v)
    case Some(n) => JNum(n)
    case None => JNull
  }

  function TextOrAbsent(v: Option<string>): JValue {
    if v.Some? then JStr(v.value) else JUndefined
  }

  function EntriesOf(items: Items): (r: seq<Inspecciones.ItemEntry>)
    ensures |r| == |items|
    ensures forall i :: 0 <= i < |items| ==>
              r[i] == Inspecciones.ItemEntry(items[i].0, TextOrAbsent(items[i].1.existe), TextOrAbsent(items[i].1.estado), TextOrAbsent(items[i].1.obs))
  {
    seq(|items|, i requires 0 <= i < |items| =>
      Inspecciones.ItemEntry(items[i].0, TextOrAbsent(items[i].1.existe), TextOrAbsent(items[i].1.estado), TextOrAbsent(items[i].1.obs)))
  }

  datatype Save = Blocked(alert: string) | Post(body: Inspecciones.CreateBody)

  /** `handleSave`: both selections are required, and both ids are sent as numbers. */
  function HandleSave(f: Form): (r: Save)
    ensures r.Blocked? <==> !Truthy(f.vehiculoId) || !Truthy(f.usuarioId)
    ensures r.Blocked? ==> r.alert == AlertSeleccion
    ensures r.Post? ==> r.body.vehiculoId == NumberJson(f.vehiculoId) && r.body.usuarioId == NumberJson(f.usuarioId)
    ensures r.Post? ==> r.body.items == Inspecciones.ItemsMap(EntriesOf(f.items)) && r.body.foto == f.foto
  {
    if !Truthy(f.vehiculoId) || !Truthy(f.usuarioId) then Blocked(AlertSeleccion)
    else Post(Inspecciones.CreateBody(NumberJson(f.usuarioId), NumberJson(f.vehiculoId), Some(f.observacion),
                                      Inspecciones.ItemsMap(EntriesOf(f.items)), f.foto))
  }

  /**
   * A driver whose form was reset and who picked a vehicle files for
   * themselves: the create route's ownership guard admits the request.
   */
  lemma DriverSaveAdmitted(user: Auth.User, n: int, vehiculo: nat, items: Items)
    requires Auth.IsConductor(user) && user.id == Some(n) && n != 0 && vehiculo != 0
    ensures var f := ResetForm(true, JNum(n)).(vehiculoId := JStr(NatToString(vehiculo)), items := items);
            HandleSave(f).Post? && Inspecciones.Admitted(user, HandleSave(f).body)
  {
    TrimDigits(NatToString(vehiculo));
  }

  /** An entry edited only through the selects and a short note is stored as the form showed it. */
  lemma StoredAsShown(st: ItemState, key: string, id: nat)
    requires st.existe.None? || st.existe.value in ["SI", "NO"]
    requires st.estado.None? || st.estado.value in ["", "Bueno", "Regular", "Malo"]
    requires st.obs.None? || |st.obs.value| <= Inspecciones.ObsMax
    ensures var shown := Shown([(key, st)], key);
            Inspecciones.NormaliseItem(EntriesOf([(key, st)])[0], id)
              == Some(Store.InspItem(id, key, shown.0, shown.1, shown.2))
  {
  }
}

=== FILE: js.dfy ===
/**
 * JavaScript value semantics the route handlers and pages rely on:
 * truthiness (`||` defaults), `Number(...)` coercion and strict equality of
 * numbers. Everything else in the model is built on these definitions.
 */
module Js {
  import opened Text

  datatype Option<T> = None | Some(value: T)

  /** A scalar as it arrives in a JSON body, a query string or a token payload. */
  datatype JValue =
    | JUndefined
    | JNull
    | JBool(b: bool)
    | JNum(n: int)
    | JStr(s: string)
    | JObject

  /** JavaScript truthiness: `undefined`, `null`, `false`, `0` and `""` are falsy. */
  predicate Truthy(v: JValue) {
    match v
    case JUndefined => false
    case JNull => false
    case JBool(b) => b
    case JNum(n) => n != 0
    case JStr(s) => s != ""
    case JObject => true
  }

  /** `v || d` on a text field that may be absent (None) or empty. */
  function OrText(v: Option<string>, d: string): (r: string)
    ensures v.Some? && v.value != "" ==> r == v.value
    ensures v.None? || v.value == "" ==> r == d
  {
    if v.Some? && v.value != "" then v.value else d
  }

  /** `v || d` on a numeric field that may be absent (None) or zero. */
  function OrNum(v: Option<int>, d: int): (r: int)
    ensures v.Some? && v.value != 0 ==> r == v.value
    ensures v.None? || v.value == 0 ==> r == d
  {
    if v.Some? && v.value != 0 then v.value else d
  }

  /**
   * `Number(v)`, with `None` standing for NaN. Strings are trimmed; the empty
   * string is 0 and a run of decimal digits is its value; every other string
   * (signs, exponents, hexadecimal, fractions) is treated as NaN.
   */
  function ToNumber(v: JValue): (r: Option<int>)
    ensures v.JNum? ==> r == Some(v.n)
    ensures v.JNull? || v.JBool? ==> r.Some? && 0 <= r.value <= 1
    ensures v.JUndefined? || v.JObject? ==> r.None?
    ensures v.JStr? && OnlyDigits(Trim(v.s)) ==> r == Some(DecimalValue(Trim(v.s)))
  {
    match v
    case JUndefined => None
    case JNull => Some(0)
    case JBool(b) => Some(if b then 1 else 0)
    case JNum(n) => Some(n)
    case JStr(s) =>
      var t := Trim(s);
      if OnlyDigits(t) then Some(DecimalValue(t)) else None
    case JObject => None
  }

  /** `a === b` on two results of `Number(...)`: NaN equals nothing, itself included. */
  predicate NumberEq(a: Option<int>, b: Option<int>) {
    a.Some? && b.Some? && a.value == b.value
  }

  lemma NaNNeverEqual(a: Option<int>)
    ensures !NumberEq(None, a) && !NumberEq(a, None)
  {
  }
}

=== FILE: mantenciones.dfy ===
/**
 * The maintenance routes: creating and updating a record together with its
 * items in one transaction, the positional `$n` batch that inserts the
 * items, reading one record, and deleting it.
 */
module Mantenciones {
  import opened Js
  import opened Text
  import opened Table
  import opened Store

  /** One submitted item; a field the client left out is `JUndefined`. */
  datatype ItemIn = ItemIn(item: JValue, tipo: JValue, cantidad: JValue, costoUnitario: JValue)

  /**
   * A request body. `items` defaults to `[]` only when absent; when the
   * submitted value is `null`, a non-empty non-array, or an array holding
   * `null` or `undefined`, reading it throws inside the transaction and
   * `itemsThrow` is set (`items` is then irrelevant). Any other value whose
   * `length` is not positive inserts nothing and is `items == []`.
   */
  datatype MantBody = MantBody(
    vehiculoId: JValue,
    usuarioId: JValue,
    tipo: JValue,
    observacion: Option<string>,
    costo: JValue,
    items: seq<ItemIn>,
    itemsThrow: bool)

  datatype Created = Created(id: nat, message: string)

  const Columns: nat := 5
  const MsgCreada := "Mantención creada correctamente"
  const MsgCrear := "Error al crear mantención"
  const MsgActualizada := "Mantención actualizada correctamente"
  const MsgActualizar := "Error al actualizar mantención"
  const MsgNoEncontrada := "Mantención no encontrada"
  const MsgObtener := "Error al obtener mantención"
  const MsgEliminada := "Mantención eliminada correctamente"
  const MsgEliminar := "Error al eliminar mantención"

  /** `v || d`. */
  function Or(v: JValue, d: JValue): (r: JValue)
    ensures Truthy(v) ==> r == v
    ensures !Truthy(v) ==> r == d
  {
    if Truthy(v) then v else d
  }

  /** A value bound to a nullable integer column: `Some(None)` is NULL, `None` a cast error. */
  function BindInt(v: JValue): (r: Option<Option<int>>)
    ensures v.JNull? || v.JUndefined? ==> r == Some(None)
    ensures v.JNum? ==> r == Some(Some(v.n))
    ensures r.Some? && r.value.Some? ==> ParamInt(v) == r.value
  {
    if v.JNull? || v.JUndefined? then Some(None)
    else match ParamInt(v)
      case None => None
      case Some(n) => Some(Some(n))
  }

  /** A value bound to a nullable text column; values other than text, numbers and booleans are not modelled. */
  function BindText(v: JValue): (r: Option<Option<string>>)
    ensures v.JNull? || v.JUndefined? ==> r == Some(None)
    ensures v.JStr? ==> r == Some(Some(v.s))
  {
    match v
    case JNull => Some(None)
    case JUndefined => Some(None)
    case JStr(s) => Some(Some(s))
    case JBool(b) => Some(Some(if b then "true" else "false"))
    case JNum(n) => if n >= 0 then Some(Some(NatToString(n))) else Some(Some("-" + NatToString(-n)))
    case JObject => None
  }

  /** The record row: `usuario_id || null`, `observacion || ""`, `costo || 0`. */
  function ParentRow(body: MantBody): (r: Option<Mantencion>)
    ensures r.Some? ==> r.value.observacion == OrText(body.observacion, "")
    ensures r.Some? && !Truthy(body.usuarioId) ==> r.value.usuarioId.None?
    ensures r.Some? && !Truthy(body.costo) ==> r.value.costo == 0
    ensures r.Some? <==> BindInt(body.vehiculoId).Some? && BindInt(Or(body.usuarioId, JNull)).Some?
                         && BindText(body.tipo).Some? && BindInt(Or(body.costo, JNum(0))).Some?
                         && BindInt(Or(body.costo, JNum(0))).value.Some?
  {
    var v, u, t, c := BindInt(body.vehiculoId), BindInt(Or(body.usuarioId, JNull)), BindText(body.tipo), BindInt(Or(body.costo, JNum(0)));
    if v.Some? && u.Some? && t.Some? && c.Some? && c.value.Some?
    then Some(Mantencion(v.value, u.value, t.value, OrText(body.observacion, ""), c.value.value))
    else None
  }

  /** The five parameters of one item: owner, item, `tipo || "Tarea"`, `cantidad || 1`, `costo_unitario || 0`. */
  function ItemParams(owner: JValue, it: ItemIn): (r: seq<JValue>)
    ensures |r| == Columns
    ensures r[0] == owner && r[1] == it.item
    ensures Truthy(r[2]) && Truthy(r[3])
    ensures !Truthy(it.tipo) ==> r[2] == JStr("Tarea")
    ensures !Truthy(it.cantidad) ==> r[3] == JNum(1)
    ensures !Truthy(it.costoUnitario) ==> r[4] == JNum(0)
  {
    [owner, it.item, Or(it.tipo, JStr("Tarea")), Or(it.cantidad, JNum(1)), Or(it.costoUnitario, JNum(0))]
  }

  /** The marker numbers of item `k` in the `VALUES` list: `$(5k+1)` to `$(5k+5)`. */
  function Markers(k: nat): (r: seq<nat>)
    ensures |r| == Columns
    ensures forall j :: 0 <= j < Columns ==> r[j] == Columns * k + j + 1
  {
    [Columns * k + 1, Columns * k + 2, Columns * k + 3, Columns * k + 4, Columns * k + 5]
  }

  /** The `VALUES` groups of items `from` to `from + count - 1`. */
  function GroupsFrom(from: nat, count: nat): (r: seq<seq<nat>>)
    ensures |r| == count
    decreases count
  {
    if count == 0 then [] else [Markers(from)] + GroupsFrom(from + 1, count - 1)
  }

  /** The `VALUES` groups for `n` items. */
  function Groups(n: nat): seq<seq<nat>> {
    GroupsFrom(0, n)
  }

  function Flatten<T>(xss: seq<seq<T>>): seq<T> {
    if xss == [] then [] else xss[0] + Flatten(xss[1..])
  }

  /** The parameter array, item after item. */
  function BatchParams(owner: JValue, items: seq<ItemIn>): (r: seq<JValue>)
    ensures |r| == Columns * |items|
  {
    if items == [] then [] else ItemParams(owner, items[0]) + BatchParams(owner, items[1..])
  }

  /** Parameter `5k + j` is column `j` of item `k`. */
  lemma {:induction false} BatchParamsAt(owner: JValue, items: seq<ItemIn>, k: nat, j: nat)
    requires k < |items| && j < Columns
    ensures BatchParams(owner, items)[Columns * k + j] == ItemParams(owner, items[k])[j]
  {
    if k > 0 {
      BatchParamsAt(owner, items[1..], k - 1, j);
      assert items[1..][k - 1] == items[k];
    }
  }

  /** The markers, read left to right, are consecutive from `5 * from + 1`. */
  lemma {:induction false} MarkersConsecutiveFrom(from: nat, count: nat)
    ensures Flatten(GroupsFrom(from, count)) == seq(Columns * count, i => Columns * from + i + 1)
    decreases count
  {
    if count > 0 {
      MarkersConsecutiveFrom(from + 1, count - 1);
      var rest := seq(Columns * (count - 1), i => Columns * (from + 1) + i + 1);
      var all := seq(Columns * count, i => Columns * from + i + 1);
      assert GroupsFrom(from, count)[0] == Markers(from);
      assert GroupsFrom(from, count)[1..] == GroupsFrom(from + 1, count - 1);
      assert all == Markers(from) + rest;
    }
  }

  /** For `n` items the markers are exactly 1, 2, ..., 5n. */
  lemma MarkersConsecutive(n: nat)
    ensures Flatten(Groups(n)) == seq(Columns * n, i => i + 1)
  {
    MarkersConsecutiveFrom(0, n);
  }

  /** The row the database builds from one item's five bound values; `None` when a value does not cast. */
  function BindItem(p: seq<JValue>): (r: Option<MantItem>)
    requires |p| == Columns
    ensures r.Some? ==> Some(r.value.mantencionId) == ParamInt(p[0])
  {
    var m, item, tipo, c, u := ParamInt(p[0]), BindText(p[1]), BindText(p[2]), BindInt(p[3]), BindInt(p[4]);
    if m.Some? && item.Some? && tipo.Some? && tipo.value.Some? && c.Some? && c.value.Some? && u.Some? && u.value.Some?
    then Some(MantItem(m.value, item.value, tipo.value.value, c.value.value, u.value.value))
    else None
  }

  predicate MarkersIn(g: seq<nat>, n: nat) {
    forall j :: 0 <= j < |g| ==> 1 <= g[j] <= n
  }

  /**
   * The database's reading of the batch: each group picks its values by
   * marker number from the parameter array. `None` when a marker has no
   * parameter or a value does not cast.
   */
  function EvalBatch(groups: seq<seq<nat>>, params: seq<JValue>): (r: Option<seq<MantItem>>)
    ensures r.Some? ==> |r.value| == |groups|
  {
    if groups == [] then Some([])
    else if |groups[0]| != Columns || !MarkersIn(groups[0], |params|) then None
    else Cons(BindItem(Pick(groups[0], params)), EvalBatch(groups[1..], params))
  }

  /** The five values one group's markers pick. */
  function Pick(g: seq<nat>, params: seq<JValue>): seq<JValue>
    requires |g| == Columns && MarkersIn(g, |params|)
  {
    [params[g[0] - 1], params[g[1] - 1], params[g[2] - 1], params[g[3] - 1], params[g[4] - 1]]
  }

  /** A row in front of the rest, `None` when either failed to bind. */
  function Cons(head: Option<MantItem>, tail: Option<seq<MantItem>>): (r: Option<seq<MantItem>>)
    ensures r.Some? <==> head.Some? && tail.Some?
    ensures r.Some? ==> r.value == [head.value] + tail.value
  {
    if head.Some? && tail.Some? then Some([head.value] + tail.value) else None
  }

  /** The rows built item by item, without the batch in between. */
  function ItemRows(owner: JValue, items: seq<ItemIn>): (r: Option<seq<MantItem>>)
    ensures r.Some? ==> |r.value| == |items|
  {
    if items == [] then Some([])
    else Cons(BindItem(ItemParams(owner, items[0])), ItemRows(owner, items[1..]))
  }

  /** Every built row is the binding of its own item. */
  lemma {:induction false} ItemRowsAt(owner: JValue, items: seq<ItemIn>, k: nat)
    requires ItemRows(owner, items).Some? && k < |items|
    ensures BindItem(ItemParams(owner, items[k])) == Some(ItemRows(owner, items).value[k])
  {
    if k > 0 {
      ItemRowsAt(owner, items[1..], k - 1);
      assert items[1..][k - 1] == items[k];
    }
  }

  /**
   * The batch is aligned: the database reads group `k` back as exactly the
   * row of item `k`, so no value lands in another item's row or column.
   */
  lemma BatchAligned(owner: JValue, items: seq<ItemIn>)
    ensures EvalBatch(Groups(|items|), BatchParams(owner, items)) == ItemRows(owner, items)
  {
    BatchAlignedFrom(owner, items, 0);
    assert items[0..] == items;
  }

  /** The values group `from` picks are the parameters of item `from`. */
  lemma Picked(owner: JValue, items: seq<ItemIn>, from: nat)
    requires from < |items|
    ensures var params := BatchParams(owner, items);
            var g := Markers(from);
            MarkersIn(g, |params|) && Pick(g, params) == ItemParams(owner, items[from])
  {
    BatchParamsAt(owner, items, from, 0);
    BatchParamsAt(owner, items, from, 1);
    BatchParamsAt(owner, items, from, 2);
    BatchParamsAt(owner, items, from, 3);
    BatchParamsAt(owner, items, from, 4);
  }

  lemma {:induction false} BatchAlignedFrom(owner: JValue, items: seq<ItemIn>, from: nat)
    requires from <= |items|
    ensures EvalBatch(GroupsFrom(from, |items| - from), BatchParams(owner, items)) == ItemRows(owner, items[from..])
    decreases |items| - from
  {
    if from < |items| {
      var params := BatchParams(owner, items);
      var groups := GroupsFrom(from, |items| - from);
      assert groups[0] == Markers(from) && groups[1..] == GroupsFrom(from + 1, |items| - (from + 1));
      Picked(owner, items, from);
      BatchAlignedFrom(owner, items, from + 1);
      assert items[from..][0] == items[from];
      assert items[from..][1..] == items[from + 1..];
    }
  }

  /** The item rows of one record as the handlers derive them; `None` when a value does not cast. */
  function Batch(owner: JValue, items: seq<ItemIn>): (r: Option<seq<MantItem>>)
    ensures r == ItemRows(owner, items)
  {
    BatchAligned(owner, items);
    EvalBatch(Groups(|items|), BatchParams(owner, items))
  }

  /** The item statement: none at all for an empty list. */
  function ItemWrites(rows: seq<MantItem>): (r: seq<Write>)
    ensures rows == [] <==> r == []
  {
    if rows == [] then [] else [InsertMantItems(rows)]
  }

  /** What the create statements do to the store. */
  lemma PostWrites(db: Db, id: nat, parent: Mantencion, rows: seq<MantItem>)
    ensures ApplyAll(db, [InsertMantencion(id, parent)] + ItemWrites(rows))
            == if Has(db.mantenciones, id) then None
               else Some(db.(mantenciones := Insert(db.mantenciones, id, parent), mantItems := db.mantItems + rows))
  {
    var ws := [InsertMantencion(id, parent)] + ItemWrites(rows);
    assert ws[0] == InsertMantencion(id, parent);
    assert ws[1..] == ItemWrites(rows);
    if !Has(db.mantenciones, id) {
      var d1 := db.(mantenciones := Insert(db.mantenciones, id, parent));
      assert Apply(db, ws[0]) == Some(d1);
      if rows == [] {
        assert db.mantItems + rows == db.mantItems;
      } else {
        ApplyAllOne(d1, InsertMantItems(rows));
      }
    }
  }

  /** What the update statements do to the store. */
  lemma PutWrites(db: Db, n: int, parent: Mantencion, rows: seq<MantItem>)
    ensures ApplyAll(db, [UpdateMantencion(n, parent), DeleteMantItems(n)] + ItemWrites(rows))
            == Some(db.(mantenciones := if n < 0 then db.mantenciones else Put(db.mantenciones, n, parent),
                        mantItems := DropMantItems(db.mantItems, n) + rows))
  {
    var ws := [UpdateMantencion(n, parent), DeleteMantItems(n)] + ItemWrites(rows);
    assert ws[0] == UpdateMantencion(n, parent);
    assert ws[1..][0] == DeleteMantItems(n);
    assert ws[1..][1..] == ItemWrites(rows);
    var d1 := Apply(db, ws[0]).value;
    var d2 := d1.(mantItems := DropMantItems(db.mantItems, n));
    assert Apply(d1, ws[1..][0]) == Some(d2);
    assert ApplyAll(db, ws) == ApplyAll(d1, ws[1..]);
    assert ApplyAll(d1, ws[1..]) == ApplyAll(d2, ItemWrites(rows));
    if rows == [] {
      assert d2.mantItems + rows == d2.mantItems;
    } else {
      ApplyAllOne(d2, InsertMantItems(rows));
    }
  }

  /** `POST /mantenciones`: record plus items, committed together, with the serial id `newId`. */
  function PostMantencion(db: Db, body: MantBody, newId: nat, faults: set<nat>): (r: (Db, Reply<Created>))
    ensures r.1.status in {201, 500}
    ensures r.1.status == 500 ==> r.0 == db && r.1 == Fail(500, MsgCrear)
    ensures body.itemsThrow ==> r == (db, Fail(500, MsgCrear))
    ensures r.1.status == 201 <==>
              !body.itemsThrow && ParentRow(body).Some? && ItemRows(JNum(newId), body.items).Some? && !Has(db.mantenciones, newId)
              && NoFaultBelow(if body.items == [] then 1 else 2, faults)
    ensures r.1.status == 201 ==>
              r.1 == Ok(201, Created(newId, MsgCreada))
              && r.0 == db.(mantenciones := Insert(db.mantenciones, newId, ParentRow(body).value),
                            mantItems := db.mantItems + ItemRows(JNum(newId), body.items).value)
  {
    var parent := ParentRow(body);
    var rows := Batch(JNum(newId), body.items);
    if body.itemsThrow || parent.None? || rows.None? then (db, Fail(500, MsgCrear))
    else
      var ws := [InsertMantencion(newId, parent.value)] + ItemWrites(rows.value);
      PostWrites(db, newId, parent.value, rows.value);
      assert |ws| == if body.items == [] then 1 else 2;
      match RunTx(db, ws, faults)
      case Committed(db') => (db', Ok(201, Created(newId, MsgCreada)))
      case RolledBack(_) => (db, Fail(500, MsgCrear))
  }

  /**
   * `PUT /mantenciones/:id`: update the record, delete its items, insert the
   * submitted ones. The path id is text and is also the items' owner
   * parameter.
   */
  function PutMantencion(db: Db, idParam: string, body: MantBody, faults: set<nat>): (r: (Db, Reply<string>))
    ensures r.1.status in {200, 500}
    ensures r.1.status == 500 ==> r.0 == db && r.1 == Fail(500, MsgActualizar)
    ensures body.itemsThrow ==> r == (db, Fail(500, MsgActualizar))
    ensures r.1.status == 200 <==>
              !body.itemsThrow && ParseIntText(idParam).Some? && ParentRow(body).Some? && ItemRows(JStr(idParam), body.items).Some?
              && NoFaultBelow(if body.items == [] then 2 else 3, faults)
    ensures r.1.status == 200 ==> r.1 == Ok(200, MsgActualizada)
  {
    var n := ParseIntText(idParam);
    var parent := ParentRow(body);
    var rows := Batch(JStr(idParam), body.items);
    if body.itemsThrow || n.None? || parent.None? || rows.None? then (db, Fail(500, MsgActualizar))
    else
      var ws := [UpdateMantencion(n.value, parent.value), DeleteMantItems(n.value)] + ItemWrites(rows.value);
      PutWrites(db, n.value, parent.value, rows.value);
      assert |ws| == if body.items == [] then 2 else 3;
      match RunTx(db, ws, faults)
      case Committed(db') => (db', Ok(200, MsgActualizada))
      case RolledBack(_) => (db, Fail(500, MsgActualizar))
  }

  /**
   * After a successful update, the record's items are exactly the submitted
   * list, in order; other records' items are untouched, and the record
   * holds the new values when it existed.
   */
  lemma UpdateReplacesItems(db: Db, idParam: string, body: MantBody, faults: set<nat>, other: int)
    requires PutMantencion(db, idParam, body, faults).1.status == 200
    ensures var n := ParseIntText(idParam).value;
            var db' := PutMantencion(db, idParam, body, faults).0;
            MantItemsOf(db'.mantItems, n) == ItemRows(JStr(idParam), body.items).value
            && (other != n ==> MantItemsOf(db'.mantItems, other) == MantItemsOf(db.mantItems, other))
            && (n >= 0 && Has(db.mantenciones, n) ==> Get(db'.mantenciones, n) == ParentRow(body))
            && (n < 0 || !Has(db.mantenciones, n) ==> db'.mantenciones == db.mantenciones)
  {
    var n := ParseIntText(idParam).value;
    var parent := ParentRow(body).value;
    var rows := ItemRows(JStr(idParam), body.items).value;
    PutWrites(db, n, parent, rows);
    var dropped := DropMantItems(db.mantItems, n);
    DropKeepsOthers(db.mantItems, n, if other != n then other else n + 1);
    RowsOwned(JStr(idParam), body.items);
    MantItemsAll(rows, n);
    MantItemsOfAppend(dropped, rows, n);
    if other != n {
      MantItemsOfAppend(dropped, rows, other);
      MantItemsNone(rows, other);
    }
  }

  /** Every built row carries the owner parameter as its record id. */
  lemma RowsOwned(owner: JValue, items: seq<ItemIn>)
    requires ItemRows(owner, items).Some?
    ensures forall k :: 0 <= k < |items| ==>
              Some(ItemRows(owner, items).value[k].mantencionId) == ParamInt(owner)
  {
    forall k | 0 <= k < |items|
      ensures Some(ItemRows(owner, items).value[k].mantencionId) == ParamInt(owner)
    {
      ItemRowsAt(owner, items, k);
      assert ItemParams(owner, items[k])[0] == owner;
    }
  }

  lemma {:induction false} MantItemsAll(rows: seq<MantItem>, m: int)
    requires forall i :: 0 <= i < |rows| ==> rows[i].mantencionId == m
    ensures MantItemsOf(rows, m) == rows
  {
    if rows != [] {
      MantItemsAll(rows[1..], m);
    }
  }

  lemma {:induction false} MantItemsNone(rows: seq<MantItem>, m: int)
    requires forall i :: 0 <= i < |rows| ==> rows[i].mantencionId != m
    ensures MantItemsOf(rows, m) == []
  {
    if rows != [] {
      MantItemsNone(rows[1..], m);
    }
  }

  /** A record with its items, as `GET /mantenciones/:id` answers it. */
  datatype Detail = Detail(record: Mantencion, items: seq<MantItem>)

  /** `GET /mantenciones/:id`. */
  function GetMantencion(db: Db, idParam: string): (r: Reply<Detail>)
    ensures r.status in {200, 404, 500}
    ensures r.status == 500 <==> ParseIntText(idParam).None?
    ensures r.Fail? ==> r.message == (if r.status == 404 then MsgNoEncontrada else MsgObtener)
    ensures r.status == 404 <==>
              ParseIntText(idParam).Some? && (ParseIntText(idParam).value < 0 || !Has(db.mantenciones, ParseIntText(idParam).value))
    ensures r.Ok? ==> r.status == 200
                      && Some(r.body.record) == Get(db.mantenciones, ParseIntText(idParam).value)
                      && r.body.items == MantItemsOf(db.mantItems, ParseIntText(idParam).value)
  {
    match ParseIntText(idParam)
    case None => Fail(500, MsgObtener)
    case Some(n) =>
      if n < 0 then Fail(404, MsgNoEncontrada)
      else match Get(db.mantenciones, n)
        case None => Fail(404, MsgNoEncontrada)
        case Some(m) => Ok(200, Detail(m, MantItemsOf(db.mantItems, n)))
  }

  /** Create, then read: the new record comes back with exactly the submitted items, in order. */
  lemma CreateThenGet(db: Db, body: MantBody, newId: nat, faults: set<nat>)
    requires PostMantencion(db, body, newId, faults).1.status == 201
    requires MantItemsOf(db.mantItems, newId) == []
    ensures GetMantencion(PostMantencion(db, body, newId, faults).0, NatToString(newId))
            == Ok(200, Detail(ParentRow(body).value, ItemRows(JNum(newId), body.items).value))
  {
    var rows := ItemRows(JNum(newId), body.items).value;
    var parent := ParentRow(body).value;
    var db' := db.(mantenciones := Insert(db.mantenciones, newId, parent), mantItems := db.mantItems + rows);
    assert PostMantencion(db, body, newId, faults).0 == db';
    RowsOwned(JNum(newId), body.items);
    MantItemsAll(rows, newId);
    MantItemsOfAppend(db.mantItems, rows, newId);
    assert MantItemsOf(db'.mantItems, newId) == rows;
    assert Get(db'.mantenciones, newId) == Some(parent);
    TrimDigits(NatToString(newId));
    assert ParseIntText(NatToString(newId)) == Some(newId);
  }

  /**
   * `DELETE /mantenciones/:id`: removes the record when it exists and
   * answers success either way; a path id that does not cast is a 500.
   */
  function DeleteMantencion(db: Db, idParam: string): (r: (Db, Reply<string>))
    ensures r.1.status == 500 <==> ParseIntText(idParam).None?
    ensures r.1.status == 500 ==> r.0 == db && r.1 == Fail(500, MsgEliminar)
    ensures r.1.status != 500 ==> r.1 == Ok(200, MsgEliminada)
    ensures r.1.status != 500 ==> r.0.mantItems == db.mantItems && r.0.inspecciones == db.inspecciones
    ensures r.1.status != 500 ==> forall m :: m != ParseIntText(idParam).value ==> Get(r.0.mantenciones, m) == Get(db.mantenciones, m)
    ensures r.1.status != 500 && ParseIntText(idParam).value >= 0 ==> !Has(r.0.mantenciones, ParseIntText(idParam).value)
  {
    match ParseIntText(idParam)
    case None => (db, Fail(500, MsgEliminar))
    case Some(n) =>
      if n < 0 then (db, Ok(200, MsgEliminada))
      else (db.(mantenciones := Remove(db.mantenciones, n)), Ok(200, MsgEliminada))
  }

  /**
   * Delete, then read: the record is gone, while its items stay behind
   * untouched, since no statement of the delete names them.
   */
  lemma DeleteThenGet(db: Db, idParam: string)
    requires ParseIntText(idParam).Some?
    ensures var n := ParseIntText(idParam).value;
            var db' := DeleteMantencion(db, idParam).0;
            GetMantencion(db', idParam) == Fail(404, MsgNoEncontrada)
            && MantItemsOf(db'.mantItems, n) == MantItemsOf(db.mantItems, n)
            && (forall other :: other != idParam && ParseIntText(other).Some? && ParseIntText(other).value != n ==>
                  GetMantencion(db', other) == GetMantencion(db, other))
  {
    var n := ParseIntText(idParam).value;
    var db' := DeleteMantencion(db, idParam).0;
    if n >= 0 {
      assert !Has(db'.mantenciones, n);
    }
  }
}

=== FILE: mantencionespdf.dfy ===
/**
 * The maintenance report: the record and its items as the report reads
 * them, the running total, where each item row lands, and the buffered
 * pass that numbers the pages once the page count is known.
 */
module MantencionesPdf {
  import opened Js
  import opened Text
  import opened Table
  import opened Store
  import Reportes

  const MsgNoEncontrada := "Mantención no encontrada"
  const MsgError := "Error al generar PDF"
  const SinAsignar := "Sin asignar"
  const SinObservaciones := "Sin observaciones registradas."
  const SinItems := "Sin registro de tareas ni repuestos asociados."
  const RowHeight: int := 18
  const BreakMargin: int := 120
  /** A continuation page's first row sits this far below the top margin. */
  const TopGap: int := 20

  /** The joined row: the record with its vehicle (inner join) and its responsible user (left join). */
  datatype PdfData = PdfData(
    vehiculo: string,
    numeroInterno: string,
    tipo: Option<string>,
    responsable: Option<string>,
    observacion: string,
    costo: int)

  /** One item as the items query returns it; `subtotal` is `cantidad * costo_unitario`, NULL when unknown. */
  datatype ItemLine = ItemLine(item: Option<string>, tipo: string, cantidad: int, costoUnitario: int, subtotal: Option<int>)

  function PdfRows(db: Db, id: int): (r: seq<PdfData>)
    ensures |r| <= 1
    ensures r != [] <==> id >= 0 && Has(db.mantenciones, id)
                         && Get(db.mantenciones, id).value.vehiculoId.Some?
                         && Get(db.mantenciones, id).value.vehiculoId.value >= 0
                         && Has(db.vehiculos, Get(db.mantenciones, id).value.vehiculoId.value)
  {
    if id < 0 then []
    else match Get(db.mantenciones, id)
      case None => []
      case Some(m) =>
        if m.vehiculoId.None? || m.vehiculoId.value < 0 then []
        else match Get(db.vehiculos, m.vehiculoId.value)
          case None => []
          case Some(v) =>
            var responsable :=
              if m.usuarioId.Some? && m.usuarioId.value >= 0 && Has(db.usuarios, m.usuarioId.value)
              then Get(db.usuarios, m.usuarioId.value).value.nombre else None;
            [PdfData(v.patente, v.numeroInterno, m.tipo, responsable, m.observacion, m.costo)]
  }

  function LineOf(it: MantItem): (r: ItemLine)
    ensures r.subtotal == Some(it.cantidad * it.costoUnitario)
  {
    ItemLine(it.item, it.tipo, it.cantidad, it.costoUnitario, Some(it.cantidad * it.costoUnitario))
  }

  function LinesOf(items: seq<MantItem>): (r: seq<ItemLine>)
    ensures |r| == |items|
    ensures forall i :: 0 <= i < |r| ==> r[i] == LineOf(items[i])
  {
    seq(|items|, i requires 0 <= i < |items| => LineOf(items[i]))
  }

  /** `Number(it.subtotal || 0)`: a missing subtotal counts as 0. */
  function SubtotalOr0(it: ItemLine): int {
    if it.subtotal.Some? then it.subtotal.value else 0
  }

  /** The sum of the subtotals, as a fold from the left. */
  function Total(items: seq<ItemLine>): int
    decreases |items|
  {
    if items == [] then 0 else Total(items[..|items| - 1]) + SubtotalOr0(items[|items| - 1])
  }

  lemma {:induction false} TotalAppend(a: seq<ItemLine>, b: seq<ItemLine>)
    ensures Total(a + b) == Total(a) + Total(b)
    decreases |b|
  {
    if b == [] {
      assert a + b == a;
    } else {
      assert (a + b)[..|a + b| - 1] == a + b[..|b| - 1];
      TotalAppend(a, b[..|b| - 1]);
    }
  }

  /** The items of one record, read from the store, total the products of their quantities and unit costs. */
  lemma {:induction false} TotalOfStored(items: seq<MantItem>)
    ensures Total(LinesOf(items)) == SumOfProducts(items)
    decreases |items|
  {
    if items != [] {
      var init := items[..|items| - 1];
      assert LinesOf(items)[..|items| - 1] == LinesOf(init);
      TotalOfStored(init);
    }
  }

  function SumOfProducts(items: seq<MantItem>): int
    decreases |items|
  {
    if items == [] then 0
    else SumOfProducts(items[..|items| - 1]) + items[|items| - 1].cantidad * items[|items| - 1].costoUnitario
  }

  /** The accumulation loop of the report. */
  method AccumulateTotal(items: seq<ItemLine>) returns (total: int)
    ensures total == Total(items)
    ensures (forall i :: 0 <= i < |items| ==> items[i].subtotal.None?) ==> total == 0
  {
    total := 0;
    var i := 0;
    while i < |items|
      invariant 0 <= i <= |items|
      invariant total == Total(items[..i])
    {
      assert items[..i + 1][..i] == items[..i];
      total := total + SubtotalOr0(items[i]);
      i := i + 1;
    }
    assert items[..|items|] == items;
    if forall i :: 0 <= i < |items| ==> items[i].subtotal.None? {
      NoSubtotals(items);
    }
  }

  lemma {:induction false} NoSubtotals(items: seq<ItemLine>)
    requires forall i :: 0 <= i < |items| ==> items[i].subtotal.None?
    ensures Total(items) == 0
    decreases |items|
  {
    if items != [] {
      NoSubtotals(items[..|items| - 1]);
    }
  }

  /** Where one item row lands; `newPage` marks a page added just before it. */
  datatype RowAt = RowAt(page: nat, y: int, newPage: bool)

  datatype Geometry = Geometry(pageHeight: int, marginTop: int)

  function Limit(g: Geometry): int { g.pageHeight - BreakMargin }

  /**
   * The row loop: before each row, a cursor lower than the limit adds a
   * page and moves the cursor to the top margin plus 20. Only the page
   * header is drawn on the new page, not the table header.
   */
  function PlaceRows(n: nat, y: int, page: nat, g: Geometry): (r: seq<RowAt>)
    ensures |r| == n
    ensures n > 0 ==> (r[0].newPage <==> y > Limit(g))
    ensures n > 0 ==> r[0].page == (if r[0].newPage then page + 1 else page)
    ensures forall i :: 0 <= i < n ==> r[i].page >= page
    ensures forall i :: 0 <= i < n ==> (r[i].newPage ==> r[i].y == g.marginTop + TopGap)
    ensures forall i :: 0 <= i < n ==> (!r[i].newPage ==> r[i].y <= Limit(g))
    ensures forall i :: 0 < i < n ==> r[i].page == (if r[i].newPage then r[i - 1].page + 1 else r[i - 1].page)
    ensures forall i :: 0 < i < n ==> (r[i].newPage <==> r[i - 1].y + RowHeight > Limit(g))
    decreases n
  {
    if n == 0 then []
    else
      var here := if y > Limit(g) then RowAt(page + 1, g.marginTop + TopGap, true) else RowAt(page, y, false);
      [here] + PlaceRows(n - 1, here.y + RowHeight, here.page, g)
  }

  /** The number of pages the loop adds. */
  function Breaks(rows: seq<RowAt>): (r: nat)
    ensures r <= |rows|
  {
    if rows == [] then 0 else (if rows[0].newPage then 1 else 0) + Breaks(rows[1..])
  }

  /** The last row is on the page numbered by the pages added so far. */
  lemma {:induction false} LastPageCountsBreaks(n: nat, y: int, page: nat, g: Geometry)
    requires n > 0
    ensures PlaceRows(n, y, page, g)[n - 1].page == page + Breaks(PlaceRows(n, y, page, g))
    decreases n
  {
    var r := PlaceRows(n, y, page, g);
    if n > 1 {
      var here := r[0];
      LastPageCountsBreaks(n - 1, here.y + RowHeight, here.page, g);
      assert r[1..] == PlaceRows(n - 1, here.y + RowHeight, here.page, g);
      assert r[n - 1] == r[1..][n - 2];
    } else {
      assert r[1..] == [];
    }
  }

  /** The page labels the final pass draws, `(k, count)` for page `k`. */
  function Labels(count: nat): (r: seq<(nat, nat)>)
    ensures |r| == count
    ensures forall k :: 0 <= k < count ==> r[k] == (k + 1, count)
  {
    seq(count, k requires 0 <= k < count => (k + 1, count))
  }

  /**
   * The labels drawn on each page, in drawing order: the provisional
   * `(1, 1)` drawn when the page is opened, then the final pass's label,
   * drawn at the same position without erasing the first.
   */
  function PageLabels(count: nat): (r: seq<seq<(nat, nat)>>)
    ensures |r| == count
    ensures forall k :: 0 <= k < count ==> |r[k]| == 2 && r[k][0] == (1, 1) && r[k][1] == Labels(count)[k]
  {
    seq(count, k requires 0 <= k < count => [(1, 1), Labels(count)[k]])
  }

  datatype RowView = RowView(item: Option<string>, tipoCell: string, cantidadCell: string, costoUnitario: int,
                             subtotal: Option<int>, fill: string, at: RowAt)

  /** `it.cantidad || "-"` as text. */
  function CantidadCell(c: int): (r: string)
    ensures c == 0 <==> r == "-"
  {
    if c == 0 then "-" else if c > 0 then NatToString(c) else "-" + NatToString(-c)
  }

  datatype ItemsSection = NoItems(sentence: string) | ItemsTable(rows: seq<RowView>, total: int)

  datatype Document = Document(
    filename: string,
    lines: seq<string>,
    costo: int,
    observation: string,
    table: ItemsSection,
    pages: nat,
    labels: seq<seq<(nat, nat)>>)

  datatype Response = Status(status: nat, text: string) | Pdf(doc: Document)

  /** `GET /mantenciones/:id/pdf` once the queries have answered; `tableTop` is the cursor at the table header. */
  function Report(id: string, data: QueryResult<PdfData>, items: QueryResult<ItemLine>, g: Geometry, tableTop: int): (r: Response)
    ensures data.QueryError? || (data.Rows? && data.rows != [] && items.QueryError?) ==> r == Status(500, MsgError)
    ensures data.Rows? && data.rows == [] ==> r == Status(404, MsgNoEncontrada)
    ensures r.Pdf? ==> data.Rows? && data.rows != [] && items.Rows?
    ensures r.Pdf? ==> r.doc.filename == "mantencion_" + id + ".pdf"
    ensures r.Pdf? ==> (r.doc.table.NoItems? <==> items.rows == [])
    ensures r.Pdf? && items.rows == [] ==> r.doc.table == NoItems(SinItems) && r.doc.pages == 1
    ensures r.Pdf? && items.rows != [] ==>
              |r.doc.table.rows| == |items.rows| && r.doc.table.total == Total(items.rows)
    ensures r.Pdf? && items.rows != [] ==>
              forall i :: 0 <= i < |items.rows| ==>
                var row, it := r.doc.table.rows[i], items.rows[i];
                && row.item == it.item
                && row.tipoCell == (if it.tipo == "" then "-" else it.tipo)
                && row.cantidadCell == CantidadCell(it.cantidad)
                && row.costoUnitario == it.costoUnitario && row.subtotal == it.subtotal
                && row.fill == Reportes.RowFill(i)
                && row.at == PlaceRows(|items.rows|, tableTop + RowHeight, 0, g)[i]
    ensures r.Pdf? ==> r.doc.pages == 1 + Breaks(PlaceRows(|items.rows|, tableTop + RowHeight, 0, g))
    ensures r.Pdf? ==> r.doc.labels == PageLabels(r.doc.pages) && r.doc.pages >= 1
    ensures r.Pdf? ==> r.doc.lines == ["ID Mantención: " + id,
                                       "Vehículo: " + data.rows[0].vehiculo + " (" + data.rows[0].numeroInterno + ")",
                                       "Tipo: " + (if data.rows[0].tipo.Some? then data.rows[0].tipo.value else "null"),
                                       "Responsable: " + OrText(data.rows[0].responsable, SinAsignar)]
    ensures r.Pdf? ==> r.doc.costo == data.rows[0].costo
    ensures r.Pdf? ==> r.doc.observation == (if data.rows[0].observacion == "" then SinObservaciones else data.rows[0].observacion)
  {
    match data
    case QueryError => Status(500, MsgError)
    case Rows(rows) =>
      if rows == [] then Status(404, MsgNoEncontrada)
      else match items
        case QueryError => Status(500, MsgError)
        case Rows(its) =>
          var d := rows[0];
          var at := PlaceRows(|its|, tableTop + RowHeight, 0, g);
          var table :=
            if its == [] then NoItems(SinItems)
            else ItemsTable(
              seq(|its|, i requires 0 <= i < |its| =>
                RowView(its[i].item, OrText(if its[i].tipo == "" then None else Some(its[i].tipo), "-"),
                        CantidadCell(its[i].cantidad), its[i].costoUnitario, its[i].subtotal, Reportes.RowFill(i), at[i])),
              Total(its));
          var pages := 1 + Breaks(at);
          Pdf(Document(
            "mantencion_" + id + ".pdf",
            ["ID Mantención: " + id,
             "Vehículo: " + d.vehiculo + " (" + d.numeroInterno + ")",
             "Tipo: " + (if d.tipo.Some? then d.tipo.value else "null"),
             "Responsable: " + OrText(d.responsable, SinAsignar)],
            d.costo,
            if d.observacion == "" then SinObservaciones else d.observacion,
            table,
            pages,
            PageLabels(pages)))
  }

  /** The route against the store: the path id is cast by the database, and a failed cast is a 500. */
  function Route(db: Db, idParam: string, g: Geometry, tableTop: int): (r: Response)
    ensures ParseIntText(idParam).None? ==> r == Status(500, MsgError)
    ensures ParseIntText(idParam).Some? ==>
              (r == Status(404, MsgNoEncontrada) <==> PdfRows(db, ParseIntText(idParam).value) == [])
    ensures r.Pdf? && ParseIntText(idParam).value >= 0 ==>
              r.doc.table.ItemsTable? ==> r.doc.table.total == SumOfProducts(MantItemsOf(db.mantItems, ParseIntText(idParam).value))
  {
    match ParseIntText(idParam)
    case None => Status(500, MsgError)
    case Some(n) =>
      var items := if n < 0 then [] else MantItemsOf(db.mantItems, n);
      TotalOfStored(items);
      Report(idParam, Rows(PdfRows(db, n)), Rows(LinesOf(items)), g, tableTop)
  }

  /**
   * The provisional label agrees with the final one on every page exactly
   * when the report has a single page; otherwise the first page already
   * carries two different labels.
   */
  lemma ProvisionalLabelStale(count: nat)
    requires count >= 1
    ensures (forall k :: 0 <= k < count ==> PageLabels(count)[k][0] == PageLabels(count)[k][1]) <==> count == 1
  {
    if count > 1 {
      assert PageLabels(count)[0][1] == (1, count);
    }
  }
}

=== FILE: reportes.dfy ===
/**
 * The inspection report: the join that feeds it, the merge of stored items
 * onto the fixed checklist, where each table row lands on the page, how
 * rows and signatures are drawn, and what the document contains when a
 * query or the photograph fails. Drawing itself (fonts, colours of
 * headings, the logo) is not modelled; positions are integers measured in
 * points from the top of the page.
 */
module Reportes {
  import opened Js
  import opened Text
  import opened Table
  import opened Store
  import Auth
  import Inspecciones

  /** The fixed checklist the report always prints, in order. */
  const Catalog: seq<string> := [
    "Luces de estacionamiento", "Luces bajas", "Luces altas", "Luz de freno (incluye tercera luz)",
    "Luz de marcha atrás", "Luz de viraje derecho", "Luz de viraje izquierdo", "Luz de emergencia",
    "Luz de patente", "Baliza",
    "Freno de mano", "Freno de pedal", "Freno otros",
    "Neumático delantero derecho", "Neumático delantero izquierdo", "Neumático trasero derecho",
    "Neumático trasero izquierdo", "Neumático de repuesto", "Neumáticos otros",
    "Aceite de motor", "Agua del radiador", "Líquido de freno", "Correas", "Agua de batería",
    "Extintor", "Botiquín", "Gata", "Llave de ruedas", "Triángulos", "Chaleco reflectante",
    "Limpia parabrisas", "Herramientas", "Cinturón de seguridad", "Espejos laterales",
    "Espejo interior", "Radiotransmisor", "Bocina de retroceso", "Antena", "Permiso de circulación",
    "Revisión técnica", "Seguro obligatorio",
    "Techo", "Capot", "Puertas", "Vidrios", "Tapabarros", "Pick-up", "Parachoques",
    "Tubo de escape", "Aseo de cabina", "Sanitización COVID-19"
  ]

  const MsgNoEncontrada := "Inspección no encontrada"
  const MsgItemsError := "Error al obtener ítems de inspección."
  const SinObservaciones := "Sin observaciones registradas."
  const Footer := "Municipalidad de Curacaví - Departamento de Transporte"

  const RowHeight: int := 18
  /** A row starting lower than `pageHeight - BreakMargin` goes to a new page. */
  const BreakMargin: int := 120
  /** The table header sits this far below the page header on a continuation page. */
  const HeaderGap: int := 20
  /** The signature block needs this much room above the bottom margin. */
  const SignatureRoom: int := 80
  /** The photograph's drawn height, and the gap the cursor skips below it. */
  const ImageHeight: int := 160
  const ImageGap: int := 25

  /** The joined row the report query returns for one inspection. */
  datatype ReportData = ReportData(
    vehiculo: string,
    conductor: Option<string>,
    rut: Option<string>,
    direccion: Option<string>,
    telefono: Option<string>,
    licencia: Option<string>,
    observacion: string,
    foto: Option<string>)

  /** The report query against the store: the inspection with its driver and vehicle. */
  function ReportRows(db: Db, id: int): (r: seq<ReportData>)
    ensures |r| <= 1
    ensures r != [] <==> id >= 0 && Has(db.inspecciones, id)
                         && Has(db.usuarios, Get(db.inspecciones, id).value.usuarioId)
                         && Has(db.vehiculos, Get(db.inspecciones, id).value.vehiculoId)
  {
    if id < 0 then []
    else match Get(db.inspecciones, id)
      case None => []
      case Some(i) =>
        match (Get(db.usuarios, i.usuarioId), Get(db.vehiculos, i.vehiculoId))
        case (Some(u), Some(v)) =>
          [ReportData(v.patente, u.nombre, u.rut, u.direccion, u.telefono, u.licencia, i.observacion, i.foto)]
        case _ => []
  }

  /** One checklist line after merging. */
  datatype Merged = Merged(itemKey: string, existe: string, estado: string, obs: string)

  /** `items.find(i => i.item_key === key)`. */
  function FindKey(items: seq<InspItem>, key: string): (r: Option<InspItem>)
    ensures r.None? <==> forall i :: 0 <= i < |items| ==> items[i].itemKey != key
    ensures r.Some? ==> exists i :: 0 <= i < |items| && items[i] == r.value
                                    && (forall j :: 0 <= j < i ==> items[j].itemKey != key)
    ensures r.Some? ==> r.value.itemKey == key
  {
    if items == [] then None
    else if items[0].itemKey == key then Some(items[0])
    else
      var r := FindKey(items[1..], key);
      if r.Some? then
        assert forall i :: 0 <= i < |items[1..]| ==> items[1..][i] == items[i + 1];
        r
      else r
  }

  function OrDefault(s: string, d: string): (r: string)
    ensures r == (if s == "" then d else s)
    ensures d != "" ==> r != ""
  {
    if s == "" then d else s
  }

  /** The line for catalog entry `key`: the first stored item with that key, empty fields defaulted. */
  function MergeOne(items: seq<InspItem>, key: string): (r: Merged)
    ensures r.itemKey == key && r.existe != "" && r.estado != ""
    ensures FindKey(items, key).None? ==> r == Merged(key, "SI", "Bueno", "")
    ensures FindKey(items, key).Some? ==>
              var f := FindKey(items, key).value;
              r == Merged(key, OrDefault(f.existe, "SI"), OrDefault(f.estado, "Bueno"), f.obs)
  {
    match FindKey(items, key)
    case None => Merged(key, "SI", "Bueno", "")
    case Some(f) => Merged(key, OrDefault(f.existe, "SI"), OrDefault(f.estado, "Bueno"), f.obs)
  }

  /** The checklist with the stored items laid over it: one line per catalog entry, in catalog order. */
  function Merge(items: seq<InspItem>): (r: seq<Merged>)
    ensures |r| == |Catalog|
    ensures forall i :: 0 <= i < |r| ==> r[i] == MergeOne(items, Catalog[i])
  {
    seq(|Catalog|, i requires 0 <= i < |Catalog| => MergeOne(items, Catalog[i]))
  }

  /** Stored items whose keys are outside the catalog never show. */
  lemma UnknownKeysIgnored(items: seq<InspItem>, extra: InspItem)
    requires extra.itemKey !in Catalog
    ensures Merge(items + [extra]) == Merge(items)
  {
    forall i | 0 <= i < |Catalog|
      ensures FindKey(items + [extra], Catalog[i]) == FindKey(items, Catalog[i])
    {
      FindKeyAppend(items, [extra], Catalog[i]);
    }
  }

  lemma {:induction false} FindKeyAppend(a: seq<InspItem>, b: seq<InspItem>, key: string)
    ensures FindKey(a + b, key) == if FindKey(a, key).Some? then FindKey(a, key) else FindKey(b, key)
  {
    if a == [] {
      assert a + b == b;
    } else {
      assert (a + b)[0] == a[0];
      assert (a + b)[1..] == a[1..] + b;
      FindKeyAppend(a[1..], b, key);
    }
  }

  /** Where one row of the table is drawn. */
  datatype Placement = Placement(page: nat, y: int, breakBefore: bool)

  /**
   * The geometry the table depends on: the page height, and the cursor
   * (`doc.y`) after the page header is drawn on a continuation page.
   */
  datatype Geometry = Geometry(pageHeight: int, headerBottom: int)

  function BreakLimit(g: Geometry): int { g.pageHeight - BreakMargin }

  /** The first row's position on a continuation page, below the repeated table header. */
  function ContinuationY(g: Geometry): int { g.headerBottom + HeaderGap + RowHeight }

  /**
   * The placement pass for `n` rows when the next row would start at `y`
   * on page `page`: before each row, a cursor lower than the limit starts a
   * new page, redraws the headers and puts the row under them.
   */
  function Place(n: nat, y: int, page: nat, g: Geometry): (r: seq<Placement>)
    ensures |r| == n
    ensures forall i :: 0 <= i < n ==> r[i].page >= page
    ensures forall i :: 0 <= i < n ==> (r[i].breakBefore ==> r[i].y == ContinuationY(g))
    ensures forall i :: 0 <= i < n ==> (!r[i].breakBefore ==> r[i].y <= BreakLimit(g))
    ensures n > 0 ==> (r[0].breakBefore <==> y > BreakLimit(g))
    ensures n > 0 ==> r[0].page == (if r[0].breakBefore then page + 1 else page)
    ensures n > 0 && !r[0].breakBefore ==> r[0].y == y
    ensures forall i :: 0 < i < n ==>
              r[i].page == (if r[i].breakBefore then r[i - 1].page + 1 else r[i - 1].page)
    ensures forall i :: 0 < i < n ==>
              (r[i].breakBefore <==> r[i - 1].y + RowHeight > BreakLimit(g))
    ensures forall i :: 0 < i < n && !r[i].breakBefore ==> r[i].y == r[i - 1].y + RowHeight
    decreases n
  {
    if n == 0 then []
    else
      var here := if y > BreakLimit(g) then Placement(page + 1, ContinuationY(g), true)
                  else Placement(page, y, false);
      var rest := Place(n - 1, here.y + RowHeight, here.page, g);
      [here] + rest
  }

  /** When a header and one row fit on a page, no row starts below the limit. */
  lemma RowsStayAboveLimit(n: nat, y: int, page: nat, g: Geometry)
    requires ContinuationY(g) <= BreakLimit(g)
    ensures forall i :: 0 <= i < n ==> Place(n, y, page, g)[i].y <= BreakLimit(g)
  {
  }

  /** Placing more rows does not move the earlier ones. */
  lemma {:induction false} PlacePrefix(n: nat, m: nat, y: int, page: nat, g: Geometry)
    requires n <= m
    ensures Place(n, y, page, g) == Place(m, y, page, g)[..n]
    decreases n
  {
    if n > 0 {
      var here := if y > BreakLimit(g) then Placement(page + 1, ContinuationY(g), true)
                  else Placement(page, y, false);
      PlacePrefix(n - 1, m - 1, here.y + RowHeight, here.page, g);
    }
  }

  /** The page of the last row never exceeds the starting page plus the number of rows. */
  lemma {:induction false} PagesBounded(n: nat, y: int, page: nat, g: Geometry)
    ensures forall i :: 0 <= i < n ==> Place(n, y, page, g)[i].page <= page + i + 1
    decreases n
  {
    if n > 0 {
      var r := Place(n, y, page, g);
      var here := r[0];
      PagesBounded(n - 1, here.y + RowHeight, here.page, g);
      forall i | 0 < i < n ensures r[i].page <= page + i + 1 {
        assert r[i] == Place(n - 1, here.y + RowHeight, here.page, g)[i - 1];
      }
    }
  }

  /** A drawn row: the merged line, its cells as printed, its colours and its place. */
  datatype RowView = RowView(
    item: Merged,
    obsCell: string,
    fill: string,
    estadoColor: string,
    at: Placement)

  function RowFill(index: nat): (r: string)
    ensures r == "#F9F9F9" <==> index % 2 == 0
    ensures r in {"#F9F9F9", "#FFFFFF"}
  {
    if index % 2 == 0 then "#F9F9F9" else "#FFFFFF"
  }

  function EstadoColor(estado: string): (r: string)
    ensures r == "#008000" <==> estado == "Bueno"
    ensures r in {"#008000", "#CC0000"}
  {
    if estado == "Bueno" then "#008000" else "#CC0000"
  }

  function DrawRows(items: seq<Merged>, at: seq<Placement>): (r: seq<RowView>)
    requires |items| == |at|
    ensures |r| == |items|
    ensures forall i :: 0 <= i < |r| ==>
              r[i].item == items[i] && r[i].at == at[i]
              && r[i].obsCell == OrDefault(items[i].obs, "-") && r[i].obsCell != ""
              && r[i].fill == RowFill(i) && r[i].estadoColor == EstadoColor(items[i].estado)
  {
    seq(|items|, i requires 0 <= i < |items| =>
      RowView(items[i], OrDefault(items[i].obs, "-"), RowFill(i), EstadoColor(items[i].estado), at[i]))
  }

  /** The signature block: whether it opens a page, its top, and the lines under the driver's rule. */
  datatype Signature = Signature(newPage: bool, y: int, conductorLine: string, rutLine: Option<string>)

  /**
   * Signature placement: `docY` is the cursor after the table, `limit` the
   * lowest top that leaves room above the bottom margin, and `freshY` the
   * cursor on a page opened for the block.
   */
  function SignatureAt(docY: int, limit: int, freshY: int): (r: (bool, int))
    ensures r.0 <==> docY > limit
    ensures r.1 <= limit
    ensures !r.0 ==> r.1 == docY
    ensures r.0 && freshY <= limit ==> r.1 == freshY
    ensures r.0 && freshY > limit ==> r.1 == limit
  {
    var newPage := docY > limit;
    var y := if newPage then freshY else docY;
    (newPage, if y < limit then y else limit)
  }

  /** `${v}` for a column that may be NULL. */
  function Interp(v: Option<string>): (r: string)
    ensures v.Some? ==> r == v.value
    ensures v.None? ==> r == "null"
  {
    match v
    case None => "null"
    case Some(s) => s
  }

  /** One for a column whose value is truthy, zero otherwise. */
  function Shown(v: Option<string>): (r: nat)
    ensures r == 1 <==> OrText(v, "") != ""
    ensures r <= 1
  {
    if OrText(v, "") != "" then 1 else 0
  }

  /**
   * The driver lines: "Conductor:" always, then the RUT, address, phone and
   * licence lines in that order, each present exactly when its column is
   * truthy.
   */
  function DriverLines(d: ReportData): (r: seq<string>)
    ensures |r| == 1 + Shown(d.rut) + Shown(d.direccion) + Shown(d.telefono) + Shown(d.licencia)
    ensures r[0] == "Conductor: " + Interp(d.conductor)
    ensures Shown(d.rut) == 1 ==> r[1] == "RUT: " + d.rut.value
    ensures Shown(d.direccion) == 1 ==> r[1 + Shown(d.rut)] == "Dirección: " + d.direccion.value
    ensures Shown(d.telefono) == 1 ==>
              r[1 + Shown(d.rut) + Shown(d.direccion)] == "Teléfono: " + d.telefono.value
    ensures Shown(d.licencia) == 1 ==> r[|r| - 1] == "Clase Licencia: " + d.licencia.value
  {
    ["Conductor: " + Interp(d.conductor)]
    + (if OrText(d.rut, "") != "" then ["RUT: " + d.rut.value] else [])
    + (if OrText(d.direccion, "") != "" then ["Dirección: " + d.direccion.value] else [])
    + (if OrText(d.telefono, "") != "" then ["Teléfono: " + d.telefono.value] else [])
    + (if OrText(d.licencia, "") != "" then ["Clase Licencia: " + d.licencia.value] else [])
  }
  /**
   * What happens to a stored photograph: decoding or writing the temporary
   * file fails before anything is drawn, the image fails after its heading
   * is drawn, or the image is placed.
   */
  datatype PhotoOutcome = DecodeFails | ImageFails | Placed

  datatype PhotoSection = NoPhoto | HeadingOnly | HeadingAndImage

  function PhotoSectionOf(foto: Option<string>, outcome: PhotoOutcome): (r: PhotoSection)
    ensures OrText(foto, "") == "" ==> r == NoPhoto
    ensures OrText(foto, "") != "" ==> (r == HeadingAndImage <==> outcome == Placed)
    ensures OrText(foto, "") != "" ==> (r == NoPhoto <==> outcome == DecodeFails)
  {
    if OrText(foto, "") == "" then NoPhoto
    else match outcome
      case DecodeFails => NoPhoto
      case ImageFails => HeadingOnly
      case Placed => HeadingAndImage
  }

  datatype TableSection =
    | ItemsError(message: string)
    | ItemsTable(rows: seq<RowView>, signature: Signature, footer: string)

  datatype Document = Document(
    filename: string,
    dataLines: seq<string>,
    driverLines: seq<string>,
    observation: string,
    photo: PhotoSection,
    table: TableSection)

  datatype Response = NotFound(status: nat, text: string) | Pdf(doc: Document)

  /**
   * The cursor positions that depend on text layout, given rather than
   * computed: where the table header is drawn on the first page when there
   * is no photograph section, how far the "Evidencia Fotográfica" heading
   * and its half-line gap move the cursor, how far the cursor moves between
   * the last row and the signature check, and the cursor on a page opened
   * for the signature.
   */
  datatype Layout = Layout(geometry: Geometry, tableTop: int, photoHeading: nat, afterTableGap: int,
                           bottomMargin: int, signatureFreshY: int)

  /**
   * Where the table header is drawn: the photograph section pushes it down
   * by its heading, and a placed image by the image and the gap below it.
   */
  function TableTop(l: Layout, section: PhotoSection): (r: int)
    ensures section == NoPhoto ==> r == l.tableTop
    ensures section == HeadingOnly ==> r == l.tableTop + l.photoHeading
    ensures section == HeadingAndImage ==> r == l.tableTop + l.photoHeading + ImageHeight + ImageGap
    ensures r >= l.tableTop
  {
    match section
    case NoPhoto => l.tableTop
    case HeadingOnly => l.tableTop + l.photoHeading
    case HeadingAndImage => l.tableTop + l.photoHeading + ImageHeight + ImageGap
  }

  function SignatureLimit(l: Layout): int { l.geometry.pageHeight - l.bottomMargin - SignatureRoom }

  /**
   * `GET /reportes/inspeccion/:id/pdf` once the inspection query has answered
   * `query` and the items query `items`.
   */
  function Report(id: string, query: QueryResult<ReportData>, items: QueryResult<InspItem>,
                  photo: PhotoOutcome, l: Layout): (r: Response)
    ensures r.NotFound? <==> query.QueryError? || query.rows == []
    ensures r.NotFound? ==> r == NotFound(404, MsgNoEncontrada)
    ensures r.Pdf? ==> r.doc.filename == "inspeccion_" + id + ".pdf"
    ensures r.Pdf? ==> r.doc.observation == OrDefault(query.rows[0].observacion, SinObservaciones)
    ensures r.Pdf? ==> r.doc.dataLines == ["ID Inspección: " + id, "Vehículo: " + query.rows[0].vehiculo]
    ensures r.Pdf? ==> r.doc.photo == PhotoSectionOf(query.rows[0].foto, photo)
    ensures r.Pdf? ==> r.doc.table == ItemsSection(query.rows[0], items, TableTop(l, r.doc.photo), l)
    ensures r.Pdf? ==> (r.doc.table.ItemsError? <==> items.QueryError?)
    ensures r.Pdf? && items.QueryError? ==> r.doc.table == ItemsError(MsgItemsError)
    ensures r.Pdf? && items.Rows? ==> CatalogRows(r.doc.table.rows, items.rows, TableTop(l, r.doc.photo), l.geometry)
    ensures r.Pdf? && items.Rows? ==> r.doc.table.signature.y <= SignatureLimit(l)
    ensures r.Pdf? ==> r.doc.driverLines == DriverLines(query.rows[0])
  {
    if query.QueryError? || query.rows == [] then NotFound(404, MsgNoEncontrada)
    else
      var d := query.rows[0];
      var section := PhotoSectionOf(d.foto, photo);
      var table := ItemsSection(d, items, TableTop(l, section), l);
      Pdf(Document(
        "inspeccion_" + id + ".pdf",
        ["ID Inspección: " + id, "Vehículo: " + d.vehiculo],
        DriverLines(d),
        OrDefault(d.observacion, SinObservaciones),
        section,
        table))
  }

  /**
   * Row i is catalog entry i merged with the stored rows, drawn with the
   * zebra fill, the estado colour, "-" for an empty observation, and the
   * placement of row i when the table header is at `top`.
   */
  predicate CatalogRows(rows: seq<RowView>, stored: seq<InspItem>, top: int, g: Geometry) {
    |rows| == |Catalog|
    && forall i :: 0 <= i < |Catalog| ==>
         && rows[i].item == MergeOne(stored, Catalog[i])
         && rows[i].fill == RowFill(i)
         && rows[i].estadoColor == EstadoColor(MergeOne(stored, Catalog[i]).estado)
         && rows[i].obsCell == OrDefault(MergeOne(stored, Catalog[i]).obs, "-")
         && rows[i].at == Place(|Catalog|, top + RowHeight, 0, g)[i]
  }

  /** The items section drawn from table top `top`: the merged rows, then the signature block. */
  function ItemsSection(d: ReportData, items: QueryResult<InspItem>, top: int, l: Layout): (r: TableSection)
    ensures r.ItemsError? <==> items.QueryError?
    ensures items.QueryError? ==> r == ItemsError(MsgItemsError)
    ensures items.Rows? ==> r.footer == Footer && CatalogRows(r.rows, items.rows, top, l.geometry)
    ensures items.Rows? ==> r.signature.y <= SignatureLimit(l)
    ensures items.Rows? ==> r.signature.conductorLine == "Conductor: " + Interp(d.conductor)
  {
    match items
    case QueryError => ItemsError(MsgItemsError)
    case Rows(stored) =>
      var merged := Merge(stored);
      var at := Place(|merged|, top + RowHeight, 0, l.geometry);
      var lastY := if at == [] then top else at[|at| - 1].y + RowHeight;
      var sign := SignatureAt(lastY + l.afterTableGap, SignatureLimit(l), l.signatureFreshY);
      ItemsTable(
        DrawRows(merged, at),
        Signature(sign.0, sign.1, "Conductor: " + Interp(d.conductor),
                  if OrText(d.rut, "") != "" then Some("RUT: " + d.rut.value) else None),
        Footer)
  }

  /** The table with every row position and the signature position blanked out. */
  function Unplaced(t: TableSection): (r: TableSection)
    ensures r.ItemsError? <==> t.ItemsError?
    ensures t.ItemsError? ==> r == t
    ensures t.ItemsTable? ==> |r.rows| == |t.rows| && r.footer == t.footer
    ensures t.ItemsTable? ==> forall i :: 0 <= i < |t.rows| ==> r.rows[i] == t.rows[i].(at := Placement(0, 0, false))
    ensures t.ItemsTable? ==> r.signature == t.signature.(newPage := false, y := 0)
  {
    match t
    case ItemsError(_) => t
    case ItemsTable(rows, sign, footer) =>
      ItemsTable(seq(|rows|, i requires 0 <= i < |rows| => rows[i].(at := Placement(0, 0, false))),
                 sign.(newPage := false, y := 0), footer)
  }

  /**
   * Whatever happens to the photograph, the document says the same thing:
   * the data, the rows and the signature text agree, and only positions
   * below the photograph section can move.
   */
  lemma PhotoIsolated(id: string, query: QueryResult<ReportData>, items: QueryResult<InspItem>,
                      p1: PhotoOutcome, p2: PhotoOutcome, l: Layout)
    ensures Report(id, query, items, p1, l).Pdf? <==> Report(id, query, items, p2, l).Pdf?
    ensures Report(id, query, items, p1, l).Pdf? ==>
              var d1, d2 := Report(id, query, items, p1, l).doc, Report(id, query, items, p2, l).doc;
              d1.(photo := NoPhoto, table := Unplaced(d1.table)) == d2.(photo := NoPhoto, table := Unplaced(d2.table))
    ensures Report(id, query, items, p1, l).Pdf? &&
            PhotoSectionOf(query.rows[0].foto, p1) == PhotoSectionOf(query.rows[0].foto, p2) ==>
              Report(id, query, items, p1, l) == Report(id, query, items, p2, l)
  {
    if !(query.QueryError? || query.rows == []) {
      var d := query.rows[0];
      var s1, s2 := PhotoSectionOf(d.foto, p1), PhotoSectionOf(d.foto, p2);
      var t1, t2 := ItemsSection(d, items, TableTop(l, s1), l), ItemsSection(d, items, TableTop(l, s2), l);
      var doc := Document("inspeccion_" + id + ".pdf", ["ID Inspección: " + id, "Vehículo: " + d.vehiculo],
                          DriverLines(d), OrDefault(d.observacion, SinObservaciones), s1, t1);
      assert Report(id, query, items, p1, l) == Pdf(doc);
      assert Report(id, query, items, p2, l) == Pdf(doc.(photo := s2, table := t2));
      UnplacedIgnoresTop(d, items, TableTop(l, s1), TableTop(l, s2), l);
    }
  }

  /** Two drawings of the same rows that differ only in placement agree once the placements are blanked. */
  lemma UnplacedRows(r1: seq<RowView>, r2: seq<RowView>)
    requires |r1| == |r2|
    requires forall i :: 0 <= i < |r1| ==> r1[i].(at := r2[i].at) == r2[i]
    ensures Unplaced(ItemsTable(r1, Signature(false, 0, "", None), Footer)).rows
         == Unplaced(ItemsTable(r2, Signature(false, 0, "", None), Footer)).rows
  {
  }

  /** Where the table starts moves the rows and the signature, and nothing else. */
  lemma UnplacedIgnoresTop(d: ReportData, items: QueryResult<InspItem>, top1: int, top2: int, l: Layout)
    ensures Unplaced(ItemsSection(d, items, top1, l)) == Unplaced(ItemsSection(d, items, top2, l))
  {
    if items.Rows? {
      var merged := Merge(items.rows);
      var r1 := DrawRows(merged, Place(|merged|, top1 + RowHeight, 0, l.geometry));
      var r2 := DrawRows(merged, Place(|merged|, top2 + RowHeight, 0, l.geometry));
      UnplacedRows(r1, r2);
    }
  }

  /** The first submitted entry with this key, as `Object.entries` lists them. */
  function FirstEntry(es: seq<Inspecciones.ItemEntry>, key: string): (r: Option<Inspecciones.ItemEntry>)
    ensures r.None? <==> forall i :: 0 <= i < |es| ==> es[i].key != key
    ensures r.Some? ==> r.value in es && r.value.key == key
  {
    if es == [] then None
    else if es[0].key == key then Some(es[0])
    else FirstEntry(es[1..], key)
  }

  /** Looking a key up among the built rows finds the row built from the first entry with that key. */
  lemma {:induction false} FindKeyOfBuilt(es: seq<Inspecciones.ItemEntry>, rows: seq<InspItem>, id: nat, key: string)
    requires |rows| == |es|
    requires forall i :: 0 <= i < |es| ==>
               Inspecciones.NormaliseItem(es[i], id).Some? && rows[i] == Inspecciones.NormaliseItem(es[i], id).value
    ensures FindKey(rows, key) == match FirstEntry(es, key)
                                  case None => None
                                  case Some(e) => Inspecciones.NormaliseItem(e, id)
  {
    if es != [] {
      FindKeyOfBuilt(es[1..], rows[1..], id, key);
    }
  }

  /** The report line of an entry that was built from `e`. */
  function Expected(e: Option<Inspecciones.ItemEntry>, id: nat, key: string): Merged
    requires e.Some? ==> Inspecciones.NormaliseItem(e.value, id).Some?
  {
    match e
    case None => Merged(key, "SI", "Bueno", "")
    case Some(e) =>
      var row := Inspecciones.NormaliseItem(e, id).value;
      Merged(key, row.existe, row.estado, row.obs)
  }

  lemma MergeOfBuilt(es: seq<Inspecciones.ItemEntry>, rows: seq<InspItem>, id: nat, key: string)
    requires |rows| == |es|
    requires forall i :: 0 <= i < |es| ==>
               Inspecciones.NormaliseItem(es[i], id).Some? && rows[i] == Inspecciones.NormaliseItem(es[i], id).value
    ensures MergeOne(rows, key) == Expected(FirstEntry(es, key), id, key)
  {
    FindKeyOfBuilt(es, rows, id, key);
  }

  /**
   * Create, then report: after a successful create, the report finds the
   * inspection, and each checklist line shows the first submitted entry with
   * that key as it was stored, or the defaults when none was submitted.
   */
  lemma CreateThenReport(db: Db, user: Auth.User, body: Inspecciones.CreateBody, newId: nat, faults: set<nat>,
                         photo: PhotoOutcome, l: Layout, k: nat)
    requires Inspecciones.Wellformed(db)
    requires Inspecciones.CreateInspeccion(db, user, body, newId, faults).1.status == 201
    requires k < |Catalog|
    ensures var db' := Inspecciones.CreateInspeccion(db, user, body, newId, faults).0;
            var r := Report(NatToString(newId), Rows(ReportRows(db', newId)),
                            Rows(ItemsOf(db'.inspItems, newId)), photo, l);
            r.Pdf? && r.doc.table.ItemsTable?
            && r.doc.table.rows[k].item
               == Expected(FirstEntry(Inspecciones.Entries(body.items), Catalog[k]), newId, Catalog[k])
  {
    var db' := Inspecciones.CreateInspeccion(db, user, body, newId, faults).0;
    var rows := Inspecciones.ItemRows(body.items, newId).value;
    var es := Inspecciones.Entries(body.items);
    Inspecciones.StoredAfterCreate(db, user, body, newId, faults);
    var stored := ItemsOf(db'.inspItems, newId);
    assert stored == rows;
    assert ReportRows(db', newId) != [] by {
      var insp := Inspecciones.InspRow(body).value;
      assert Get(db'.inspecciones, newId) == Some(insp);
      assert Has(db'.usuarios, insp.usuarioId);
      assert Has(db'.vehiculos, insp.vehiculoId);
    }
    MergeOfBuilt(es, rows, newId, Catalog[k]);
    var r := Report(NatToString(newId), Rows(ReportRows(db', newId)), Rows(stored), photo, l);
    assert r.doc.table.rows[k].item == MergeOne(stored, Catalog[k]);
  }

  /**
   * The report's two statements reduced to their WHERE clauses, as the route
   * sends them and as the other routes write them for the same driver.
   */
  const ReportWhereAsWritten := "WHERE i.id = ?"
  const ItemsWhereAsWritten := "WHERE inspeccion_id=?"
  const ReportWhereCorrected := "WHERE i.id = $1"
  const ItemsWhereCorrected := "WHERE inspeccion_id = $1"

  /**
   * The PostgreSQL driver binds a parameter only to a `$1` marker; a
   * statement sent with one parameter and no marker is rejected. The path
   * id is text the database casts. The driver hands the callback a result
   * object whose `rows` hold the answer; `Rows` stands for that list, so
   * the corrected route is read as also taking `results.rows`.
   */
  function RunReportQuery(whereClause: string, db: Db, id: string): (r: QueryResult<ReportData>)
    ensures !Includes(whereClause, "$1") ==> r.QueryError?
    ensures Includes(whereClause, "$1") && ParseIntText(id).Some? ==> r == Rows(ReportRows(db, ParseIntText(id).value))
  {
    if !Includes(whereClause, "$1") then QueryError
    else match ParseIntText(id)
      case None => QueryError
      case Some(n) => Rows(ReportRows(db, n))
  }

  function RunItemsQuery(whereClause: string, db: Db, id: string): (r: QueryResult<InspItem>)
    ensures !Includes(whereClause, "$1") ==> r.QueryError?
    ensures Includes(whereClause, "$1") && ParseIntText(id).Some? && ParseIntText(id).value >= 0 ==>
              r == Rows(ItemsOf(db.inspItems, ParseIntText(id).value))
  {
    if !Includes(whereClause, "$1") then QueryError
    else match ParseIntText(id)
      case None => QueryError
      case Some(n) => if n < 0 then Rows([]) else Rows(ItemsOf(db.inspItems, n))
  }

  /** The route end to end against the store, for given statement texts. */
  function ReportRoute(reportWhere: string, itemsWhere: string, db: Db, id: string, photo: PhotoOutcome, l: Layout): (r: Response)
    ensures r == Report(id, RunReportQuery(reportWhere, db, id), RunItemsQuery(itemsWhere, db, id), photo, l)
    ensures r.Pdf? ==> Includes(reportWhere, "$1")
  {
    Report(id, RunReportQuery(reportWhere, db, id), RunItemsQuery(itemsWhere, db, id), photo, l)
  }

  /** As written, every report request answers 404, whatever the store holds. */
  lemma ReportAsWrittenAlwaysNotFound(db: Db, id: string, photo: PhotoOutcome, l: Layout)
    ensures ReportRoute(ReportWhereAsWritten, ItemsWhereAsWritten, db, id, photo, l) == NotFound(404, MsgNoEncontrada)
  {
    NotIncludedWithoutHead(ReportWhereAsWritten, "$1");
  }

  /** With `$1` markers, an inspection whose driver and vehicle exist gets its report with the full table. */
  lemma ReportCorrectedFindsInspection(db: Db, n: nat, photo: PhotoOutcome, l: Layout)
    requires ReportRows(db, n) != []
    ensures var r := ReportRoute(ReportWhereCorrected, ItemsWhereCorrected, db, NatToString(n), photo, l);
            r.Pdf? && r.doc.table.ItemsTable? && |r.doc.table.rows| == |Catalog|
  {
    assert OccursAt(ReportWhereCorrected, "$1", 13);
    assert OccursAt(ItemsWhereCorrected, "$1", 22);
    TrimDigits(NatToString(n));
    assert ParseIntText(NatToString(n)) == Some(n);
  }
}

=== FILE: reportespage.dfy ===
/**
 * The inspection report list: the four filters applied one after the
 * other, the total, the ten-row page, the page count and the "Mostrando"
 * range, and the filter edits that send the list back to page 1.
 */
module ReportesPage {
  import opened Js
  import opened Text
  import InspeccionPage

  const PerPage: nat := 10

  /** A listed inspection; `fecha` is its instant, `None` when `new Date` cannot read it. */
  datatype ListedRow = ListedRow(id: nat, conductorNombre: Option<string>, vehiculoPatente: Option<string>, fecha: Option<int>)

  /**
   * The filter inputs. The date bounds are already the instants of
   * 00:00:00 on the start day and 23:59:59 on the end day; `None` is an
   * empty date field.
   */
  datatype Filters = Filters(conductor: string, vehiculo: string, inicio: Option<int>, fin: Option<int>)

  /** `rows.filter(keep)`. */
  function Keep(rows: seq<ListedRow>, keep: ListedRow -> bool): (r: seq<ListedRow>)
    ensures |r| <= |rows|
    ensures forall x :: x in r <==> x in rows && keep(x)
  {
    if rows == [] then []
    else (if keep(rows[0]) then [rows[0]] else []) + Keep(rows[1..], keep)
  }

  /** A filter works row by row, so it keeps the survivors in list order. */
  lemma {:induction false} KeepAppend(a: seq<ListedRow>, b: seq<ListedRow>, keep: ListedRow -> bool)
    ensures Keep(a + b, keep) == Keep(a, keep) + Keep(b, keep)
    decreases |a|
  {
    if a != [] {
      assert (a + b)[1..] == a[1..] + b;
      KeepAppend(a[1..], b, keep);
    } else {
      assert a + b == b;
    }
  }

  /** `field?.toLowerCase().includes(search.toLowerCase())`: an absent field never matches. */
  predicate Mentions(field: Option<string>, search: string) {
    field.Some? && Includes(ToLower(field.value), ToLower(search))
  }

  /** A text filter applies only when the search is not blank after trimming. */
  predicate PassesText(field: Option<string>, search: string) {
    Trim(search) == [] || Mentions(field, search)
  }

  /** `new Date(r.fecha) >= fInicio`: an unreadable date fails. */
  predicate PassesInicio(r: ListedRow, inicio: Option<int>) {
    inicio.None? || (r.fecha.Some? && r.fecha.value >= inicio.value)
  }

  /** `new Date(r.fecha) <= fFin`: an unreadable date fails. */
  predicate PassesFin(r: ListedRow, fin: Option<int>) {
    fin.None? || (r.fecha.Some? && r.fecha.value <= fin.value)
  }

  /** A row is listed when it passes all four filters. */
  predicate Passes(r: ListedRow, f: Filters) {
    PassesText(r.conductorNombre, f.conductor) && PassesText(r.vehiculoPatente, f.vehiculo)
    && PassesInicio(r, f.inicio) && PassesFin(r, f.fin)
  }

  function ByConductor(rows: seq<ListedRow>, search: string): (r: seq<ListedRow>)
    ensures forall x :: x in r <==> x in rows && PassesText(x.conductorNombre, search)
  {
    if Trim(search) != [] then Keep(rows, (x: ListedRow) => Mentions(x.conductorNombre, search)) else rows
  }

  function ByVehiculo(rows: seq<ListedRow>, search: string): (r: seq<ListedRow>)
    ensures forall x :: x in r <==> x in rows && PassesText(x.vehiculoPatente, search)
  {
    if Trim(search) != [] then Keep(rows, (x: ListedRow) => Mentions(x.vehiculoPatente, search)) else rows
  }

  function ByInicio(rows: seq<ListedRow>, inicio: Option<int>): (r: seq<ListedRow>)
    ensures forall x :: x in r <==> x in rows && PassesInicio(x, inicio)
  {
    if inicio.Some? then Keep(rows, (x: ListedRow) => PassesInicio(x, inicio)) else rows
  }

  function ByFin(rows: seq<ListedRow>, fin: Option<int>): (r: seq<ListedRow>)
    ensures forall x :: x in r <==> x in rows && PassesFin(x, fin)
  {
    if fin.Some? then Keep(rows, (x: ListedRow) => PassesFin(x, fin)) else rows
  }

  /** The pipeline of `fetchFiltered`: conductor, vehicle, start date, end date. */
  function Filtered(rows: seq<ListedRow>, f: Filters): (r: seq<ListedRow>)
    ensures forall x :: x in r <==> x in rows && Passes(x, f)
  {
    ByFin(ByInicio(ByVehiculo(ByConductor(rows, f.conductor), f.vehiculo), f.inicio), f.fin)
  }

  /** With every filter empty the list is the fetched list, in its order. */
  lemma NoFilterKeepsAll(rows: seq<ListedRow>)
    ensures Filtered(rows, Filters("", "", None, None)) == rows
  {
    assert Trim("") == [];
  }

  /** Two batches filter independently: the listed rows keep the fetched order. */
  lemma {:induction false} FilteredAppend(a: seq<ListedRow>, b: seq<ListedRow>, f: Filters)
    ensures Filtered(a + b, f) == Filtered(a, f) + Filtered(b, f)
  {
    var c := a + b;
    if Trim(f.conductor) != [] {
      KeepAppend(a, b, (x: ListedRow) => Mentions(x.conductorNombre, f.conductor));
    }
    var a1, b1 := ByConductor(a, f.conductor), ByConductor(b, f.conductor);
    if Trim(f.vehiculo) != [] {
      KeepAppend(a1, b1, (x: ListedRow) => Mentions(x.vehiculoPatente, f.vehiculo));
    }
    var a2, b2 := ByVehiculo(a1, f.vehiculo), ByVehiculo(b1, f.vehiculo);
    if f.inicio.Some? {
      KeepAppend(a2, b2, (x: ListedRow) => PassesInicio(x, f.inicio));
    }
    var a3, b3 := ByInicio(a2, f.inicio), ByInicio(b2, f.inicio);
    if f.fin.Some? {
      KeepAppend(a3, b3, (x: ListedRow) => PassesFin(x, f.fin));
    }
  }

  /**
   * The records page `page` shows, and the total the counter reports. The
   * row numbered `startIdx + idx + 1` on screen is that position of the
   * filtered list.
   */
  function Visible(rows: seq<ListedRow>, f: Filters, page: nat): (r: (seq<ListedRow>, nat))
    requires page >= 1
    ensures r.1 == |Filtered(rows, f)|
    ensures |r.0| <= PerPage
    ensures forall i :: 0 <= i < |r.0| ==>
              (page - 1) * PerPage + i < r.1 && r.0[i] == Filtered(rows, f)[(page - 1) * PerPage + i]
    ensures (page - 1) * PerPage + PerPage <= r.1 ==> |r.0| == PerPage
    ensures (page - 1) * PerPage <= r.1 < (page - 1) * PerPage + PerPage ==> |r.0| == r.1 - (page - 1) * PerPage
  {
    var all := Filtered(rows, f);
    (InspeccionPage.CurrentRecords(all, page), |all|)
  }

  /** Every row on the page is a fetched row that passes the filters. */
  lemma VisiblePasses(rows: seq<ListedRow>, f: Filters, page: nat, i: nat)
    requires page >= 1 && i < |Visible(rows, f, page).0|
    ensures Visible(rows, f, page).0[i] in rows && Passes(Visible(rows, f, page).0[i], f)
  {
    var all := Filtered(rows, f);
    assert all[(page - 1) * PerPage + i] in all;
  }

  /** `Math.max(1, Math.ceil(total / 10))`. */
  function TotalPages(total: nat): (r: nat)
    ensures r >= 1
    ensures r * PerPage >= total
    ensures r == 1 || (r - 1) * PerPage < total
  {
    var t := InspeccionPage.TotalPages(total);
    if t < 1 then 1 else t
  }

  /** The "Mostrando a–b de total" range. */
  function Mostrando(page: nat, total: nat): (r: (nat, nat))
    requires page >= 1
    ensures total == 0 ==> r == (0, 0)
    ensures total > 0 ==> r.0 == (page - 1) * PerPage + 1
    ensures r.1 <= total && r.1 <= (page - 1) * PerPage + PerPage
    ensures r.1 == total || r.1 == (page - 1) * PerPage + PerPage
  {
    var start := (page - 1) * PerPage;
    (if total != 0 then start + 1 else 0, if start + PerPage < total then start + PerPage else total)
  }

  /** On a page within range the range counts exactly the rows shown. */
  lemma MostrandoCountsShown(rows: seq<ListedRow>, f: Filters, page: nat)
    requires page >= 1
    requires (page - 1) * PerPage < |Filtered(rows, f)|
    ensures var (a, b) := Mostrando(page, |Filtered(rows, f)|);
            b - a + 1 == |Visible(rows, f, page).0|
  {
  }

  /** The page's state: the filters and the page number. */
  datatype State = State(filters: Filters, page: nat)

  datatype Edit = SetConductor(s: string) | SetVehiculo(s: string) | SetInicio(d: Option<int>) | SetFin(d: Option<int>)

  /** Any filter edit also goes back to page 1. */
  function Apply(st: State, e: Edit): (r: State)
    ensures r.page == 1
    ensures e.SetConductor? ==> r.filters == st.filters.(conductor := e.s)
    ensures e.SetVehiculo? ==> r.filters == st.filters.(vehiculo := e.s)
    ensures e.SetInicio? ==> r.filters == st.filters.(inicio := e.d)
    ensures e.SetFin? ==> r.filters == st.filters.(fin := e.d)
  {
    match e
    case SetConductor(s) => State(st.filters.(conductor := s), 1)
    case SetVehiculo(s) => State(st.filters.(vehiculo := s), 1)
    case SetInicio(d) => State(st.filters.(inicio := d), 1)
    case SetFin(d) => State(st.filters.(fin := d), 1)
  }

  /** `limpiarFiltros`: all four filters empty and page 1 (see `NoFilterKeepsAll`). */
  function LimpiarFiltros(st: State): (r: State)
    ensures r.page == 1
    ensures r.filters == Filters("", "", None, None)
  {
    State(Filters("", "", None, None), 1)
  }

  /** The two buttons: back only from a page above 1, forward only below the last page. */
  function Anterior(page: nat): nat {
    if page <= 1 then page else page - 1
  }

  function Siguiente(page: nat, total: nat): nat {
    if page >= TotalPages(total) then page else page + 1
  }

  lemma ButtonsStayInRange(page: nat, total: nat)
    requires 1 <= page <= TotalPages(total)
    ensures 1 <= Anterior(page) <= TotalPages(total)
    ensures 1 <= Siguiente(page, total) <= TotalPages(total)
  {
  }
}

=== FILE: rut.dfy ===
/**
 * The Chilean RUT helpers of the user form: cleaning to digits and `K`,
 * the dotted display format, and the modulo-11 check digit with weights
 * 2 to 7 cycling from the rightmost body digit.
 */
module Rut {
  import opened Js
  import opened Text

  /** A character `cleanRut` keeps: a digit or either case of `k`. */
  predicate RutChar(c: char) {
    IsDigit(c) || c == 'k' || c == 'K'
  }

  /** Only digits and upper-case `K`: the shape of a cleaned RUT. */
  predicate Clean(s: string) {
    forall i :: 0 <= i < |s| ==> IsDigit(s[i]) || s[i] == 'K'
  }

  /** `rut.replace(/[^0-9kK]/g, "").toUpperCase()`. */
  function CleanRut(s: string): (r: string)
    ensures Clean(r)
    ensures |r| <= |s|
  {
    if s == [] then []
    else (if RutChar(s[0]) then [UpperChar(s[0])] else []) + CleanRut(s[1..])
  }

  lemma {:induction false} CleanRutConcat(a: string, b: string)
    ensures CleanRut(a + b) == CleanRut(a) + CleanRut(b)
    decreases |a|
  {
    if a != [] {
      assert (a + b)[1..] == a[1..] + b;
      CleanRutConcat(a[1..], b);
    } else {
      assert a + b == b;
    }
  }

  /** A cleaned RUT is its own cleaning, so `cleanRut` is idempotent. */
  lemma {:induction false} CleanRutOfClean(s: string)
    requires Clean(s)
    ensures CleanRut(s) == s
    decreases |s|
  {
    if s != [] {
      CleanRutOfClean(s[1..]);
    }
  }

  lemma CleanRutIdempotent(s: string)
    ensures CleanRut(CleanRut(s)) == CleanRut(s)
  {
    CleanRutOfClean(CleanRut(s));
  }

  /** The number of digits `s` starts with. */
  function LeadingDigits(s: string): (r: nat)
    ensures r <= |s|
  {
    if s != [] && IsDigit(s[0]) then 1 + LeadingDigits(s[1..]) else 0
  }

  lemma {:induction false} LeadingDigitsOfDigits(s: string)
    requires OnlyDigits(s)
    ensures LeadingDigits(s) == |s|
    decreases |s|
  {
    if s != [] {
      LeadingDigitsOfDigits(s[1..]);
    }
  }

  /**
   * `\B(?=(\d{3})+(?!\d))` matches before index `i > 0` of a cleaned body
   * exactly when the run of digits starting there is a positive multiple
   * of three long (every character of a cleaned body is a word character,
   * so every inner position is a non-boundary).
   */
  predicate DotBefore(s: string, i: nat)
    requires i < |s|
  {
    0 < i && LeadingDigits(s[i..]) > 0 && LeadingDigits(s[i..]) % 3 == 0
  }

  /** `body.replace(/\B(?=(\d{3})+(?!\d))/g, ".")`, from index `i` on. */
  function DotsFrom(s: string, i: nat): string
    requires i <= |s|
    decreases |s| - i
  {
    if i == |s| then []
    else (if DotBefore(s, i) then "." else "") + [s[i]] + DotsFrom(s, i + 1)
  }

  function Dots(s: string): string {
    DotsFrom(s, 0)
  }

  /** `formatRut`: the body with its dots, a dash, then the check character. */
  function FormatRut(s: string): (r: string)
    ensures |CleanRut(s)| <= 1 ==> r == CleanRut(s)
    ensures |CleanRut(s)| > 1 ==> |r| >= 3 && r[|r| - 2..] == ['-', CleanRut(s)[|CleanRut(s)| - 1]]
  {
    var c := CleanRut(s);
    if |c| <= 1 then c else Dots(c[..|c| - 1]) + "-" + [c[|c| - 1]]
  }

  /** Removing the dots again gives back the body. */
  lemma {:induction false} CleanDotsFrom(s: string, i: nat)
    requires Clean(s) && i <= |s|
    ensures CleanRut(DotsFrom(s, i)) == s[i..]
    decreases |s| - i
  {
    if i < |s| {
      var dot := if DotBefore(s, i) then "." else "";
      CleanRutConcat(dot + [s[i]], DotsFrom(s, i + 1));
      CleanRutConcat(dot, [s[i]]);
      assert CleanRut(dot) == [];
      assert CleanRut([s[i]]) == [s[i]];
      CleanDotsFrom(s, i + 1);
      assert s[i..] == [s[i]] + s[i + 1..];
    }
  }

  /** Formatting only adds punctuation: cleaning a formatted RUT gives the cleaned input. */
  lemma CleanOfFormat(s: string)
    ensures CleanRut(FormatRut(s)) == CleanRut(s)
  {
    var c := CleanRut(s);
    if |c| > 1 {
      var body := c[..|c| - 1];
      CleanDotsFrom(body, 0);
      CleanRutConcat(Dots(body) + "-", [c[|c| - 1]]);
      CleanRutConcat(Dots(body), "-");
      assert CleanRut("-") == [];
      CleanRutOfClean([c[|c| - 1]]);
      assert body + [c[|c| - 1]] == c;
    } else {
      CleanRutOfClean(c);
    }
  }

  /** `formatRut` is idempotent. */
  lemma FormatIdempotent(s: string)
    ensures FormatRut(FormatRut(s)) == FormatRut(s)
  {
    CleanOfFormat(s);
  }

  /** The reference grouping: thousands separated by dots, counted from the right. */
  function Group3(s: string): string
    decreases |s|
  {
    if |s| <= 3 then s else Group3(s[..|s| - 3]) + "." + s[|s| - 3..]
  }

  lemma {:induction false} DigitsDotBefore(s: string, i: nat)
    requires OnlyDigits(s) && i < |s|
    ensures DotBefore(s, i) <==> 0 < i && (|s| - i) % 3 == 0
  {
    LeadingDigitsOfDigits(s[i..]);
  }

  lemma {:induction false} ShortNoDots(s: string, i: nat)
    requires OnlyDigits(s) && |s| <= 3 && i <= |s|
    ensures DotsFrom(s, i) == s[i..]
    decreases |s| - i
  {
    if i < |s| {
      DigitsDotBefore(s, i);
      ShortNoDots(s, i + 1);
      assert s[i..] == [s[i]] + s[i + 1..];
    }
  }

  lemma LastThree(s: string, i: nat)
    requires OnlyDigits(s) && 1 <= i && i + 3 == |s|
    ensures DotsFrom(s, i) == "." + s[i..]
  {
    DigitsDotBefore(s, i);
    DigitsDotBefore(s, i + 1);
    DigitsDotBefore(s, i + 2);
    assert DotsFrom(s, i + 2) == [s[i + 2]];
    assert DotsFrom(s, i + 1) == [s[i + 1], s[i + 2]];
  }

  /** Appending three digits appends a dot and those digits. */
  lemma {:induction false} DotsAppend3(a: string, b: string, i: nat)
    requires OnlyDigits(a) && OnlyDigits(a + b) && |a| >= 1 && |b| == 3 && i <= |a|
    ensures DotsFrom(a + b, i) == DotsFrom(a, i) + "." + b
    decreases |a| - i
  {
    var s := a + b;
    if i < |a| {
      DigitsDotBefore(s, i);
      DigitsDotBefore(a, i);
      assert DotBefore(s, i) == DotBefore(a, i);
      assert s[i] == a[i];
      DotsAppend3(a, b, i + 1);
    } else {
      LastThree(s, i);
      assert s[i..] == b;
    }
  }

  /** For an all-digit body the regex puts a dot every three digits from the right. */
  lemma {:induction false} DotsAreThousands(s: string)
    requires OnlyDigits(s)
    ensures Dots(s) == Group3(s)
    decreases |s|
  {
    if |s| <= 3 {
      ShortNoDots(s, 0);
    } else {
      var a := s[..|s| - 3];
      var b := s[|s| - 3..];
      assert a + b == s;
      assert OnlyDigits(a) by { forall j | 0 <= j < |a| ensures IsDigit(a[j]) { assert a[j] == s[j]; } }
      DotsAppend3(a, b, 0);
      DotsAreThousands(a);
    }
  }

  /** The weight of the `k`-th body digit counted from the right: 2, 3, 4, 5, 6, 7, 2, ... */
  function Weight(k: nat): (r: nat)
    ensures 2 <= r <= 7
  {
    2 + k % 6
  }

  /**
   * The weighted sum of the last `m` characters of `s`, or `None` (NaN)
   * when one of them is not a digit.
   */
  function Partial(s: string, m: nat): (r: Option<nat>)
    requires m <= |s|
  {
    if m == 0 then Some(0)
    else match Partial(s, m - 1)
      case None => None
      case Some(p) => if IsDigit(s[|s| - m]) then Some(p + DigitValue(s[|s| - m]) * Weight(m - 1)) else None
  }

  /** The sum is a number exactly when the last `m` characters are digits. */
  lemma {:induction false} PartialDefined(s: string, m: nat)
    requires m <= |s|
    ensures Partial(s, m).Some? <==> OnlyDigits(s[|s| - m..])
    decreases m
  {
    if m > 0 {
      PartialDefined(s, m - 1);
      assert s[|s| - m..] == [s[|s| - m]] + s[|s| - (m - 1)..];
    }
  }

  /** The check character the modulo-11 rule expects for a weighted sum. */
  function ExpectedDv(suma: nat): (c: char)
    ensures c == 'K' || IsDigit(c)
    ensures c == '0' <==> suma % 11 == 0
    ensures c == 'K' <==> suma % 11 == 1
    ensures c != '0' && c != 'K' ==> DigitValue(c) == 11 - suma % 11
  {
    var resto := 11 - suma % 11;
    if resto == 11 then '0' else if resto == 10 then 'K' else DigitChar(resto)
  }

  /** The rule `validarRut` decides, stated on the cleaned RUT. */
  predicate IsValidRut(s: string) {
    var c := CleanRut(s);
    |c| >= 8 && Partial(c[..|c| - 1], |c| - 1).Some? && ExpectedDv(Partial(c[..|c| - 1], |c| - 1).value) == c[|c| - 1]
  }

  /**
   * `validarRut`: the loop from the rightmost body digit to the first. A
   * `K` inside the body makes `parseInt` give NaN, which poisons the sum
   * (`suma` is `None` from then on) and no check character matches.
   */
  method ValidarRut(rut: string) returns (ok: bool)
    ensures ok == IsValidRut(rut)
    ensures |CleanRut(rut)| < 8 ==> !ok
  {
    var c := CleanRut(rut);
    if |c| < 8 {
      return false;
    }
    var cuerpo := c[..|c| - 1];
    var dv := c[|c| - 1];
    var suma: Option<nat> := Some(0);
    var multiplicador := 2;
    var i := |cuerpo| - 1;
    while i >= 0
      invariant -1 <= i < |cuerpo|
      invariant multiplicador == Weight(|cuerpo| - 1 - i)
      invariant suma == Partial(cuerpo, |cuerpo| - 1 - i)
      decreases i
    {
      PartialStep(cuerpo, i);
      if IsDigit(cuerpo[i]) && suma.Some? {
        suma := Some(suma.value + DigitValue(cuerpo[i]) * multiplicador);
      } else {
        suma := None;
      }
      WeightStep(|cuerpo| - 1 - i);
      multiplicador := if multiplicador < 7 then multiplicador + 1 else 2;
      i := i - 1;
    }
    ok := suma.Some? && ExpectedDv(suma.value) == dv;
  }

  lemma WeightStep(k: nat)
    ensures Weight(k + 1) == if Weight(k) < 7 then Weight(k) + 1 else 2
  {
  }

  /** One more character to the left: the rule of the loop body. */
  lemma PartialStep(s: string, i: nat)
    requires i < |s|
    ensures Partial(s, |s| - i) ==
              if IsDigit(s[i]) && Partial(s, |s| - 1 - i).Some?
              then Some(Partial(s, |s| - 1 - i).value + DigitValue(s[i]) * Weight(|s| - 1 - i))
              else None
  {
    assert |s| - (|s| - i) == i;
  }

  /** A body with a non-digit never validates. */
  lemma NonDigitBodyInvalid(s: string)
    requires |CleanRut(s)| >= 8 && !OnlyDigits(CleanRut(s)[..|CleanRut(s)| - 1])
    ensures !IsValidRut(s)
  {
    var c := CleanRut(s);
    PartialDefined(c[..|c| - 1], |c| - 1);
    assert c[..|c| - 1][0..] == c[..|c| - 1];
  }

  /** Validity survives formatting, since validation cleans first. */
  lemma ValidOfFormat(s: string)
    ensures IsValidRut(FormatRut(s)) == IsValidRut(s)
  {
    CleanOfFormat(s);
  }

  /** The form's flag after each keystroke: an empty field counts as valid. */
  function RutFieldValid(input: string): (ok: bool)
    ensures CleanRut(input) == [] ==> ok
    ensures CleanRut(input) != [] ==> (ok <==> IsValidRut(input))
  {
    var formatted := FormatRut(input);
    ValidOfFormat(input);
    formatted == [] || IsValidRut(formatted)
  }
}

=== FILE: sorting.dfy ===
/**
 * Ordering used by the SQL `ORDER BY` clauses and by the dashboard's chart
 * sort: an insertion sort over any total, transitive "comes no later
 * than" relation, and the code-point lexicographic order on strings.
 */
module Sorting {
  import opened Js

  ghost predicate Total<T(!new)>(le: (T, T) -> bool) {
    forall a, b :: le(a, b) || le(b, a)
  }

  ghost predicate Transitive<T(!new)>(le: (T, T) -> bool) {
    forall a, b, c :: le(a, b) && le(b, c) ==> le(a, c)
  }

  predicate SortedBy<T>(s: seq<T>, le: (T, T) -> bool) {
    forall i, j :: 0 <= i < j < |s| ==> le(s[i], s[j])
  }

  function InsertBy<T(!new)>(x: T, s: seq<T>, le: (T, T) -> bool): (r: seq<T>)
    requires Total(le) && Transitive(le)
    requires SortedBy(s, le)
    ensures multiset(r) == multiset(s) + multiset{x}
    ensures SortedBy(r, le)
  {
    if s == [] || le(x, s[0]) then
      [x] + s
    else
      var rest := InsertBy(x, s[1..], le);
      assert s == [s[0]] + s[1..];
      assert le(s[0], x);
      assert forall e :: e in rest ==> e in multiset(s[1..]) + multiset{x};
      assert forall e :: e in rest ==> le(s[0], e);
      var r := [s[0]] + rest;
      assert forall j :: 0 < j < |r| ==> r[j] == rest[j - 1] && r[j] in rest;
      r
  }

  /** The rows of `s` rearranged so that `le` holds between every earlier and later one. */
  function SortBy<T(!new)>(s: seq<T>, le: (T, T) -> bool): (r: seq<T>)
    requires Total(le) && Transitive(le)
    ensures multiset(r) == multiset(s)
    ensures |r| == |s|
    ensures SortedBy(r, le)
  {
    if s == [] then []
    else
      assert s == [s[0]] + s[1..];
      InsertBy(s[0], SortBy(s[1..], le), le)
  }

  /** Code-point lexicographic order, the order of a byte-wise collation. */
  predicate LexLe(a: string, b: string)
    decreases |a|
  {
    a == [] || (b != [] && (a[0] < b[0] || (a[0] == b[0] && LexLe(a[1..], b[1..]))))
  }

  lemma {:induction false} LexLeTotal(a: string, b: string)
    ensures LexLe(a, b) || LexLe(b, a)
    decreases |a|
  {
    if a != [] && b != [] && a[0] == b[0] {
      LexLeTotal(a[1..], b[1..]);
    }
  }

  lemma {:induction false} LexLeTransitive(a: string, b: string, c: string)
    requires LexLe(a, b) && LexLe(b, c)
    ensures LexLe(a, c)
    decreases |a|
  {
    if a != [] && b != [] && c != [] && a[0] == b[0] && b[0] == c[0] {
      LexLeTransitive(a[1..], b[1..], c[1..]);
    }
  }

  /** `ORDER BY col ASC` on a nullable text column: NULLs come last. */
  predicate NullsLastLe(a: Option<string>, b: Option<string>) {
    match (a, b)
    case (_, None) => true
    case (None, Some(_)) => false
    case (Some(x), Some(y)) => LexLe(x, y)
  }
}

=== FILE: store.dfy ===
/**
 * The relational store the route handlers read and write, and the
 * transaction protocol (BEGIN, statements, COMMIT or ROLLBACK) of the
 * multi-statement handlers. Tables with a serial id are `Table` rows; the
 * item tables are plain sequences of rows in insertion order.
 */
module Store {
  import opened Js
  import opened Text
  import opened Table

  /** An HTTP answer: a status with a JSON body, or a status with `{ message }`. */
  datatype Reply<T> = Ok(status: nat, body: T) | Fail(status: nat, message: string)

  /** What a read query gives back: it failed, or it returned these rows. */
  datatype QueryResult<T> = QueryError | Rows(rows: seq<T>)

  /**
   * How the database reads a text parameter bound to an integer column:
   * surrounding white space, an optional sign, then at least one digit.
   * `None` is the "invalid input syntax for type integer" error.
   */
  function ParseIntText(s: string): (r: Option<int>)
    ensures OnlyDigits(Trim(s)) && Trim(s) != [] ==> r == Some(DecimalValue(Trim(s)))
    ensures r.Some? ==> Trim(s) != []
  {
    var t := Trim(s);
    if t == [] then None
    else if OnlyDigits(t) then Some(DecimalValue(t))
    else if (t[0] == '+' || t[0] == '-') && |t| > 1 && OnlyDigits(t[1..]) then
      Some(if t[0] == '-' then 0 - DecimalValue(t[1..]) as int else DecimalValue(t[1..]))
    else None
  }

  /** A JSON value bound to an integer column: numbers as they are, text parsed, anything else an error. */
  function ParamInt(v: JValue): (r: Option<int>)
    ensures v.JNum? ==> r == Some(v.n)
    ensures v.JNull? || v.JUndefined? || v.JBool? || v.JObject? ==> r.None?
  {
    match v
    case JNum(n) => Some(n)
    case JStr(s) => ParseIntText(s)
    case _ => None
  }

  datatype Vehiculo = Vehiculo(numeroInterno: string, patente: string, kilometro: int)

  datatype Usuario = Usuario(
    username: string,
    nombre: Option<string>,
    correo: Option<string>,
    rut: Option<string>,
    direccion: Option<string>,
    telefono: Option<string>,
    licencia: Option<string>,
    departamento: Option<string>,
    rol: Option<string>,
    passwordHash: string,
    activo: bool)

  datatype Inspeccion = Inspeccion(
    usuarioId: nat,
    vehiculoId: nat,
    observacion: string,
    estado: string,
    foto: Option<string>)

  datatype InspItem = InspItem(inspeccionId: nat, itemKey: string, existe: string, estado: string, obs: string)

  datatype Mantencion = Mantencion(
    vehiculoId: Option<int>,
    usuarioId: Option<int>,
    tipo: Option<string>,
    observacion: string,
    costo: int)

  datatype MantItem = MantItem(mantencionId: int, item: Option<string>, tipo: string, cantidad: int, costoUnitario: int)

  datatype Db = Db(
    vehiculos: seq<Row<Vehiculo>>,
    usuarios: seq<Row<Usuario>>,
    inspecciones: seq<Row<Inspeccion>>,
    inspItems: seq<InspItem>,
    mantenciones: seq<Row<Mantencion>>,
    mantItems: seq<MantItem>)

  /** The statements issued inside the handlers' transactions. */
  datatype Write =
    | InsertInspeccion(id: nat, insp: Inspeccion)
    | InsertInspItem(item: InspItem)
    | InsertMantencion(mid: nat, mant: Mantencion)
    | UpdateMantencion(uid: int, upd: Mantencion)
    | DeleteMantItems(mantencionId: int)
    | InsertMantItems(rows: seq<MantItem>)

  function ItemsOf(items: seq<InspItem>, inspeccionId: nat): (r: seq<InspItem>)
    ensures forall i :: 0 <= i < |r| ==> r[i].inspeccionId == inspeccionId && r[i] in items
    ensures |r| <= |items|
  {
    if items == [] then []
    else (if items[0].inspeccionId == inspeccionId then [items[0]] else []) + ItemsOf(items[1..], inspeccionId)
  }

  function MantItemsOf(items: seq<MantItem>, mantencionId: int): (r: seq<MantItem>)
    ensures forall i :: 0 <= i < |r| ==> r[i].mantencionId == mantencionId && r[i] in items
    ensures |r| <= |items|
  {
    if items == [] then []
    else (if items[0].mantencionId == mantencionId then [items[0]] else []) + MantItemsOf(items[1..], mantencionId)
  }

  function DropMantItems(items: seq<MantItem>, mantencionId: int): (r: seq<MantItem>)
    ensures forall i :: 0 <= i < |r| ==> r[i].mantencionId != mantencionId && r[i] in items
    ensures |r| <= |items|
  {
    if items == [] then []
    else (if items[0].mantencionId != mantencionId then [items[0]] else []) + DropMantItems(items[1..], mantencionId)
  }

  lemma {:induction false} MantItemsOfAppend(a: seq<MantItem>, b: seq<MantItem>, m: int)
    ensures MantItemsOf(a + b, m) == MantItemsOf(a, m) + MantItemsOf(b, m)
  {
    if a != [] {
      var head := if a[0].mantencionId == m then [a[0]] else [];
      assert (a + b)[0] == a[0];
      assert (a + b)[1..] == a[1..] + b;
      assert MantItemsOf(a + b, m) == head + MantItemsOf(a[1..] + b, m);
      MantItemsOfAppend(a[1..], b, m);
      assert MantItemsOf(a, m) == head + MantItemsOf(a[1..], m);
    } else {
      assert a + b == b;
    }
  }

  /** Dropping one record's items leaves every other record's items, in order, untouched. */
  lemma {:induction false} DropKeepsOthers(items: seq<MantItem>, gone: int, m: int)
    requires m != gone
    ensures MantItemsOf(DropMantItems(items, gone), m) == MantItemsOf(items, m)
    ensures MantItemsOf(DropMantItems(items, gone), gone) == []
  {
    if items != [] {
      var head := if items[0].mantencionId != gone then [items[0]] else [];
      MantItemsOfAppend(head, DropMantItems(items[1..], gone), m);
      MantItemsOfAppend(head, DropMantItems(items[1..], gone), gone);
      DropKeepsOthers(items[1..], gone, m);
    }
  }

  /**
   * One statement against the store; `None` when the database rejects it: a
   * duplicate primary key, or a foreign key to a missing user, vehicle or
   * inspection.
   */
  function Apply(db: Db, w: Write): (r: Option<Db>)
    ensures w.InsertInspItem? ==> (r.Some? <==> Has(db.inspecciones, w.item.inspeccionId))
    ensures w.InsertInspeccion? ==>
              (r.Some? <==> !Has(db.inspecciones, w.id) && Has(db.usuarios, w.insp.usuarioId)
                            && Has(db.vehiculos, w.insp.vehiculoId))
    ensures w.UpdateMantencion? || w.DeleteMantItems? || w.InsertMantItems? ==> r.Some?
  {
    match w
    case InsertInspeccion(id, insp) =>
      if Has(db.inspecciones, id) || !Has(db.usuarios, insp.usuarioId) || !Has(db.vehiculos, insp.vehiculoId) then None
      else Some(db.(inspecciones := Insert(db.inspecciones, id, insp)))
    case InsertInspItem(item) =>
      if !Has(db.inspecciones, item.inspeccionId) then None
      else Some(db.(inspItems := db.inspItems + [item]))
    case InsertMantencion(id, m) =>
      if Has(db.mantenciones, id) then None
      else Some(db.(mantenciones := Insert(db.mantenciones, id, m)))
    case UpdateMantencion(id, m) =>
      Some(if id < 0 then db else db.(mantenciones := Put(db.mantenciones, id, m)))
    case DeleteMantItems(id) =>
      Some(db.(mantItems := DropMantItems(db.mantItems, id)))
    case InsertMantItems(rows) =>
      Some(db.(mantItems := db.mantItems + rows))
  }

  /** The statements applied one after another; `None` as soon as one is rejected. */
  function ApplyAll(db: Db, ws: seq<Write>): Option<Db>
    decreases |ws|
  {
    if ws == [] then Some(db)
    else match Apply(db, ws[0])
      case None => None
      case Some(db') => ApplyAll(db', ws[1..])
  }

  datatype TxResult = Committed(db: Db) | RolledBack(failedAt: nat)

  /** None of the first `n` statements hits a fault. */
  predicate NoFaultBelow(n: nat, faults: set<nat>) {
    forall k :: 0 <= k < n ==> k !in faults
  }

  /**
   * BEGIN, the statements in order on a working copy, then COMMIT; the first
   * statement that the database rejects, or whose index is in `faults` (an
   * error the model does not explain: a lost connection, a type error), ends
   * the transaction with ROLLBACK and nothing of the working copy survives.
   */
  function RunTx(db: Db, ws: seq<Write>, faults: set<nat>): (r: TxResult)
    ensures r.Committed? <==> NoFaultBelow(|ws|, faults) && ApplyAll(db, ws).Some?
    ensures r.Committed? ==> r.db == ApplyAll(db, ws).value
    ensures r.RolledBack? ==> r.failedAt < |ws|
  {
    RunFrom(db, ws, 0, faults)
  }

  function RunFrom(work: Db, ws: seq<Write>, k: nat, faults: set<nat>): (r: TxResult)
    ensures r.Committed? <==> (forall j :: k <= j < k + |ws| ==> j !in faults) && ApplyAll(work, ws).Some?
    ensures r.Committed? ==> r.db == ApplyAll(work, ws).value
    ensures r.RolledBack? ==> k <= r.failedAt < k + |ws|
    decreases |ws|
  {
    if ws == [] then Committed(work)
    else if k in faults then RolledBack(k)
    else match Apply(work, ws[0])
      case None => RolledBack(k)
      case Some(work') => RunFrom(work', ws[1..], k + 1, faults)
  }

  lemma ApplyAllOne(db: Db, w: Write)
    ensures ApplyAll(db, [w]) == Apply(db, w)
  {
    assert [w][0] == w && [w][1..] == [];
  }

  /** Appending statements: the longer batch succeeds exactly when both parts do, in turn. */
  lemma {:induction false} ApplyAllAppend(db: Db, a: seq<Write>, b: seq<Write>)
    ensures ApplyAll(db, a + b) == match ApplyAll(db, a)
                                   case None => None
                                   case Some(d) => ApplyAll(d, b)
    decreases |a|
  {
    if a == [] {
      assert a + b == b;
    } else {
      assert (a + b)[0] == a[0];
      assert (a + b)[1..] == a[1..] + b;
      match Apply(db, a[0])
      case None =>
      case Some(d) => ApplyAllAppend(d, a[1..], b);
    }
  }
}

=== FILE: table.dfy ===
/**
 * A database table as the route handlers see it: rows with a serial `id`
 * column, looked up, inserted, updated and deleted by id. `Get` is the
 * map view of the table; every operation is specified through it.
 */
module Table {
  import opened Js
  import Sorting

  datatype Row<T> = Row(id: nat, val: T)

  predicate UniqueIds<T>(t: seq<Row<T>>) {
    forall i, j :: 0 <= i < j < |t| ==> t[i].id != t[j].id
  }

  /** `SELECT ... WHERE id = $1`: the row with that id, if any. */
  function Get<T>(t: seq<Row<T>>, id: nat): (r: Option<T>)
    ensures r.None? <==> forall i :: 0 <= i < |t| ==> t[i].id != id
    ensures r.Some? ==> exists i :: 0 <= i < |t| && t[i] == Row(id, r.value)
  {
    if t == [] then None
    else if t[0].id == id then Some(t[0].val)
    else Get(t[1..], id)
  }

  predicate Has<T>(t: seq<Row<T>>, id: nat) {
    Get(t, id).Some?
  }

  lemma {:induction false} GetOfAppend<T>(t: seq<Row<T>>, row: Row<T>, id: nat)
    ensures Get(t + [row], id) == if Has(t, id) then Get(t, id)
                                 else if row.id == id then Some(row.val) else None
  {
    if t != [] {
      assert (t + [row])[1..] == t[1..] + [row];
      GetOfAppend(t[1..], row, id);
    } else {
      assert (t + [row])[1..] == [];
    }
  }

  /** `INSERT ... RETURNING id` with a fresh serial id. */
  function Insert<T>(t: seq<Row<T>>, id: nat, v: T): (r: seq<Row<T>>)
    requires !Has(t, id)
    ensures Get(r, id) == Some(v)
    ensures forall k :: k != id ==> Get(r, k) == Get(t, k)
    ensures UniqueIds(t) ==> UniqueIds(r)
    ensures |r| == |t| + 1
  {
    var r := t + [Row(id, v)];
    forall k
      ensures Get(r, k) == if k == id then Some(v) else Get(t, k)
    {
      GetOfAppend(t, Row(id, v), k);
    }
    r
  }

  /** `UPDATE ... WHERE id = $n`: the row with that id gets value `v`; no row is added. */
  function Put<T>(t: seq<Row<T>>, id: nat, v: T): (r: seq<Row<T>>)
    ensures |r| == |t|
    ensures forall i :: 0 <= i < |t| ==> r[i].id == t[i].id
    ensures Has(t, id) ==> Get(r, id) == Some(v)
    ensures !Has(t, id) ==> r == t
    ensures forall k :: k != id ==> Get(r, k) == Get(t, k)
  {
    if t == [] then []
    else [if t[0].id == id then Row(id, v) else t[0]] + Put(t[1..], id, v)
  }

  /** Writing the same value twice is writing it once. */
  lemma {:induction false} PutTwice<T>(t: seq<Row<T>>, id: nat, v: T)
    ensures Put(Put(t, id, v), id, v) == Put(t, id, v)
  {
    if t != [] {
      PutTwice(t[1..], id, v);
      assert Put(t, id, v)[1..] == Put(t[1..], id, v);
    }
  }

  lemma PutKeepsUnique<T>(t: seq<Row<T>>, id: nat, v: T)
    requires UniqueIds(t)
    ensures UniqueIds(Put(t, id, v))
  {
  }

  /** `DELETE ... WHERE id = $1`. */
  function Remove<T>(t: seq<Row<T>>, id: nat): (r: seq<Row<T>>)
    ensures !Has(r, id)
    ensures forall k :: k != id ==> Get(r, k) == Get(t, k)
    ensures |r| <= |t|
    ensures forall i :: 0 <= i < |r| ==> exists j :: 0 <= j < |t| && t[j] == r[i]
  {
    if t == [] then []
    else if t[0].id == id then Remove(t[1..], id)
    else [t[0]] + Remove(t[1..], id)
  }

  /** Deleting an id the table does not hold changes nothing. */
  lemma {:induction false} RemoveAbsent<T>(t: seq<Row<T>>, id: nat)
    requires !Has(t, id)
    ensures Remove(t, id) == t
  {
    if t != [] {
      RemoveAbsent(t[1..], id);
    }
  }

  /** Deleting the row just inserted gives back the table as it was. */
  lemma {:induction false} RemoveInserted<T>(t: seq<Row<T>>, id: nat, v: T)
    requires !Has(t, id)
    ensures Remove(Insert(t, id, v), id) == t
  {
    if t == [] {
      assert Insert(t, id, v) == [Row(id, v)];
      assert Remove([Row(id, v)], id) == Remove([Row(id, v)][1..], id);
    } else {
      assert Insert(t, id, v) == [t[0]] + Insert(t[1..], id, v);
      assert Insert(t, id, v)[1..] == Insert(t[1..], id, v);
      RemoveInserted(t[1..], id, v);
    }
  }

  /** Writing back the value a row just got inserted with changes nothing. */
  lemma {:induction false} PutInserted<T>(t: seq<Row<T>>, id: nat, v: T)
    requires !Has(t, id)
    ensures Put(Insert(t, id, v), id, v) == Insert(t, id, v)
  {
    if t == [] {
      assert Insert(t, id, v) == [Row(id, v)];
    } else {
      assert Insert(t, id, v) == [t[0]] + Insert(t[1..], id, v);
      assert Insert(t, id, v)[1..] == Insert(t[1..], id, v);
      PutInserted(t[1..], id, v);
    }
  }

  /** Two sequences with the same multiset have the same elements. */
  lemma SameElements<T(!new)>(s: seq<T>, f: seq<T>)
    requires multiset(s) == multiset(f)
    ensures forall x :: x in s <==> x in f
  {
    forall x ensures x in s <==> x in f {
      assert x in s <==> x in multiset(s);
      assert x in f <==> x in multiset(f);
    }
  }

  /** The rows of the table, highest id first (`ORDER BY id DESC`). */
  function ByIdDesc<T(!new)>(t: seq<Row<T>>): (r: seq<Row<T>>)
    ensures multiset(r) == multiset(t)
    ensures forall x :: x in r <==> x in t
    ensures forall i, j :: 0 <= i < j < |r| ==> r[i].id >= r[j].id
  {
    var le := (a: Row<T>, b: Row<T>) => a.id >= b.id;
    var s := Sorting.SortBy(t, le);
    SameElements(s, t);
    s
  }
}

=== FILE: text.dfy ===
/**
 * String helpers with the meaning JavaScript gives them on ASCII text:
 * `toLowerCase`, `toUpperCase`, `trim`, `includes`, `startsWith`, and decimal
 * digit handling. Case mapping outside A-Z/a-z and Unicode white space beyond
 * the ASCII control set are not modelled.
 */
module Text {

  predicate IsUpper(c: char) { 'A' <= c <= 'Z' }
  predicate IsLower(c: char) { 'a' <= c <= 'z' }
  predicate IsDigit(c: char) { '0' <= c <= '9' }

  function LowerChar(c: char): (r: char)
    ensures !IsUpper(r)
    ensures IsUpper(c) ==> r as int == c as int + 32
    ensures !IsUpper(c) ==> r == c
  {
    if IsUpper(c) then (c as int + 32) as char else c
  }

  function UpperChar(c: char): (r: char)
    ensures !IsLower(r)
    ensures IsLower(c) ==> r as int == c as int - 32
    ensures !IsLower(c) ==> r == c
  {
    if IsLower(c) then (c as int - 32) as char else c
  }

  function ToLower(s: string): (r: string)
    ensures |r| == |s|
    ensures forall i :: 0 <= i < |s| ==> r[i] == LowerChar(s[i])
  {
    seq(|s|, i requires 0 <= i < |s| => LowerChar(s[i]))
  }

  function ToUpper(s: string): (r: string)
    ensures |r| == |s|
    ensures forall i :: 0 <= i < |s| ==> r[i] == UpperChar(s[i])
  {
    seq(|s|, i requires 0 <= i < |s| => UpperChar(s[i]))
  }

  lemma LowerIdempotent(s: string)
    ensures ToLower(ToLower(s)) == ToLower(s)
  {
  }

  lemma UpperIdempotent(s: string)
    ensures ToUpper(ToUpper(s)) == ToUpper(s)
  {
  }

  /** Lower-casing forgets an earlier upper-casing. */
  lemma LowerOfUpper(s: string)
    ensures ToLower(ToUpper(s)) == ToLower(s)
  {
  }

  lemma LowerOfConcat(a: string, b: string)
    ensures ToLower(a + b) == ToLower(a) + ToLower(b)
  {
  }

  lemma UpperOfConcat(a: string, b: string)
    ensures ToUpper(a + b) == ToUpper(a) + ToUpper(b)
  {
  }

  /** The characters `String.prototype.trim` removes, restricted to ASCII. */
  predicate IsSpace(c: char) {
    c == ' ' || c == '\t' || c == '\n' || c == '\r' || c == '\U{B}' || c == '\U{C}'
  }

  function TrimStart(s: string): (r: string)
    ensures |r| <= |s| && r == s[|s| - |r|..]
    ensures r == [] || !IsSpace(r[0])
    ensures forall i :: 0 <= i < |s| - |r| ==> IsSpace(s[i])
  {
    if s != [] && IsSpace(s[0]) then TrimStart(s[1..]) else s
  }

  function TrimEnd(s: string): (r: string)
    ensures |r| <= |s| && r == s[..|r|]
    ensures r == [] || !IsSpace(r[|r| - 1])
    ensures forall i :: |r| <= i < |s| ==> IsSpace(s[i])
  {
    if s != [] && IsSpace(s[|s| - 1]) then TrimEnd(s[..|s| - 1]) else s
  }

  /** `s.trim()`: the longest infix without leading or trailing white space. */
  function Trim(s: string): (r: string)
    ensures |r| <= |s|
    ensures r == [] || (!IsSpace(r[0]) && !IsSpace(r[|r| - 1]))
    ensures exists a, b :: 0 <= a <= b <= |s| && r == s[a..b] && SpaceOutside(s, a, b)
  {
    TrimInfix(s);
    TrimEnd(TrimStart(s))
  }

  /** Everything before `a` and from `b` on is white space. */
  predicate SpaceOutside(s: string, a: int, b: int) {
    (forall i :: 0 <= i < a && i < |s| ==> IsSpace(s[i]))
    && (forall i :: 0 <= b <= i < |s| ==> IsSpace(s[i]))
  }

  /** The trimmed string is an infix of the input, and what is cut off is white space. */
  lemma TrimInfix(s: string)
    ensures var r := TrimEnd(TrimStart(s));
            exists a, b :: 0 <= a <= b <= |s| && r == s[a..b] && SpaceOutside(s, a, b)
  {
    var t := TrimStart(s);
    var r := TrimEnd(t);
    CutsAreSpace(s, t, r);
    assert r == s[|s| - |t|..|s| - |t| + |r|];
  }

  /** A suffix `t` of `s` cut at white space, then a prefix `r` of `t` cut at white space. */
  lemma CutsAreSpace(s: string, t: string, r: string)
    requires |t| <= |s| && t == s[|s| - |t|..] && forall i :: 0 <= i < |s| - |t| ==> IsSpace(s[i])
    requires |r| <= |t| && r == t[..|r|] && forall i :: |r| <= i < |t| ==> IsSpace(t[i])
    ensures r == s[|s| - |t|..|s| - |t| + |r|] && SpaceOutside(s, |s| - |t|, |s| - |t| + |r|)
  {
    var a := |s| - |t|;
    assert s[a..][..|r|] == s[a..a + |r|];
    forall i | 0 <= a + |r| <= i < |s|
      ensures IsSpace(s[i])
    {
      assert s[i] == t[i - a];
    }
  }

  /** A string is blank exactly when it is made of white space only. */
  lemma BlankIffAllSpace(s: string)
    ensures Trim(s) == [] <==> forall i :: 0 <= i < |s| ==> IsSpace(s[i])
  {
    var t := TrimStart(s);
    if t != [] {
      assert TrimEnd(t)[0] == t[0];
      assert s[|s| - |t|] == t[0];
    }
  }

  /** No white space at either end. */
  predicate Trimmed(s: string) {
    s == [] || (!IsSpace(s[0]) && !IsSpace(s[|s| - 1]))
  }

  /** Trimming a trimmed string changes nothing; in particular `Trim` is idempotent. */
  lemma TrimOfTrimmed(s: string)
    requires Trimmed(s)
    ensures Trim(s) == s
  {
  }

  /** Upper-casing neither adds nor removes white space at the ends. */
  lemma UpperKeepsTrimmed(s: string)
    requires Trimmed(s)
    ensures Trimmed(ToUpper(s))
  {
  }

  /** Trimming leaves a string of digits as it is. */
  lemma TrimDigits(s: string)
    requires OnlyDigits(s)
    ensures Trim(s) == s
  {
  }

  /** `sub` occurs in `s` starting at index `i`. */
  predicate OccursAt(s: string, sub: string, i: int) {
    0 <= i && i + |sub| <= |s| && s[i..i + |sub|] == sub
  }

  /** `s.includes(sub)`. */
  predicate Includes(s: string, sub: string) {
    exists i :: 0 <= i <= |s| && OccursAt(s, sub, i)
  }

  /** A string contains whatever sits between its prefix and its suffix. */
  lemma IncludesMiddle(a: string, sub: string, b: string)
    ensures Includes(a + sub + b, sub)
  {
    assert (a + sub + b)[|a|..|a| + |sub|] == sub;
    assert OccursAt(a + sub + b, sub, |a|);
  }

  /** A string that lacks the first character of `sub` does not contain `sub`. */
  lemma NotIncludedWithoutHead(s: string, sub: string)
    requires sub != [] && sub[0] !in s
    ensures !Includes(s, sub)
  {
    forall i | 0 <= i <= |s|
      ensures !OccursAt(s, sub, i)
    {
      if i + |sub| <= |s| {
        assert s[i..i + |sub|][0] == s[i];
      }
    }
  }

  /** `s.startsWith(p)`. */
  predicate StartsWith(s: string, p: string) {
    |p| <= |s| && s[..|p|] == p
  }

  predicate OnlyDigits(s: string) {
    forall i :: 0 <= i < |s| ==> IsDigit(s[i])
  }

  function DigitValue(c: char): (r: nat)
    requires IsDigit(c)
    ensures r <= 9
  {
    c as int - '0' as int
  }

  /** The value of a string of decimal digits, most significant first; "" is 0. */
  function DecimalValue(s: string): nat
    requires OnlyDigits(s)
  {
    if s == [] then 0 else 10 * DecimalValue(s[..|s| - 1]) + DigitValue(s[|s| - 1])
  }

  /** `s.replace(/\D/g, "")`: the digit characters of `s`, in order. */
  function KeepDigits(s: string): (r: string)
    ensures OnlyDigits(r)
    ensures |r| <= |s|
  {
    if s == [] then []
    else (if IsDigit(s[0]) then [s[0]] else []) + KeepDigits(s[1..])
  }

  /** Keeping the digits of a string of digits keeps all of it. */
  lemma {:induction false} KeepDigitsOfDigits(s: string)
    ensures OnlyDigits(s) ==> KeepDigits(s) == s
    decreases |s|
  {
    if s != [] {
      KeepDigitsOfDigits(s[1..]);
    }
  }

  function DigitChar(d: nat): (c: char)
    requires d <= 9
    ensures IsDigit(c) && DigitValue(c) == d
  {
    ('0' as int + d) as char
  }

  /** `n.toString()` for a natural number. */
  function NatToString(n: nat): (r: string)
    ensures r != [] && OnlyDigits(r)
    ensures DecimalValue(r) == n
    decreases n
  {
    if n < 10 then [DigitChar(n)] else NatToString(n / 10) + [DigitChar(n % 10)]
  }
}

=== FILE: usuarios.dfy ===
/**
 * The user routes: create and update with their defaults, the separate
 * password change that stores only a hash, delete, and the two list
 * projections that never include the password hash.
 */
module Usuarios {
  import opened Js
  import opened Text
  import opened Table
  import opened Store
  import opened Sorting

  const MsgObligatorios := "Usuario y contraseña son obligatorios"
  const MsgPasswordRequerida := "Contraseña requerida"
  const MsgErrorCrear := "Error al crear usuario"
  const MsgErrorActualizar := "Error al actualizar usuario"
  const MsgErrorPassword := "Error al actualizar contraseña"
  const MsgErrorEliminar := "Error al eliminar usuario"
  const DefaultDepartamento := "Municipalidad"
  const DefaultRol := "Usuario"

  /** The request body; a field that is absent or null is `None`. */
  datatype UserBody = UserBody(
    username: Option<string>,
    nombre: Option<string>,
    correo: Option<string>,
    rut: Option<string>,
    direccion: Option<string>,
    telefono: Option<string>,
    licencia: Option<string>,
    departamento: Option<string>,
    rol: Option<string>,
    password: Option<string>,
    activo: JValue)

  /** A user as the list routes return it: every column except the password hash. */
  datatype UserView = UserView(
    id: nat,
    username: string,
    nombre: Option<string>,
    correo: Option<string>,
    rol: Option<string>,
    activo: bool,
    rut: Option<string>,
    direccion: Option<string>,
    telefono: Option<string>,
    licencia: Option<string>,
    departamento: Option<string>)

  function View(row: Row<Usuario>): UserView {
    var u := row.val;
    UserView(row.id, u.username, u.nombre, u.correo, u.rol, u.activo, u.rut, u.direccion, u.telefono, u.licencia, u.departamento)
  }

  /** What a client sees of a user does not depend on the stored hash. */
  lemma ViewIgnoresHash(row: Row<Usuario>, h: string)
    ensures View(Row(row.id, row.val.(passwordHash := h))) == View(row)
    ensures View(row).id == row.id && View(row).username == row.val.username
  {
  }

  predicate Present(v: Option<string>) {
    v.Some? && v.value != ""
  }

  /** The profile columns a create or an update writes, with their defaults. */
  function WithProfile(u: Usuario, body: UserBody): (r: Usuario)
    ensures r.username == u.username && r.passwordHash == u.passwordHash && r.activo == u.activo
    ensures r.nombre.Some? && r.correo.Some? && r.rut.Some? && r.direccion.Some?
            && r.telefono.Some? && r.licencia.Some? && r.departamento.Some? && r.rol.Some?
    ensures r.departamento == Some(if Present(body.departamento) then body.departamento.value else DefaultDepartamento)
    ensures r.rol == Some(if Present(body.rol) then body.rol.value else DefaultRol)
    ensures r.nombre == Some(if Present(body.nombre) then body.nombre.value else "")
    ensures r.correo == Some(if Present(body.correo) then body.correo.value else "")
    ensures r.rut == Some(if Present(body.rut) then body.rut.value else "")
    ensures r.direccion == Some(if Present(body.direccion) then body.direccion.value else "")
    ensures r.telefono == Some(if Present(body.telefono) then body.telefono.value else "")
    ensures r.licencia == Some(if Present(body.licencia) then body.licencia.value else "")
  {
    u.(nombre := Some(OrText(body.nombre, "")),
       correo := Some(OrText(body.correo, "")),
       rut := Some(OrText(body.rut, "")),
       direccion := Some(OrText(body.direccion, "")),
       telefono := Some(OrText(body.telefono, "")),
       licencia := Some(OrText(body.licencia, "")),
       departamento := Some(OrText(body.departamento, DefaultDepartamento)),
       rol := Some(OrText(body.rol, DefaultRol)))
  }

  /** Some user other than `except` already has this username (the column is unique). */
  predicate UsernameTaken(t: seq<Row<Usuario>>, name: string, except: int) {
    exists i :: 0 <= i < |t| && t[i].val.username == name && t[i].id != except
  }

  /** `POST /` with the next serial id; `hash` is the one-way password hash. */
  function Create(db: Db, body: UserBody, hash: string -> string, newId: nat): (r: (Db, Reply<nat>))
    requires !Has(db.usuarios, newId)
    ensures !Present(body.username) || !Present(body.password) ==> r == (db, Fail(400, MsgObligatorios))
    ensures r.1.status == 201 <==> Present(body.username) && Present(body.password)
                                   && !UsernameTaken(db.usuarios, body.username.value, -1)
    ensures r.1.status != 201 ==> r.0 == db && r.1.Fail? && r.1.status in {400, 500}
    ensures r.1.status == 201 ==>
              r.1 == Ok(201, newId)
              && r.0 == db.(usuarios := r.0.usuarios)
              && (forall k :: k != newId ==> Get(r.0.usuarios, k) == Get(db.usuarios, k))
              && Get(r.0.usuarios, newId).Some?
              && var u := Get(r.0.usuarios, newId).value;
                 u.username == body.username.value && u.passwordHash == hash(body.password.value) && u.activo
                 && u == WithProfile(u, body)
  {
    if !Present(body.username) || !Present(body.password) then (db, Fail(400, MsgObligatorios))
    else if UsernameTaken(db.usuarios, body.username.value, -1) then (db, Fail(500, MsgErrorCrear))
    else
      var blank := Usuario(body.username.value, None, None, None, None, None, None, None, None,
                           hash(body.password.value), true);
      var u := WithProfile(blank, body);
      (db.(usuarios := Insert(db.usuarios, newId, u)), Ok(201, newId))
  }

  /** `PUT /:id`: profile columns and the active flag; a missing id still answers `{ ok: true }`. */
  function Update(db: Db, idParam: string, body: UserBody): (r: (Db, Reply<bool>))
    ensures ParseIntText(idParam).None? ==> r == (db, Fail(500, MsgErrorActualizar))
    ensures ParseIntText(idParam).Some? ==> r.1 == Ok(200, true)
    ensures r.0 == db.(usuarios := r.0.usuarios)
    ensures r.1.Fail? ==> r.0 == db
    ensures r.1.Ok? ==> forall k :: k != ParseIntText(idParam).value ==> Get(r.0.usuarios, k) == Get(db.usuarios, k)
    ensures r.1.Ok? && ParseIntText(idParam).value >= 0 && Has(db.usuarios, ParseIntText(idParam).value) ==>
              Has(r.0.usuarios, ParseIntText(idParam).value)
    ensures r.1.Ok? && ParseIntText(idParam).value >= 0 && Has(db.usuarios, ParseIntText(idParam).value) ==>
              var old_ := Get(db.usuarios, ParseIntText(idParam).value).value;
              var new_ := Get(r.0.usuarios, ParseIntText(idParam).value).value;
              new_.username == old_.username && new_.passwordHash == old_.passwordHash
              && new_.activo == Truthy(body.activo) && new_ == WithProfile(new_, body)
  {
    match ParseIntText(idParam)
    case None => (db, Fail(500, MsgErrorActualizar))
    case Some(n) =>
      if n < 0 || !Has(db.usuarios, n) then (db, Ok(200, true))
      else
        var u := WithProfile(Get(db.usuarios, n).value, body).(activo := Truthy(body.activo));
        (db.(usuarios := Put(db.usuarios, n, u)), Ok(200, true))
  }

  /** `PUT /:id/password`: only the hash of that user changes. */
  function SetPassword(db: Db, idParam: string, password: Option<string>, hash: string -> string): (r: (Db, Reply<bool>))
    ensures !Present(password) ==> r == (db, Fail(400, MsgPasswordRequerida))
    ensures Present(password) && ParseIntText(idParam).None? ==> r == (db, Fail(500, MsgErrorPassword))
    ensures r.1.Ok? ==> r.1 == Ok(200, true)
    ensures r.1.Ok? <==> Present(password) && ParseIntText(idParam).Some?
    ensures r.0 == db.(usuarios := r.0.usuarios)
    ensures r.1.Fail? ==> r.0 == db
    ensures r.1.Ok? ==> forall k :: k != ParseIntText(idParam).value ==> Get(r.0.usuarios, k) == Get(db.usuarios, k)
    ensures r.1.Ok? && ParseIntText(idParam).value >= 0 && Has(db.usuarios, ParseIntText(idParam).value) ==>
              Has(r.0.usuarios, ParseIntText(idParam).value)
    ensures r.1.Ok? && ParseIntText(idParam).value >= 0 && Has(db.usuarios, ParseIntText(idParam).value) ==>
              Get(r.0.usuarios, ParseIntText(idParam).value).value
                == Get(db.usuarios, ParseIntText(idParam).value).value.(passwordHash := hash(password.value))
  {
    if !Present(password) then (db, Fail(400, MsgPasswordRequerida))
    else match ParseIntText(idParam)
      case None => (db, Fail(500, MsgErrorPassword))
      case Some(n) =>
        if n < 0 || !Has(db.usuarios, n) then (db, Ok(200, true))
        else
          var u := Get(db.usuarios, n).value.(passwordHash := hash(password.value));
          (db.(usuarios := Put(db.usuarios, n, u)), Ok(200, true))
  }

  /** Some inspection names user `id` (the inspection's foreign key then refuses the delete). */
  predicate Inspects(db: Db, id: int) {
    exists i :: 0 <= i < |db.inspecciones| && db.inspecciones[i].val.usuarioId == id
  }

  /** `DELETE /:id`: `{ ok: true }` whether or not the row existed. */
  function Delete(db: Db, idParam: string): (r: (Db, Reply<bool>))
    ensures ParseIntText(idParam).None? ==> r == (db, Fail(500, MsgErrorEliminar))
    ensures ParseIntText(idParam).Some? && Inspects(db, ParseIntText(idParam).value) ==> r == (db, Fail(500, MsgErrorEliminar))
    ensures r.1.Ok? <==> ParseIntText(idParam).Some? && !Inspects(db, ParseIntText(idParam).value)
    ensures r.1.Ok? ==> ParseIntText(idParam).value >= 0 ==> !Has(r.0.usuarios, ParseIntText(idParam).value)
    ensures r.1.Fail? ==> r.0 == db
    ensures r.0 == db.(usuarios := r.0.usuarios)
    ensures r.1.Ok? ==> forall k :: k != ParseIntText(idParam).value ==> Get(r.0.usuarios, k) == Get(db.usuarios, k)
  {
    match ParseIntText(idParam)
    case None => (db, Fail(500, MsgErrorEliminar))
    case Some(n) =>
      if Inspects(db, n) then (db, Fail(500, MsgErrorEliminar))
      else if n < 0 then (db, Ok(200, true))
      else (db.(usuarios := Remove(db.usuarios, n)), Ok(200, true))
  }

  /** Deleting a user just created, before any inspection names them, restores the store. */
  lemma CreateThenDelete(db: Db, body: UserBody, hash: string -> string, newId: nat)
    requires !Has(db.usuarios, newId) && !Inspects(db, newId)
    requires Create(db, body, hash, newId).1.status == 201
    ensures Delete(Create(db, body, hash, newId).0, NatToString(newId)) == (db, Ok(200, true))
  {
    var db1 := Create(db, body, hash, newId).0;
    var u := Get(db1.usuarios, newId).value;
    assert db1 == db.(usuarios := Insert(db.usuarios, newId, u));
    TrimDigits(NatToString(newId));
    assert ParseIntText(NatToString(newId)) == Some(newId);
    assert !Inspects(db1, newId);
    RemoveInserted(db.usuarios, newId, u);
  }

  /** Sending the same update twice leaves the store as the first one left it. */
  lemma UpdateIdempotent(db: Db, idParam: string, body: UserBody)
    ensures var once := Update(db, idParam, body);
            Update(once.0, idParam, body) == once
  {
    match ParseIntText(idParam)
    case None =>
    case Some(n) =>
      if n >= 0 && Has(db.usuarios, n) {
        var u := WithProfile(Get(db.usuarios, n).value, body).(activo := Truthy(body.activo));
        var db1 := db.(usuarios := Put(db.usuarios, n, u));
        assert Update(db, idParam, body) == (db1, Ok(200, true));
        assert Get(db1.usuarios, n) == Some(u);
        assert WithProfile(u, body).(activo := Truthy(body.activo)) == u;
        assert Update(db1, idParam, body) == (db1.(usuarios := Put(db1.usuarios, n, u)), Ok(200, true));
        PutTwice(db.usuarios, n, u);
      } else {
        assert Update(db, idParam, body) == (db, Ok(200, true));
      }
  }

  function Views(t: seq<Row<Usuario>>): (r: seq<UserView>)
    ensures |r| == |t|
    ensures forall i :: 0 <= i < |t| ==> r[i] == View(t[i])
  {
    seq(|t|, i requires 0 <= i < |t| => View(t[i]))
  }

  lemma ViewsAppend(a: seq<Row<Usuario>>, b: seq<Row<Usuario>>)
    ensures Views(a + b) == Views(a) + Views(b)
  {
  }

  /** Projecting two orderings of the same rows gives two orderings of the same views. */
  lemma {:induction false} ViewsPermute(s: seq<Row<Usuario>>, t: seq<Row<Usuario>>)
    requires multiset(s) == multiset(t)
    ensures multiset(Views(s)) == multiset(Views(t))
    decreases |s|
  {
    if s == [] {
      assert |t| == |multiset(t)| == 0;
    } else {
      var x := s[0];
      assert x in multiset(t);
      var j :| 0 <= j < |t| && t[j] == x;
      var rest := t[..j] + t[j + 1..];
      assert t == t[..j] + [x] + t[j + 1..];
      assert s == [x] + s[1..];
      calc {
        multiset(s[1..]);
        multiset(s) - multiset{x};
        multiset(t[..j]) + multiset{x} + multiset(t[j + 1..]) - multiset{x};
        multiset(rest);
      }
      ViewsPermute(s[1..], rest);
      ViewsAppend([x], s[1..]);
      ViewsAppend(t[..j] + [x], t[j + 1..]);
      ViewsAppend(t[..j], [x]);
      ViewsAppend(t[..j], t[j + 1..]);
    }
  }

  /** `GET /`: every user without the hash, highest id first. */
  function List(db: Db): (r: seq<UserView>)
    ensures |r| == |db.usuarios|
    ensures forall i, j :: 0 <= i < j < |r| ==> r[i].id >= r[j].id
    ensures forall i :: 0 <= i < |r| ==> exists j :: 0 <= j < |db.usuarios| && r[i] == View(db.usuarios[j])
    ensures multiset(r) == multiset(Views(db.usuarios))
  {
    var s := ByIdDesc(db.usuarios);
    ViewsPermute(s, db.usuarios);
    assert |s| == |db.usuarios| by { assert |multiset(s)| == |multiset(db.usuarios)|; }
    forall i | 0 <= i < |s| ensures exists j :: 0 <= j < |db.usuarios| && s[i] == db.usuarios[j] {
      assert s[i] in multiset(db.usuarios);
    }
    Views(s)
  }

  /** `LOWER(rol) = 'conductor' AND activo = 1`. */
  predicate ActiveDriver(u: Usuario) {
    u.rol.Some? && ToLower(u.rol.value) == "conductor" && u.activo
  }

  function ActiveDrivers(t: seq<Row<Usuario>>): (r: seq<Row<Usuario>>)
    ensures forall i :: 0 <= i < |r| ==> ActiveDriver(r[i].val) && r[i] in t
    ensures forall i :: 0 <= i < |t| && ActiveDriver(t[i].val) ==> t[i] in r
  {
    if t == [] then []
    else (if ActiveDriver(t[0].val) then [t[0]] else []) + ActiveDrivers(t[1..])
  }

  /** The filter keeps every copy of a matching row and no copy of any other row. */
  lemma {:induction false} ActiveDriversCount(t: seq<Row<Usuario>>, x: Row<Usuario>)
    ensures multiset(ActiveDrivers(t))[x] == if ActiveDriver(x.val) then multiset(t)[x] else 0
  {
    if t != [] {
      assert t == [t[0]] + t[1..];
      ActiveDriversCount(t[1..], x);
    }
  }

  /** `ORDER BY nombre ASC`: nulls last. */
  predicate ByNombre(a: Row<Usuario>, b: Row<Usuario>) {
    NullsLastLe(a.val.nombre, b.val.nombre)
  }

  lemma ByNombreIsOrder()
    ensures Total(ByNombre) && Transitive(ByNombre)
  {
    forall a: Row<Usuario>, b: Row<Usuario> ensures ByNombre(a, b) || ByNombre(b, a) {
      if a.val.nombre.Some? && b.val.nombre.Some? {
        LexLeTotal(a.val.nombre.value, b.val.nombre.value);
      }
    }
    forall a: Row<Usuario>, b: Row<Usuario>, c: Row<Usuario> | ByNombre(a, b) && ByNombre(b, c)
      ensures ByNombre(a, c)
    {
      if a.val.nombre.Some? && b.val.nombre.Some? && c.val.nombre.Some? {
        LexLeTransitive(a.val.nombre.value, b.val.nombre.value, c.val.nombre.value);
      }
    }
  }

  /** The rows `/conductores` returns, before projection. */
  function DriverRows(db: Db): (r: seq<Row<Usuario>>)
    ensures forall i :: 0 <= i < |r| ==> ActiveDriver(r[i].val) && r[i] in db.usuarios
    ensures forall i :: 0 <= i < |db.usuarios| && ActiveDriver(db.usuarios[i].val) ==> db.usuarios[i] in r
    ensures SortedBy(r, ByNombre)
    ensures multiset(r) == multiset(ActiveDrivers(db.usuarios))
  {
    ByNombreIsOrder();
    var f := ActiveDrivers(db.usuarios);
    var s := SortBy(f, ByNombre);
    SameElements(s, f);
    assert forall i :: 0 <= i < |s| ==> s[i] in f;
    s
  }

  /** `GET /conductores`: active drivers by name, without the hash. */
  function Conductores(db: Db): (r: seq<UserView>)
    ensures |r| == |DriverRows(db)|
    ensures forall i :: 0 <= i < |r| ==> r[i] == View(DriverRows(db)[i])
  {
    Views(DriverRows(db))
  }
}

=== FILE: usuariospage.dfy ===
/**
 * The save handler of the user management page: the checks that block a
 * request, in the order the page runs them, and the request it sends.
 */
module UsuariosPage {
  import opened Js
  import opened Text
  import opened Rut
  import opened Duplicados

  const AlertUsuario := "Debe ingresar un usuario"
  const AlertCorreo := "Debe ingresar un correo válido"
  const AlertRut := "El RUT ingresado no es válido"
  const AlertUsuarioRepetido := "El nombre de usuario ya está registrado"
  const AlertCorreoRepetido := "El correo ya está registrado"
  const AlertPassword := "Debe ingresar una contraseña para nuevo usuario"

  /** A user row as the page loaded it. */
  datatype Loaded = Loaded(id: nat, username: Option<string>, correo: Option<string>)

  /**
   * The form; `id` is `None` (null) for a new user. `correo` is `None` when
   * `editar` copied in a row whose correo column is null.
   */
  datatype Form = Form(id: Option<nat>, username: string, correo: Option<string>, rut: string, password: string)

  /**
   * What pressing save does: an alert and no request; a `TypeError` from
   * calling `trim` on a null correo (no alert, no request); or one request
   * whose RUT is formatted.
   */
  datatype Submit = Blocked(alert: string) | Crash | SendPut(id: nat, rut: string) | SendPost(rut: string)

  function Usernames(users: seq<Loaded>): (r: seq<Entry>)
    ensures |r| == |users|
    ensures forall i :: 0 <= i < |users| ==> r[i] == Entry(users[i].id, users[i].username)
  {
    seq(|users|, i requires 0 <= i < |users| => Entry(users[i].id, users[i].username))
  }

  function Correos(users: seq<Loaded>): (r: seq<Entry>)
    ensures |r| == |users|
    ensures forall i :: 0 <= i < |users| ==> r[i] == Entry(users[i].id, users[i].correo)
  {
    seq(|users|, i requires 0 <= i < |users| => Entry(users[i].id, users[i].correo))
  }

  /** `existeDuplicado`: false for an empty value, otherwise a case-blind clash with another record. */
  function ExisteDuplicado(entries: seq<Entry>, valor: string, idActual: Option<nat>): (r: bool)
    ensures valor == "" ==> !r
    ensures valor != "" ==> (r <==> exists i :: 0 <= i < |entries| && Clashes(entries[i], valor, idActual))
  {
    valor != "" && AnyClash(entries, valor, idActual)
  }

  /** Every check that must pass before the page sends anything. */
  predicate Passes(users: seq<Loaded>, f: Form) {
    Trim(f.username) != [] && f.correo.Some? && Trim(f.correo.value) != []
    && (f.rut == "" || IsValidRut(f.rut))
    && !ExisteDuplicado(Usernames(users), f.username, f.id)
    && !ExisteDuplicado(Correos(users), f.correo.value, f.id)
  }

  /** `handleSubmit`. An id of 0 is falsy, so such a form is treated as new. */
  function HandleSubmit(users: seq<Loaded>, f: Form): (r: Submit)
    ensures r.SendPut? || r.SendPost? <==> Passes(users, f) && ((f.id.Some? && f.id.value != 0) || f.password != "")
    ensures r.Crash? <==> Trim(f.username) != [] && f.correo.None?
    ensures Trim(f.username) == [] ==> r == Blocked(AlertUsuario)
    ensures Trim(f.username) != [] && f.correo.Some? && Trim(f.correo.value) == [] ==> r == Blocked(AlertCorreo)
    ensures (Trim(f.username) != [] && f.correo.Some? && Trim(f.correo.value) != []
             && f.rut != "" && !IsValidRut(f.rut)) ==> r == Blocked(AlertRut)
    ensures (Trim(f.username) != [] && f.correo.Some? && Trim(f.correo.value) != []
             && (f.rut == "" || IsValidRut(f.rut))
             && ExisteDuplicado(Usernames(users), f.username, f.id)) ==> r == Blocked(AlertUsuarioRepetido)
    ensures (Trim(f.username) != [] && f.correo.Some? && Trim(f.correo.value) != []
             && (f.rut == "" || IsValidRut(f.rut))
             && !ExisteDuplicado(Usernames(users), f.username, f.id)
             && ExisteDuplicado(Correos(users), f.correo.value, f.id)) ==> r == Blocked(AlertCorreoRepetido)
    ensures Passes(users, f) && (f.id.None? || f.id.value == 0) && f.password == "" ==> r == Blocked(AlertPassword)
    ensures r.SendPut? ==> f.id == Some(r.id) && r.id != 0
    ensures r.SendPost? ==> f.password != "" && (f.id.None? || f.id.value == 0)
    ensures r.SendPut? || r.SendPost? ==> r.rut == FormatRut(f.rut) && CleanRut(r.rut) == CleanRut(f.rut)
  {
    CleanOfFormat(f.rut);
    if Trim(f.username) == [] then Blocked(AlertUsuario)
    else if f.correo.None? then Crash
    else if Trim(f.correo.value) == [] then Blocked(AlertCorreo)
    else if f.rut != "" && !IsValidRut(f.rut) then Blocked(AlertRut)
    else if ExisteDuplicado(Usernames(users), f.username, f.id) then Blocked(AlertUsuarioRepetido)
    else if ExisteDuplicado(Correos(users), f.correo.value, f.id) then Blocked(AlertCorreoRepetido)
    else if f.id.Some? && f.id.value != 0 then SendPut(f.id.value, FormatRut(f.rut))
    else if f.password == "" then Blocked(AlertPassword)
    else SendPost(FormatRut(f.rut))
  }
}

=== FILE: vehiculos.dfy ===
/**
 * The vehicle routes: create and update normalise the two text fields and
 * default the odometer, update and delete answer 404 for an id with no
 * row, and delete is refused while an inspection refers to the vehicle.
 */
module Vehiculos {
  import opened Js
  import opened Text
  import opened Table
  import opened Store

  const MsgFaltantes := "Campos obligatorios faltantes"
  const MsgNoEncontrado := "Vehículo no encontrado"
  const MsgEnUso := "No se puede eliminar este vehículo porque está asociado a inspecciones."
  const MsgEliminado := "Vehículo eliminado correctamente"
  const MsgErrorCrear := "Error al crear vehículo"
  const MsgErrorActualizar := "Error al actualizar vehículo"
  const MsgErrorEliminar := "Error al eliminar vehículo"

  /** The request body; a text field that is absent or null is `None`. */
  datatype VehBody = VehBody(numeroInterno: Option<string>, patente: Option<string>, kilometro: JValue)

  /** Both text fields are present and not blank once trimmed. */
  predicate Complete(body: VehBody) {
    body.numeroInterno.Some? && Trim(body.numeroInterno.value) != []
    && body.patente.Some? && Trim(body.patente.value) != []
  }

  /** `kilometro || 0` bound to the integer column; `None` is a cast error. */
  function Kilometro(v: JValue): (r: Option<int>)
    ensures !Truthy(v) ==> r == Some(0)
    ensures v.JNum? ==> r == Some(v.n)
  {
    if !Truthy(v) then Some(0) else ParamInt(v)
  }

  /** The stored form of a vehicle: trimmed interno, trimmed and upper-cased plate, odometer or 0. */
  function Normalise(body: VehBody): (r: Option<Vehiculo>)
    requires Complete(body)
    ensures r.Some? <==> Kilometro(body.kilometro).Some?
    ensures r.Some? ==> r.value.numeroInterno == Trim(body.numeroInterno.value)
    ensures r.Some? ==> |r.value.patente| == |Trim(body.patente.value)|
                        && forall i :: 0 <= i < |r.value.patente| ==> r.value.patente[i] == UpperChar(Trim(body.patente.value)[i])
    ensures r.Some? ==> r.value.kilometro == Kilometro(body.kilometro).value
    ensures r.Some? ==> Trimmed(r.value.numeroInterno) && Trimmed(r.value.patente) && r.value.patente != []
  {
    match Kilometro(body.kilometro)
    case None => None
    case Some(km) =>
      UpperKeepsTrimmed(Trim(body.patente.value));
      Some(Vehiculo(Trim(body.numeroInterno.value), ToUpper(Trim(body.patente.value)), km))
  }

  /** Some vehicle other than `except` already has plate `p` (the plate column is unique). */
  predicate PlateTaken(t: seq<Row<Vehiculo>>, p: string, except: int) {
    exists i :: 0 <= i < |t| && t[i].val.patente == p && t[i].id != except
  }

  /** `GET /`: every vehicle, highest id first. */
  function List(db: Db): (r: seq<Row<Vehiculo>>)
    ensures multiset(r) == multiset(db.vehiculos)
    ensures forall i, j :: 0 <= i < j < |r| ==> r[i].id >= r[j].id
  {
    ByIdDesc(db.vehiculos)
  }

  /** `POST /` with the next serial id `newId`. */
  function Create(db: Db, body: VehBody, newId: nat): (r: (Db, Reply<nat>))
    requires !Has(db.vehiculos, newId)
    ensures !Complete(body) ==> r == (db, Fail(400, MsgFaltantes))
    ensures Complete(body) && Normalise(body).None? ==> r == (db, Fail(500, MsgErrorCrear))
    ensures Complete(body) && Normalise(body).Some? && PlateTaken(db.vehiculos, Normalise(body).value.patente, -1) ==>
              r == (db, Fail(500, MsgErrorCrear))
    ensures r.1.status == 201 <==> Complete(body) && Normalise(body).Some?
                                   && !PlateTaken(db.vehiculos, Normalise(body).value.patente, -1)
    ensures r.1.status == 201 ==> r.1 == Ok(201, newId)
                                  && r.0 == db.(vehiculos := Insert(db.vehiculos, newId, Normalise(body).value))
    ensures r.1.status != 201 ==> r.0 == db
  {
    if !Complete(body) then (db, Fail(400, MsgFaltantes))
    else match Normalise(body)
      case None => (db, Fail(500, MsgErrorCrear))
      case Some(v) =>
        if PlateTaken(db.vehiculos, v.patente, -1) then (db, Fail(500, MsgErrorCrear))
        else (db.(vehiculos := Insert(db.vehiculos, newId, v)), Ok(201, newId))
  }

  /** `PUT /:id`: the answer carries the number of rows updated. */
  function Update(db: Db, idParam: string, body: VehBody): (r: (Db, Reply<nat>))
    ensures !Complete(body) ==> r == (db, Fail(400, MsgFaltantes))
    ensures Complete(body) && (Normalise(body).None? || ParseIntText(idParam).None?) ==> r == (db, Fail(500, MsgErrorActualizar))
    ensures Complete(body) && Normalise(body).Some? && ParseIntText(idParam).Some? ==>
              var n := ParseIntText(idParam).value;
              if n < 0 || !Has(db.vehiculos, n) then r == (db, Fail(404, MsgNoEncontrado))
              else if PlateTaken(db.vehiculos, Normalise(body).value.patente, n) then r == (db, Fail(500, MsgErrorActualizar))
              else r == (db.(vehiculos := Put(db.vehiculos, n, Normalise(body).value)), Ok(200, 1))
    ensures r.1.Fail? ==> r.0 == db
    ensures r.1.Ok? ==> r.0.usuarios == db.usuarios && r.0.inspecciones == db.inspecciones
                        && r.0.mantenciones == db.mantenciones
                        && |r.0.vehiculos| == |db.vehiculos|
  {
    if !Complete(body) then (db, Fail(400, MsgFaltantes))
    else if Normalise(body).None? || ParseIntText(idParam).None? then (db, Fail(500, MsgErrorActualizar))
    else
      var v, n := Normalise(body).value, ParseIntText(idParam).value;
      if n < 0 || !Has(db.vehiculos, n) then (db, Fail(404, MsgNoEncontrado))
      else if PlateTaken(db.vehiculos, v.patente, n) then (db, Fail(500, MsgErrorActualizar))
      else (db.(vehiculos := Put(db.vehiculos, n, v)), Ok(200, 1))
  }

  /** How many inspections name the vehicle `id` (`SELECT COUNT(*) ... WHERE vehiculo_id = $1`). */
  function Uses(t: seq<Row<Inspeccion>>, id: int): (r: nat)
    ensures r <= |t|
    ensures r == 0 <==> forall i :: 0 <= i < |t| ==> t[i].val.vehiculoId != id
  {
    if t == [] then 0 else (if t[0].val.vehiculoId == id then 1 else 0) + Uses(t[1..], id)
  }

  predicate InUse(db: Db, id: int) {
    exists i :: 0 <= i < |db.inspecciones| && db.inspecciones[i].val.vehiculoId == id
  }

  /** `DELETE /:id`. */
  function Delete(db: Db, idParam: string): (r: (Db, Reply<string>))
    ensures ParseIntText(idParam).None? ==> r == (db, Fail(500, MsgErrorEliminar))
    ensures ParseIntText(idParam).Some? ==>
              var n := ParseIntText(idParam).value;
              if InUse(db, n) then r == (db, Fail(400, MsgEnUso))
              else if n < 0 || !Has(db.vehiculos, n) then r == (db, Fail(404, MsgNoEncontrado))
              else r == (db.(vehiculos := Remove(db.vehiculos, n)), Ok(200, MsgEliminado))
    ensures r.1.Ok? ==> !Has(r.0.vehiculos, ParseIntText(idParam).value)
                        && forall k :: k != ParseIntText(idParam).value ==> Get(r.0.vehiculos, k) == Get(db.vehiculos, k)
    ensures r.1.Fail? ==> r.0 == db
  {
    match ParseIntText(idParam)
    case None => (db, Fail(500, MsgErrorEliminar))
    case Some(n) =>
      if Uses(db.inspecciones, n) > 0 then (db, Fail(400, MsgEnUso))
      else if n < 0 || !Has(db.vehiculos, n) then (db, Fail(404, MsgNoEncontrado))
      else (db.(vehiculos := Remove(db.vehiculos, n)), Ok(200, MsgEliminado))
  }

  /** Every inspection names a vehicle that exists (the inspection's foreign key). */
  predicate VehicleKeysHold(db: Db) {
    forall i :: 0 <= i < |db.inspecciones| ==> Has(db.vehiculos, db.inspecciones[i].val.vehiculoId)
  }

  /** The body a client sends back when it edits a stored vehicle without changing it. */
  function BodyOf(v: Vehiculo): VehBody {
    VehBody(Some(v.numeroInterno), Some(v.patente), JNum(v.kilometro))
  }

  lemma ParseOfDecimal(n: nat)
    ensures ParseIntText(NatToString(n)) == Some(n)
  {
    TrimDigits(NatToString(n));
  }

  /** A stored vehicle normalises to itself. */
  lemma NormaliseStored(v: Vehiculo)
    requires Trimmed(v.numeroInterno) && v.numeroInterno != []
    requires Trimmed(v.patente) && v.patente != [] && ToUpper(v.patente) == v.patente
    ensures Complete(BodyOf(v)) && Normalise(BodyOf(v)) == Some(v)
  {
    TrimOfTrimmed(v.numeroInterno);
    TrimOfTrimmed(v.patente);
  }

  /** Saving a stored vehicle unchanged leaves the store as it was: normalisation is idempotent. */
  lemma ResaveIsNoop(db: Db, body: VehBody, newId: nat)
    requires !Has(db.vehiculos, newId)
    requires Complete(body) && Normalise(body).Some? && !PlateTaken(db.vehiculos, Normalise(body).value.patente, -1)
    ensures var db1 := Create(db, body, newId).0;
            Update(db1, NatToString(newId), BodyOf(Normalise(body).value)) == (db1, Ok(200, 1))
  {
    var v := Normalise(body).value;
    var db1 := db.(vehiculos := Insert(db.vehiculos, newId, v));
    assert Create(db, body, newId).0 == db1;
    ParseOfDecimal(newId);
    UpperIdempotent(Trim(body.patente.value));
    assert v.patente == ToUpper(Trim(body.patente.value));
    NormaliseStored(v);
    assert Has(db1.vehiculos, newId);
    PlateFreeAfterInsert(db.vehiculos, newId, v);
    PutInserted(db.vehiculos, newId, v);
    assert Put(db1.vehiculos, newId, v) == db1.vehiculos;
    assert Update(db1, NatToString(newId), BodyOf(v)) == (db1.(vehiculos := Put(db1.vehiculos, newId, v)), Ok(200, 1));
  }

  lemma PlateFreeAfterInsert(t: seq<Row<Vehiculo>>, id: nat, v: Vehiculo)
    requires !Has(t, id) && !PlateTaken(t, v.patente, -1)
    ensures !PlateTaken(Insert(t, id, v), v.patente, id)
  {
    var t1 := Insert(t, id, v);
    assert t1 == t + [Row(id, v)];
    forall i | 0 <= i < |t1| && t1[i].id != id
      ensures t1[i].val.patente != v.patente
    {
      assert i < |t|;
      assert t1[i] == t[i];
    }
  }

  /** Deleting a vehicle just created, before anything refers to it, restores the store. */
  lemma CreateThenDelete(db: Db, body: VehBody, newId: nat)
    requires !Has(db.vehiculos, newId) && VehicleKeysHold(db)
    requires Complete(body) && Normalise(body).Some? && !PlateTaken(db.vehiculos, Normalise(body).value.patente, -1)
    ensures Delete(Create(db, body, newId).0, NatToString(newId)) == (db, Ok(200, MsgEliminado))
  {
    var v := Normalise(body).value;
    var db1 := db.(vehiculos := Insert(db.vehiculos, newId, v));
    assert Create(db, body, newId).0 == db1;
    ParseOfDecimal(newId);
    assert forall i :: 0 <= i < |db1.inspecciones| ==> db1.inspecciones[i].val.vehiculoId != newId;
    assert !InUse(db1, newId);
    assert Has(db1.vehiculos, newId);
    RemoveInserted(db.vehiculos, newId, v);
    assert db1.(vehiculos := Remove(db1.vehiculos, newId)) == db;
  }

  /** A referenced vehicle survives every delete request. */
  lemma GuardKeepsReferenced(db: Db, idParam: string)
    requires VehicleKeysHold(db)
    ensures VehicleKeysHold(Delete(db, idParam).0)
  {
  }
}

=== FILE: vehiculospage.dfy ===
/**
 * The vehicle management page: the save handler's normalisation, blank
 * and duplicate checks, the driver no-op guards, and the mapping of a
 * failed delete to the message shown.
 */
module VehiculosPage {
  import opened Js
  import opened Text
  import opened Table
  import opened Store
  import opened Duplicados
  import Vehiculos

  const AlertFaltantes := "Debe ingresar número interno y patente"
  const AlertPatente := "La patente ya está registrada."
  const AlertInterno := "El número interno ya está registrado."
  const AlertAsociado := "⚠️ No se puede eliminar porque está asociado a inspecciones o reportes."
  const AlertNoEncontrado := "Vehículo no encontrado."
  const AlertEliminado := "Vehículo eliminado correctamente"
  const AlertErrorPrefix := "Error al eliminar: "

  /** A vehicle as the page loaded it from the list route. */
  datatype Loaded = Loaded(id: nat, numeroInterno: string, patente: string, kilometro: int)

  /** The odometer field holds what the input typed, or the number copied from a loaded vehicle. */
  datatype KmField = KmText(s: string) | KmNumber(n: int)

  datatype Form = Form(id: Option<nat>, numeroInterno: string, patente: string, kilometro: KmField)

  /** What pressing save does. `Crash` is an exception thrown before any check or request. */
  datatype Save = Ignored | Crash | Alert(msg: string) | SendPut(id: Option<nat>, body: Vehiculo) | SendPost(body: Vehiculo)

  /** `abrirModal`: nothing for a driver; otherwise the form, and whether it edits. */
  function OpenModal(isConductor: bool, v: Option<Loaded>): (r: Option<(Form, bool)>)
    ensures isConductor <==> r.None?
    ensures r.Some? ==> (r.value.1 <==> v.Some?)
    ensures r.Some? && v.Some? ==> r.value.0.id == Some(v.value.id)
                                   && (r.value.0.kilometro == if v.value.kilometro == 0 then KmText("") else KmNumber(v.value.kilometro))
  {
    if isConductor then None
    else match v
      case None => Some((Form(None, "", "", KmText("")), false))
      case Some(x) =>
        Some((Form(Some(x.id), x.numeroInterno, x.patente, if x.kilometro == 0 then KmText("") else KmNumber(x.kilometro)), true))
  }

  /** `Number(text.replace(/\D/g, "")) || 0`: the number its digits spell, 0 when there are none. */
  function KmOfText(s: string): (r: nat)
    ensures OnlyDigits(s) && s != [] ==> r == DecimalValue(s)
    ensures KeepDigits(s) == [] ==> r == 0
  {
    KeepDigitsOfDigits(s);
    DecimalValue(KeepDigits(s))
  }

  /**
   * `(kilometro || "").replace(...)` as written: a number copied from a
   * loaded vehicle has no `replace`, so a nonzero one throws (`None`).
   */
  function KmAsWritten(k: KmField): (r: Option<nat>)
    ensures k.KmText? ==> r == Some(KmOfText(k.s))
    ensures k.KmNumber? ==> (r.None? <==> k.n != 0)
  {
    match k
    case KmText(s) => Some(KmOfText(s))
    case KmNumber(n) => if n == 0 then Some(0) else None
  }

  /** `String(n)` for any integer. */
  function IntText(n: int): string {
    if n < 0 then "-" + NatToString(-n) else NatToString(n)
  }

  /** The field read through `String(kilometro || "")`, so that a copied number keeps its value. */
  function KmFixed(k: KmField): (r: nat)
    ensures k.KmText? ==> r == KmOfText(k.s)
    ensures k.KmNumber? ==> r == if k.n < 0 then -k.n else k.n
  {
    match k
    case KmText(s) => KmOfText(s)
    case KmNumber(n) =>
      KeepDigitsOfDigits(NatToString(if n < 0 then -n else n));
      assert n < 0 ==> KeepDigits(IntText(n)) == KeepDigits(IntText(n)[1..]) by {
        if n < 0 { assert IntText(n)[1..] == NatToString(-n); }
      }
      KmOfText(IntText(n))
  }

  function Patentes(rows: seq<Loaded>): (r: seq<Entry>)
    ensures |r| == |rows|
    ensures forall i :: 0 <= i < |rows| ==> r[i] == Entry(rows[i].id, Some(rows[i].patente))
  {
    seq(|rows|, i requires 0 <= i < |rows| => Entry(rows[i].id, Some(rows[i].patente)))
  }

  function Internos(rows: seq<Loaded>): (r: seq<Entry>)
    ensures |r| == |rows|
    ensures forall i :: 0 <= i < |rows| ==> r[i] == Entry(rows[i].id, Some(rows[i].numeroInterno))
  {
    seq(|rows|, i requires 0 <= i < |rows| => Entry(rows[i].id, Some(rows[i].numeroInterno)))
  }

  /** `existeDuplicado`: a blank value never clashes. */
  function ExisteDuplicado(entries: seq<Entry>, valor: string, idActual: Option<nat>): (r: bool)
    ensures Trim(valor) == [] ==> !r
    ensures Trim(valor) != [] ==> (r <==> exists i :: 0 <= i < |entries| && Clashes(entries[i], valor, idActual))
  {
    Trim(valor) != [] && AnyClash(entries, valor, idActual)
  }

  /** The checks and the request, once the odometer value `km` is known. */
  function SaveWith(rows: seq<Loaded>, f: Form, editing: bool, km: nat): (r: Save)
    ensures !r.Ignored? && !r.Crash?
    ensures Trim(f.numeroInterno) == [] || Trim(f.patente) == [] ==> r == Alert(AlertFaltantes)
    ensures r.SendPut? || r.SendPost? ==>
              r.body == Vehiculo(Trim(f.numeroInterno), ToUpper(Trim(f.patente)), km)
              && !ExisteDuplicado(Patentes(rows), r.body.patente, f.id)
              && !ExisteDuplicado(Internos(rows), r.body.numeroInterno, f.id)
              && Trim(f.numeroInterno) != [] && Trim(f.patente) != []
    ensures r.SendPut? <==> editing && !r.Alert?
    ensures r.SendPut? ==> r.id == f.id
  {
    var interno := Trim(f.numeroInterno);
    var patente := ToUpper(Trim(f.patente));
    if interno == [] || patente == [] then Alert(AlertFaltantes)
    else if ExisteDuplicado(Patentes(rows), patente, f.id) then Alert(AlertPatente)
    else if ExisteDuplicado(Internos(rows), interno, f.id) then Alert(AlertInterno)
    else if editing then SendPut(f.id, Vehiculo(interno, patente, km))
    else SendPost(Vehiculo(interno, patente, km))
  }

  /** `guardar` as written. */
  function Guardar(rows: seq<Loaded>, f: Form, editing: bool, isConductor: bool): (r: Save)
    ensures isConductor ==> r == Ignored
    ensures !isConductor && KmAsWritten(f.kilometro).None? ==> r == Crash
    ensures !isConductor && KmAsWritten(f.kilometro).Some? ==> r == SaveWith(rows, f, editing, KmAsWritten(f.kilometro).value)
  {
    if isConductor then Ignored
    else match KmAsWritten(f.kilometro)
      case None => Crash
      case Some(km) => SaveWith(rows, f, editing, km)
  }

  /** `guardar` with the odometer read through `String(...)`. */
  function GuardarFixed(rows: seq<Loaded>, f: Form, editing: bool, isConductor: bool): (r: Save)
    ensures isConductor ==> r == Ignored
    ensures !isConductor ==> r == SaveWith(rows, f, editing, KmFixed(f.kilometro))
    ensures f.kilometro.KmText? ==> r == Guardar(rows, f, editing, isConductor)
  {
    if isConductor then Ignored else SaveWith(rows, f, editing, KmFixed(f.kilometro))
  }

  /** Opening a loaded vehicle with a nonzero odometer and saving it unchanged throws as written. */
  lemma EditUnchangedCrashes(rows: seq<Loaded>, v: Loaded)
    requires v.kilometro != 0
    ensures var (f, editing) := OpenModal(false, Some(v)).value;
            Guardar(rows, f, editing, false) == Crash
  {
  }

  /** The stored form of a vehicle is a fixed point of the page's normalisation. */
  predicate Normalised(v: Loaded) {
    Trimmed(v.numeroInterno) && v.numeroInterno != []
    && Trimmed(v.patente) && v.patente != [] && ToUpper(v.patente) == v.patente
    && v.kilometro >= 0
  }

  /** With the fix, saving a loaded vehicle unchanged sends it back as it was. */
  lemma EditUnchangedResends(rows: seq<Loaded>, v: Loaded)
    requires Normalised(v)
    requires forall i :: 0 <= i < |rows| && rows[i].id != v.id ==>
               ToLower(rows[i].patente) != ToLower(v.patente) && ToLower(rows[i].numeroInterno) != ToLower(v.numeroInterno)
    ensures var (f, editing) := OpenModal(false, Some(v)).value;
            GuardarFixed(rows, f, editing, false) == SendPut(Some(v.id), Vehiculo(v.numeroInterno, v.patente, v.kilometro))
  {
    TrimOfTrimmed(v.numeroInterno);
    TrimOfTrimmed(v.patente);
    var f := OpenModal(false, Some(v)).value.0;
    assert KmFixed(f.kilometro) == v.kilometro;
    assert !ExisteDuplicado(Patentes(rows), v.patente, Some(v.id));
    assert !ExisteDuplicado(Internos(rows), v.numeroInterno, Some(v.id));
  }

  /** A body the page sends is already in the server's stored form. */
  lemma ServerKeepsPayload(rows: seq<Loaded>, f: Form, editing: bool, km: nat)
    requires SaveWith(rows, f, editing, km).SendPut? || SaveWith(rows, f, editing, km).SendPost?
    ensures var b := SaveWith(rows, f, editing, km).body;
            Vehiculos.Complete(Vehiculos.BodyOf(b)) && Vehiculos.Normalise(Vehiculos.BodyOf(b)) == Some(b)
  {
    var b := SaveWith(rows, f, editing, km).body;
    UpperKeepsTrimmed(Trim(f.patente));
    UpperIdempotent(Trim(f.patente));
    Vehiculos.NormaliseStored(b);
  }

  /** What `eliminar` shows once the delete request has answered. */
  function DeleteAlert(reply: Reply<string>): (msg: string)
    ensures reply.Ok? ==> msg == AlertEliminado
    ensures reply.Fail? && reply.status == 400 && Includes(reply.message, "asociado") ==> msg == AlertAsociado
    ensures reply.Fail? && reply.status == 404 ==> msg == AlertNoEncontrado
    ensures reply.Fail? && reply.status != 404 && !(reply.status == 400 && Includes(reply.message, "asociado")) ==>
              msg == AlertErrorPrefix + reply.message
  {
    match reply
    case Ok(_, _) => AlertEliminado
    case Fail(status, message) =>
      if status == 400 && Includes(message, "asociado") then AlertAsociado
      else if status == 404 then AlertNoEncontrado
      else AlertErrorPrefix + message
  }

  /** `eliminar`: nothing for a driver or an unconfirmed dialog, otherwise the request and its alert. */
  function Eliminar(isConductor: bool, confirmed: bool, db: Db, id: nat): (r: (Db, Option<string>))
    ensures isConductor || !confirmed ==> r == (db, None)
    ensures !isConductor && confirmed ==> r == (Vehiculos.Delete(db, NatToString(id)).0, Some(DeleteAlert(Vehiculos.Delete(db, NatToString(id)).1)))
  {
    if isConductor || !confirmed then (db, None)
    else
      var (db1, reply) := Vehiculos.Delete(db, NatToString(id));
      (db1, Some(DeleteAlert(reply)))
  }

  /** Deleting a vehicle that an inspection names shows the association message and changes nothing. */
  lemma InUseShowsAssociation(db: Db, id: nat)
    requires Vehiculos.InUse(db, id)
    ensures Eliminar(false, true, db, id) == (db, Some(AlertAsociado))
  {
    Vehiculos.ParseOfDecimal(id);
    EnUsoMentionsAsociado();
    var r := Vehiculos.Delete(db, NatToString(id));
    assert r == (db, Fail(400, Vehiculos.MsgEnUso));
    assert DeleteAlert(r.1) == AlertAsociado;
  }

  lemma EnUsoMentionsAsociado()
    ensures Includes(Vehiculos.MsgEnUso, "asociado")
  {
    var pre := "No se puede eliminar este vehículo porque está ";
    var post := " a inspecciones.";
    assert Vehiculos.MsgEnUso == pre + "asociado" + post;
    IncludesMiddle(pre, "asociado", post);
  }

  /** Deleting an id with no row and no inspection shows the not-found message. */
  lemma MissingShowsNotFound(db: Db, id: nat)
    requires !Vehiculos.InUse(db, id) && !Has(db.vehiculos, id)
    ensures Eliminar(false, true, db, id) == (db, Some(AlertNoEncontrado))
  {
    Vehiculos.ParseOfDecimal(id);
  }
}
